=== FILE: README.md ===
# VectorDB-Plugin-for-KoboldAI — a verified model of its deterministic glue

This project models the parts of the VectorDB plugin that the program itself
decides. The plugin builds a TileDB vector database from a folder of
documents, images and audio transcripts, then answers questions through a
local KoboldCpp server. The text splitter, the embedding models, the vector
index, the vision and Whisper models, HTTP and the file system are
collaborators. They appear as function parameters or as plain input values,
such as a command's standard output, a directory listing, or the result a
call returned or the exception it raised.

What is modelled, one Dafny module per source file:

- `Constants` (`src/constants.py`): the document-loader registry, and the
  embedding, vision and Whisper model tables, with their invariants.
- `DocumentProcessor` (`src/document_processor.py`): the loader and options
  chosen by extension, and the metadata merge. Also the case-insensitive file
  filter, the worker count and the batch partition, the merge of batches in
  completion order, and the text coercion before splitting.
- `DatabaseInteractions` (`src/database_interactions.py`): the first-match
  batch-size table and the embedder family on the build and query sides.
  Also the retriever's metadata filter, the search post-filter, the JSON
  audit of loaded documents, and the order of a build's steps.
- `ChatKobold` (`src/chat_kobold.py`): the cached query engine (a two-state
  record), the two branches of a question, and the prompt and payload. Also
  the chunk and citation formatting, the fold of server-sent events into
  signals, and the relay that turns `finished` into citations.
- `DownloadKobold` (`src/download_kobold.py`): the `nvidia-smi` and
  `vulkaninfo --summary` parsing into four slots, and the device labels.
  Also the compatibility table, the download links, and the download guard.
- `ProcessImages` (`src/module_process_images.py`): the image-extension test,
  the vision-loader dispatch, and the per-image loop that isolates failures.
- `ModelsTab` (`src/gui_tabs_models.py`): the directory name of a model and
  the "Downloaded" column.
- `DownloadModel` (`src/download_model.py`): the local folder of a
  repository, the top-level file filter, and the result of a fetch.
- `TranscribeTab` (`src/gui_tabs_tools_transcribe.py`): the Whisper model
  mapping, the compute type and identifier, the slider, the shortened path,
  and the parameters a transcription starts with.
- `SettingsTab` (`src/gui_tabs_settings.py`): the aggregation of settings
  updates and the stretch factors of the settings groups.

Shared helpers:

- `Outcomes`: `Option`, `Result`, and the Python exceptions that matter.
- `Strings`: lower-casing, substrings, `split`/`join`, `strip`,
  `splitlines`, decimal round trip, and POSIX path names and suffixes.
- `Seqs`: filter, flatten, association-list lookup, reordering by a
  permutation, and the batch merge.

A Python exception is an `Err` value. A dict is a sequence of (key, value)
pairs in insertion order. The order in which a process pool completes is a
permutation passed in as a parameter.

## Model

| member | source | states |
|---|---|---|
| Constants.DocumentLoadersShape | src/constants.py:337-353 | The registry has exactly fifteen distinct keys, each a lower-case extension of at least two characters starting with '.'. |
| Constants.SharedLoaders | src/constants.py:343-348 | `.eml` and `.msg` map to the one e-mail loader; `.xls`, `.xlsx` and `.xlsm` map to the one Excel loader. |
| Constants.VectorModelsWellFormed | src/constants.py:1-109 | Every embedding model's repository id is its vendor, '/', and its name, and every entry has type "vector". |
| Constants.RepoIdOfVendor | src/constants.py:1-109 | A repository id whose head is "vendor/" and whose tail is the model's name is exactly "vendor/name". |
| Constants.BaaiModelsWellFormed | src/constants.py:2-30 | Each BAAI model's repository id is "BAAI/" followed by its name, and its type is "vector". |
| Constants.HkunlpModelsWellFormed | src/constants.py:31-59 | Each hkunlp model's repository id is "hkunlp/" followed by its name, and its type is "vector". |
| Constants.SentenceTransformersModelsWellFormed | src/constants.py:60-79 | Each sentence-transformers model's repository id is "sentence-transformers/" followed by its name, and its type is "vector". |
| Constants.ThenlperModelsWellFormed | src/constants.py:80-108 | Each thenlper model's repository id is "thenlper/" followed by its name, and its type is "vector". |
| Constants.VisionModelsShape | src/constants.py:112-134 | The vision keys are exactly Florence-2-base, Florence-2-large and Moondream2, in that order, and only Moondream2 requires CUDA. |
| Constants.WhisperKeysEndInPrecision | src/constants.py:136-334 | Every key of the Whisper table is written out as text, and a row is admitted only when its key ends in " - " followed by the name of its own precision field. For every key, the text after the last " - " is therefore that entry's precision. |
| DocumentProcessor.LoaderOptionsFor | src/document_processor.py:64-74 | The options for an extension are one of four fixed option sets, and no other. |
| DocumentProcessor.LoaderOptionsOfRegistry | src/document_processor.py:64-74 | Over the registered extensions, five formats get single mode with the fast strategy, `.xlsx` gets single mode, and `.csv`/`.txt` get UTF-8 with autodetection, each if and only if. The other seven get nothing, `.xls` and `.xlsm` among them, because the branch tests the unregistered `.xlsd`. |
| DocumentProcessor.LoadWith | src/document_processor.py:76-82 | On success, the content is the first loaded document's. The metadata keys are the union of the loader's and the extractor's, extracted values win, and other keys keep the loader's values. A failing loader raises its own error, and an empty load raises the `IndexError` of `[0]`; either happens before the extractor is consulted. Only after a non-empty load does an extractor error surface. |
| DocumentProcessor.LoadSingleDocument | src/document_processor.py:53-86 | An unregistered lower-cased suffix gives a `ValueError` naming that suffix. Otherwise the registered loader runs with that suffix's options and the metadata is merged. |
| DocumentProcessor.IsDocPathHasLoader | src/document_processor.py:58-59 | The file filter lower-cases both sides, so its test passes exactly when `load_single_document` finds a loader for the lower-cased suffix, whatever the case of the suffix. |
| DocumentProcessor.DocPaths | src/document_processor.py:103-104 | Every selected file is in the listing and passes the suffix test, and every listed file that passes it is selected. |
| DocumentProcessor.DocPathsHaveLoaders | src/document_processor.py:103-104 | No selected file can meet the undefined-extension error. |
| DocumentProcessor.IngestThreads | src/document_processor.py:48 | The thread count is at least 4 and at least the CPU count minus 4, and equals one of the two. |
| DocumentProcessor.Workers | src/document_processor.py:109 | The worker count is between 1 and the thread count, and is at most the number of files when there is one. |
| DocumentProcessor.CeilDiv | src/document_processor.py:116 | The chunk size is the least multiple count covering the files: `c*w >= n` and `(c-1)*w < n`. |
| DocumentProcessor.Plan | src/document_processor.py:106-120 | The submitted batches concatenate back to the selected files; `DocumentProcessor.PlanFitsWorkers` bounds their number and size. |
| DocumentProcessor.Batches | src/document_processor.py:118-120 | The batches concatenate back to the list. Each is non-empty and at most the chunk size, and all but the last are full. There are none exactly when the list is empty. |
| DocumentProcessor.PlanFitsWorkers | src/document_processor.py:106-120 | No more batches are submitted than there are workers. There are none exactly when no file is selected, each batch is non-empty, and together they are the selected files in order. |
| DocumentProcessor.LoadDocuments | src/document_processor.py:98-126 | An empty selection returns an empty list without loading anything. |
| DocumentProcessor.LoadDocumentsIsSequentialUpToOrder | src/document_processor.py:88-126 | Whatever order the batches complete in, the parallel load succeeds exactly when loading the files one by one does, and then returns the same documents as a multiset. Otherwise it fails with the error of one of the selected files. |
| DocumentProcessor.LoadDocumentsKeepsBatchOrder | src/document_processor.py:98-126 | On success, every batch loaded, and the result is the concatenation of the batches' documents taken in completion order. Within a batch, the documents keep the order of the files. |
| DocumentProcessor.LoadBatch | src/document_processor.py:88-96 | A batch that loads yields one document per file. A batch that fails raises the error of its first failing file in submission order, every earlier file having loaded. |
| DocumentProcessor.BatchesAreBatchLoads | src/document_processor.py:88-96 | Each batch is loaded by loading its files one at a time, and its documents are their documents in file order. |
| DocumentProcessor.Coerce | src/document_processor.py:139-140 | Text content is left unchanged; other content becomes its string form; metadata is kept. |
| DocumentProcessor.SplitDocuments | src/document_processor.py:128-146 | Every document handed to the splitter has text content, in place and in order. The chunks are the splitter's outcome on that coerced list, where the outcome also carries the exception of reading the chunk settings or building the splitter. |
| DocumentProcessor.CoerceIdempotent | src/document_processor.py:138-140 | Coercing an already coerced list changes nothing. |
| Seqs.MergeBatches | src/document_processor.py:122-124 | Merging batch results in any completion order yields a permutation of the results of running the batches in order, or an error from one of them. |
| Seqs.RunPoolKeepsBatchOrder | src/document_processor.py:117-124 | A pool run that succeeds had every batch succeed, and returns the batch results concatenated in completion order. |
| DatabaseInteractions.FirstMatchSpec | src/database_interactions.py:75-83 | The table scan picks the value of the smallest-index key that occurs in the name, and the default exactly when no key occurs. |
| DatabaseInteractions.BatchSize | src/database_interactions.py:54-59 | On the CPU, in any letter case, the batch size is 2. It is always one of the table's values or the default 8. |
| DatabaseInteractions.BatchSizeIsFirstMatch | src/database_interactions.py:56-83 | Off the CPU, the batch size is the value of the first key, in insertion order, that the model name contains, or 8 when it contains none. |
| DatabaseInteractions.InstructorXlFirst | src/database_interactions.py:61-62 | A name containing "instructor-xl" gets 2 whatever later keys it also contains. |
| DatabaseInteractions.FamilyOf | src/database_interactions.py:85-113 | The Instruct family applies if and only if the name contains "instructor". The BGE family applies if and only if the name contains "bge" but not "instructor". Otherwise the generic family applies. |
| DatabaseInteractions.BuildEmbedder | src/database_interactions.py:51-117 | A missing model name raises the `TypeError` of `in None`. Otherwise the family follows the name, remote code is trusted, and the batch size follows the device and name. The `encode_kwargs` progress flag is set for Instruct and BGE, but only the generic wrapper gets `show_progress` and only the generic wrapper receives `encode_kwargs`. Only BGE receives the query instruction. |
| DatabaseInteractions.QueryEmbedder | src/database_interactions.py:304-334 | An unknown database raises a `KeyError` naming it, a record without "model" raises `KeyError('model')`, and a BGE path without a configured instruction raises `KeyError('query_instruction')`. On success, the model path is the one recorded for the database, the family follows the same precedence, and the embedder runs on the configured query device. Embedding is one query at a time, with no progress flag and no `show_progress`. Only the generic wrapper trusts remote code, and only BGE gets an instruction, which is the configured one. |
| DatabaseInteractions.SameFamilyBothSides | src/database_interactions.py:85-113 | Building and querying with the same model name choose the same wrapper family. |
| DatabaseInteractions.SearchFilter | src/database_interactions.py:342-343 | An absent or empty `document_types` gives no filter. Otherwise the filter is exactly `document_type` equal to that value. |
| DatabaseInteractions.Search | src/database_interactions.py:357-366 | The two lists have equal length, no longer than the retrieved list. Each kept pair is a retrieved chunk whose lower-cased text contains the lower-cased term. |
| DatabaseInteractions.SearchOne | src/database_interactions.py:361 | A single chunk is kept exactly when the lower-cased term occurs in its lower-cased text. |
| DatabaseInteractions.SearchAppend | src/database_interactions.py:361-364 | Searching a concatenation is concatenating the searches, so retrieval order is kept. |
| DatabaseInteractions.SearchEmptyTermKeepsAll | src/database_interactions.py:360-364 | An absent or empty search term keeps every retrieved chunk. |
| DatabaseInteractions.SaveDocumentsToJson | src/database_interactions.py:158-178 | The loop completes exactly when every hashed document has a `file_path`. Otherwise it stops with the `TypeError` of `islink(None)`. |
| DatabaseInteractions.Resolved | src/database_interactions.py:168-171 | A written document keeps its content and metadata keys, and its `file_path` is the link target when it names a symbolic link. |
| DatabaseInteractions.AuditWritesHashed | src/database_interactions.py:162-178 | Documents without a hash are exactly those skipped. Each hashed document is written, in order, to `<hash>.json` with its content and metadata keys. |
| DatabaseInteractions.LoadAudioDocuments | src/database_interactions.py:180-195 | There are no more transcripts than listing entries; `DatabaseInteractions.LoadAudioDocumentsSound` and `DatabaseInteractions.LoadAudioDocumentsComplete` state which ones. |
| DatabaseInteractions.LoadAudioDocumentsSound | src/database_interactions.py:180-195 | Every transcript comes from a `.json` file of the listing that parsed to it. |
| DatabaseInteractions.LoadAudioDocumentsComplete | src/database_interactions.py:183-191 | Every `.json` file of the listing that parses contributes its transcript; a failing file is only skipped. |
| DatabaseInteractions.Gathered | src/database_interactions.py:234-256 | The gathered documents are the text documents, then the image descriptions, then the audio transcripts, when all three passes return. Otherwise the result is the exception of the first pass that raised, in that order. |
| DatabaseInteractions.Run | src/database_interactions.py:230-288 | The build's steps are always among split, pickle, structures, model, database, JSON, teardown and clear, in that order. An exception from the text, image or audio pass stops the build before any step, with that error. Splitting starts exactly when some document was gathered, and an exception from the splitter ends the build there. The model is loaded exactly when splitting produced a chunk. A failed model load ends the build with that error before the database, and a failed `create_database` ends it with that error before the JSON. The JSON is saved exactly when the database was created, and the build then fails exactly when the audit raised. The source folder is cleared exactly when the JSON was saved without error. The build reports no error exactly when every step it reached succeeded, so a build with nothing to split, or with no chunk, ends normally. |
| DatabaseInteractions.RunWithoutChunksSucceeds | src/database_interactions.py:259-267 | When the passes gather nothing, or the split yields no chunk, the build ends without an error and without loading a model. |
| DatabaseInteractions.RunStopsWithoutModelName | src/database_interactions.py:51-85 | When some chunk was produced but no embedding model is configured, the build raises the `TypeError` of `in None` at the model step, and neither creates the database nor clears the source folder. |
| DatabaseInteractions.RunAuditsEveryDocument | src/database_interactions.py:250-279 | When the build completes, every gathered document with a hash is audited, audio transcripts included, with its content as coerced by the split step. |
| ChatKobold.EnsureEngine | src/chat_kobold.py:60-62 | The engine is rebuilt exactly when there is none or it serves another database. A failed rebuild is the only error, and success leaves an engine for the selected database. |
| ChatKobold.EngineReused | src/chat_kobold.py:60-62 | A second question about the same database reuses the engine unchanged, and a new chat always builds one. |
| ChatKobold.Prompt | src/chat_kobold.py:73-74 | The augmented query; what it contains is stated by `ChatKobold.PromptHoldsEverything`. |
| ChatKobold.PromptHoldsEverything | src/chat_kobold.py:73-74 | The prompt opens with the instruction and its separator, ends with the query separator and the query, and contains every retrieved context. |
| ChatKobold.MakePayload | src/chat_kobold.py:77-84 | The payload carries the augmented prompt, a context length of 4096, an answer length of 512, temperature 0.1, top-p 0.9 and repetition penalty 1.1. |
| ChatKobold.FormatChunks | src/chat_kobold.py:105-109 | The listing is the concatenation of the numbered blocks, one per (context, metadata) pair from 1, and nothing else. |
| ChatKobold.FormatChunksAreBlocks | src/chat_kobold.py:105-109 | The chunk listing is one block per pair, numbered from 1 and stopping at the shorter list, with "Unknown" for a missing file name. |
| ChatKobold.FormatCitations | src/chat_kobold.py:115-116 | Citations fail with `KeyError('file_path')` exactly when some source lacks a `file_path`. |
| ChatKobold.CitedNames | src/chat_kobold.py:116 | There is one name per source, in order: the last component of its `file_path`. |
| ChatKobold.CitationsSplitBack | src/chat_kobold.py:115-116 | Splitting the citations on line breaks gives back the sources' file names in order, so there is no trailing newline. |
| ChatKobold.FoldEvents | src/chat_kobold.py:31-44 | The event loop itself never emits `finished`. `ChatKobold.FoldReportsFailures` states its error signals and where it stops. |
| ChatKobold.FoldReportsFailures | src/chat_kobold.py:31-49 | The event loop stops at the first message whose handler raises, with that exception. Before that, every message that is not JSON is reported in order as "Failed to parse: " followed by its data. |
| ChatKobold.WorkerRun | src/chat_kobold.py:26-49 | The worker emits `finished` exactly once, as its last signal, whether or not an exception escaped. When a message handler raised, the signals end with that exception's error and `finished`. Otherwise a transport failure ends them with its error and `finished`. |
| ChatKobold.WorkerReportsErrors | src/chat_kobold.py:26-49 | The worker's error signals are the parse failures in order, followed by the escaped exception: the first one a handler raised, or else the transport's. |
| ChatKobold.FoldForwardsTokens | src/chat_kobold.py:31-44 | When no handler raises, the fold consumes every event and forwards exactly the message tokens, in arrival order. Non-message events, bad JSON and token-less data forward nothing. |
| ChatKobold.WorkerForwardsTokens | src/chat_kobold.py:26-49 | The worker's responses are exactly the tokens in order. A transport failure is reported just before `finished`. |
| ChatKobold.AskKobold | src/chat_kobold.py:57-95 | The call answers exactly when the engine is available and the search returns. An engine that cannot be opened raises its error and keeps the previous state; a failing search raises its error with the new engine kept. On success the engine serves the selected database. Chunks-only mode emits the formatted chunks and then `finished`, with no worker. Otherwise a worker starts on the streaming URL with the payload, and the metadata is kept for the citations. |
| ChatKobold.FinishedOnce | src/chat_kobold.py:111-132 | A question ends with exactly one `finished` when only chunks are shown, or when the answer's citations can be formatted. It ends with none when the engine or the search fails or a source lacks its path. |
| ChatKobold.Relay | src/chat_kobold.py:87-113 | Each `finished` becomes the citations followed by `finished`. `ChatKobold.RelayPassesThrough` states that responses and errors pass through, and `ChatKobold.RelayFinished` counts the `finished` signals. |
| ChatKobold.RelayPassesThrough | src/chat_kobold.py:87-113 | The relay passes every response and every error of the worker through, in order. |
| ChatKobold.RelayFinished | src/chat_kobold.py:87-113 | The relay emits as many `finished` signals as the worker did when the citations can be formatted, and none when they cannot. |
| ChatKobold.ChatThreadRun | src/chat_kobold.py:125-132 | An exception out of `ask_kobold` becomes exactly one error signal carrying its text. When a worker starts, the question's responses and errors are the worker's. `ChatKobold.FinishedOnce` states how many `finished` it holds. |
| DownloadKobold.FillSlots | src/download_kobold.py:36-42 | There are always four slots: the first values in order, then the empty value. |
| DownloadKobold.NvidiaNames | src/download_kobold.py:32-45 | There are four slots, all empty when the command fails. Otherwise slot i holds the i-th stripped output line, when there is one. |
| DownloadKobold.NvidiaNamesRoundTrip | src/download_kobold.py:38-42 | GPU names printed one per line come back in their slots, up to four, with the rest empty. |
| DownloadKobold.FieldValue | src/download_kobold.py:55 | A field value is absent (an `IndexError`) exactly when the line has no '='. |
| DownloadKobold.FieldValues | src/download_kobold.py:55-56 | The comprehension raises exactly when some line lacks '='. Otherwise it gives one value per line, in order. |
| DownloadKobold.VulkanSlots | src/download_kobold.py:58-63 | Names fill the slots in order. A flag is 1 exactly when the type and name counts agree and that slot's type is the discrete-GPU type; flags are 0 or 1. |
| DownloadKobold.VulkanInfo | src/download_kobold.py:47-66 | There are always four name slots and four flags, each flag 0 or 1. A failed command gives four empty names and four 0 flags. |
| DownloadKobold.VulkanInfoMalformed | src/download_kobold.py:54-56 | A name or type line without '=' leaves every slot empty and every flag 0. |
| DownloadKobold.VulkanInfoSlots | src/download_kobold.py:51-63 | With well-formed lines, names fill in order and a flag is 1 exactly when the counts agree and that slot's type is a discrete GPU. |
| DownloadKobold.DeviceLinesPerSlot | src/download_kobold.py:176-186 | The device labels list exactly the non-empty slots, in slot order, each under its own 1-based slot number. |
| DownloadKobold.CudaLabel | src/download_kobold.py:176-180 | The CUDA label is its header followed by one line per non-empty slot, in slot order, each under its 1-based number. |
| DownloadKobold.VulkanLabel | src/download_kobold.py:182-186 | The Vulkan label is its header followed by one line per non-empty slot, in slot order, each under its 1-based number and marked when that slot's device is discrete. |
| DownloadKobold.EmptySlotsNoLines | src/download_kobold.py:176-186 | With no device found, a label is its header alone. |
| DownloadKobold.DownloadLinksShape | src/download_kobold.py:239-244 | There are four binaries with distinct names, each fetched from the latest-release download URL ending in its own name. |
| DownloadKobold.CompatibilityTable | src/download_kobold.py:199-200 | There is one row per binary, in link order. |
| DownloadKobold.CompatibilityTableRows | src/download_kobold.py:199-212 | A binary requires AVX2 exactly when it is not the old-CPU build, and supports CUDA exactly when it is not the no-CUDA build. |
| DownloadKobold.StartDownload | src/download_kobold.py:216-226 | A download thread starts exactly when the selection is a known binary, on that binary's URL and file name. Otherwise the error box names the selection. |
| DownloadKobold.DefaultSelectionDownloads | src/download_kobold.py:151 | The binary selected when the window opens can be downloaded. |
| ProcessImages.ImageFiles | src/module_process_images.py:113 | The image files are exactly the listing entries with an allowed extension: every one selected is such an entry, and every such entry is selected. There are no more of them than entries. |
| ProcessImages.CheckForImages | src/module_process_images.py:48-52 | Some listing entry has an allowed extension; `ProcessImages.CheckMatchesImageFiles` relates it to the image pass. |
| ProcessImages.CheckMatchesImageFiles | src/module_process_images.py:48-52 | The check finds an image exactly when the per-image loop has a file to process; both use the same extension test. |
| ProcessImages.ImageFilesHaveDots | src/module_process_images.py:36 | A name without a '.' is never an image file. |
| ProcessImages.LoaderFor | src/module_process_images.py:66-74 | "Moondream2" selects the Moondream loader, and either Florence-2 name selects the Florence-2 loader, each if and only if. |
| ProcessImages.ProcessImageFiles | src/module_process_images.py:107-141 | The pass raises exactly when the model cannot be initialised, with that error. Otherwise it yields no more documents than image files. `ProcessImages.ProcessImageFilesOne` and `ProcessImages.ProcessImageFilesAppend` state that each file contributes at most its own description, in listing order. |
| ProcessImages.ProcessImageFilesSound | src/module_process_images.py:122-132 | Every document is the description of an image file of the listing. |
| ProcessImages.ProcessImageFilesComplete | src/module_process_images.py:122-132 | Every image file that describes cleanly yields its document; a failing file only skips itself. |
| ProcessImages.ProcessImageFilesAllDescribed | src/module_process_images.py:113-132 | When no image fails, the documents are the descriptions of the image files in listing order. |
| ProcessImages.ProcessImageFilesOne | src/module_process_images.py:113-132 | A single file yields its description when it is an image that describes cleanly, and nothing otherwise. |
| ProcessImages.ProcessImageFilesAppend | src/module_process_images.py:113-132 | Listing order is kept whichever images fail: the documents of two listings joined are those of the first followed by those of the second. |
| ProcessImages.RunLoaderInProcess | src/module_process_images.py:54-60 | An exception in the loader becomes an empty list. |
| ProcessImages.ChooseImageLoader | src/module_process_images.py:62-93 | An unknown model, a folder without images, or a failed worker process gives no documents. There are never more documents than image files. With a known model, images and a worker that survives, a model that fails to load gives no documents, and otherwise the documents are exactly those of the image pass. |
| ProcessImages.ChooseImageLoaderSound | src/module_process_images.py:62-93 | Every document the chooser returns comes from a known model and is the description of some image file of the listing. |
| ProcessImages.ChooseImageLoaderComplete | src/module_process_images.py:62-93 | With a known model that loads and a worker that survives, every image file that describes cleanly contributes its document. |
| ProcessImages.NoModelOrNoImagesNeverLoads | src/module_process_images.py:68-81 | Without a known model or without an image, the result is empty and does not depend on the vision model. |
| ModelsTab.DirName | src/gui_tabs_models.py:133-134 | The directory name is the downloader's folder name. At every position it has '_' where the model name has '/' and the model name's character elsewhere, and the two have the same length. |
| ModelsTab.DirNameIsFolderName | src/gui_tabs_models.py:133-134 | The tab looks for exactly the folder the downloader creates. |
| ModelsTab.Status | src/gui_tabs_models.py:80-82 | The cell says "Yes" exactly when the model's directory exists, and "No" exactly when it does not. |
| ModelsTab.VectorRows | src/gui_tabs_models.py:53-85 | The rows of every embedding model, vendor by vendor in table order; `ModelsTab.VectorRowOfEachModel` states each model's row. |
| ModelsTab.VectorRowOfEachModel | src/gui_tabs_models.py:53-85 | Every embedding model of the table has its row, keyed "vendor/name", with "Yes" exactly when that key's directory exists. |
| ModelsTab.DownloadedModelShowsYes | src/gui_tabs_models.py:71-82 | A model the downloader fetched is shown as downloaded. |
| ModelsTab.VisionRows | src/gui_tabs_models.py:115-126 | There is one vision row per table key, in table order. |
| ModelsTab.VisionStatusIsOwnKey | src/gui_tabs_models.py:121-123 | A vision model shows "Yes" exactly when a directory named by its own key exists. |
| DownloadModel.FolderName | src/download_model.py:30 | At every position, the folder name has '_' where the repository id has '/' and the id's character elsewhere. The two have the same length. |
| DownloadModel.FolderNameIdempotent | src/download_model.py:30 | Renaming a folder name again changes nothing. |
| DownloadModel.FolderNamesCollide | src/download_model.py:30 | The renaming is not one-to-one: two distinct repository ids can share a folder. |
| DownloadModel.LocalDir | src/download_model.py:29-33 | The directory is the application directory, then "/Models/vector/", then the repository's folder name. `DownloadModel.LocalDirEndsInFolder` states its last component. |
| DownloadModel.LocalDirEndsInFolder | src/download_model.py:31-33 | The local directory's last component is the repository's folder name. |
| DownloadModel.TopLevelFiles | src/download_model.py:14 | The top-level files are exactly the listing entries without '/'. |
| DownloadModel.TopLevelFilesKeepOrder | src/download_model.py:14 | The filter keeps listing order. |
| DownloadModel.DownloadModelFiles | src/download_model.py:9-27 | A failed listing, or one without top-level files, returns false with no snapshot. Otherwise the snapshot is asked for exactly the top-level files, and the result is true exactly when it completes. |
| DownloadModel.DownloadSucceededMeansSnapshot | src/download_model.py:14-24 | True means the listing had a top-level file and a snapshot of the top-level files completed. |
| TranscribeTab.ComputeType | src/gui_tabs_tools_transcribe.py:96 | Without a " - " the compute type is the whole text. Otherwise it is exactly the text after the last occurrence of " - ": it is preceded by one, and no later " - " starts. |
| TranscribeTab.ModelIdentifier | src/gui_tabs_tools_transcribe.py:94 | A mapped text gives its repository, and any other text gives itself. |
| TranscribeTab.DisplayNameParts | src/gui_tabs_tools_transcribe.py:34 | A display name splits back into its size and its precision. |
| TranscribeTab.MappingEntry | src/gui_tabs_tools_transcribe.py:34-36 | Each entry's compute type is its precision, its key's head is its size, and it maps to the repository of that size and precision. |
| TranscribeTab.MappingShape | src/gui_tabs_tools_transcribe.py:34-36 | The mapping has six entries, one per size and precision, with no key twice. |
| TranscribeTab.EntryKeysDiffer | src/gui_tabs_tools_transcribe.py:34-36 | Two different (size, precision) pairs give different display names. |
| TranscribeTab.ChosenEntryParameters | src/gui_tabs_tools_transcribe.py:93-96 | Choosing an entry yields its repository as identifier and its precision as compute type. |
| TranscribeTab.InitialTab | src/gui_tabs_tools_transcribe.py:44-48 | The tab starts with the slider at 8, the label showing it, and no file. |
| TranscribeTab.MoveSlider | src/gui_tabs_tools_transcribe.py:45-49 | After a move, the label shows the slider's value, which lies within 1..150. An in-range value is taken as given, and nothing else changes. |
| TranscribeTab.ChooseModel | src/gui_tabs_tools_transcribe.py:38 | Picking an entry records it as the choice and changes nothing else: the slider value, its label, the selected file and the path text are kept. |
| TranscribeTab.ShortPathParts | src/gui_tabs_tools_transcribe.py:84 | The shown path is "...", the parent directory's name, "/", and the file's name. |
| TranscribeTab.ShortPathEndsInName | src/gui_tabs_tools_transcribe.py:84 | For a file in a directory, the shown path ends in "/" and the file's name. |
| TranscribeTab.SelectAudioFile | src/gui_tabs_tools_transcribe.py:79-86 | A cancelled dialog changes nothing. Otherwise the file is remembered and shown shortened, and the model and slider are kept. |
| TranscribeTab.StartTranscription | src/gui_tabs_tools_transcribe.py:88-98 | Without a file nothing starts. `int()` of the label fails only when a file is set and the label is not a number. A job takes its identifier and compute type from the current entry and its batch size from the label. |
| TranscribeTab.StartTranscriptionUsesChoices | src/gui_tabs_tools_transcribe.py:88-98 | With a file chosen, the job runs the chosen entry's repository and precision, with the slider's value as the batch size. |
| SettingsTab.NoticeFor | src/gui_tabs_settings.py:15-16 | The title and details say "Settings Updated" and "One or more settings have been updated." exactly when something was updated, and the "No Updates" pair otherwise. |
| SettingsTab.UpdateAllConfigs | src/gui_tabs_settings.py:7-18 | Every group except "Kobold AI" is asked once, in order, with no short-circuit. The result is true exactly when some asked group reported a change, and the notice follows it. |
| SettingsTab.UpdateAllConfigsOnTab | src/gui_tabs_settings.py:28-32 | On the tab's groups, "Kobold AI" is never asked, and the two database groups are asked once each, in order. |
| SettingsTab.AdjustStretch | src/gui_tabs_settings.py:20-22 | A checked group keeps its configured factor and an unchecked one gets 0. |
| SettingsTab.AdjustStretchStable | src/gui_tabs_settings.py:20-22 | Sizing again with the same check boxes changes nothing. |
| SettingsTab.AllCheckedKeepsFactors | src/gui_tabs_settings.py:35-44 | With every group expanded, as the tab starts, each group keeps its configured factor. |

## Left out

- Lower-casing and `isspace`/`splitlines` cover ASCII letters and the fixed
  set of separators Python knows; Unicode case folding beyond 'A'-'Z' is not
  modelled.
- Paths are POSIX strings. `Path.name`, `Path.parent.name`, `Path.suffix` and
  `os.path.splitext` are modelled on '/' separators only. Windows drive
  letters and backslashes are not modelled.
- `int()` is modelled on unsigned decimal digits only. Signs, surrounding
  spaces and underscores are not modelled; the slider label never holds them.
- File reading, YAML config reads, pickle and document-structure writes, the
  clearing of the source folder, and the creation of directories are I/O.
  They appear only as steps of the build or as parameters.
- `create_database` (TileDB), the text splitter, the embedders' numerics, the
  retriever's ranking and score threshold, and `float()`/`int()` of the
  retriever settings are foreign code or floating point.
- `islink`/`realpath` are the `linkTarget` parameter: resolution itself is
  file-system behaviour.
- Threads, processes, QThreads and Qt signal timing are left out. A pool is
  a completion order, and the race of storing `metadata_list` after the worker
  starts is not modelled: the relay reads the metadata of the same question.
- Torch device selection and memory teardown are left out; they are a single
  teardown step in the build.
- The download thread's progress percentage is float division and is not
  modelled.
- The AVX2 and NVIDIA detection labels of `update_system_info`, and
  `check_avx2_support`/`check_nvidia_gpu`, depend only on subprocess and
  cpuinfo results.
- `process_single_image` and `initialize_model_and_tokenizer` of the vision
  loaders, and the Whisper transcriber, are inference. They are the
  `describe` and `init` parameters.
- `choose_image_loader` and `process_images` each list the image folder. Both
  listings are modelled as the same listing. The exceptions of reading the
  vision settings and of listing the image or audio folder are not produced
  by `ProcessImages.ChooseImageLoader` or
  `DatabaseInteractions.LoadAudioDocuments`; a build receives them as the
  `images` and `audio` outcomes of `DatabaseInteractions.Run`.
- DownloadModel.LocalDir: the downloader stores models under
  "Models/vector", while the models tab looks under "Models/Vector". That
  agrees only on a case-insensitive file system; the model compares names
  within one listing and leaves the directory case out.
- DatabaseInteractions.Run: loading the embedding model and
  `create_database` appear only as their outcomes (the `model` and `created`
  parameters). The embedder that a model load returns is not used further,
  because the TileDB build is foreign code. The pickle and structure writes,
  the teardown and the clearing of the source folder are file-system and
  device work, and are modelled as steps that do not raise.
- ModelsTab.DirName: the `model_type` argument of `get_model_directory_name`
  is ignored by the source and dropped from the model.
- TranscribeTab.MoveSlider: `QSlider` clamping is modelled as a clamp to
  1..150; the widget itself is not modelled.
- The root `download_kobold.py`, `src/gui_tabs.py`,
  `src/gui_tabs_settings_server.py` and `src/gui_tabs_database_query.py` are
  widgets and duplicates, and are not part of this model. Widget layout in
  the modelled GUI files is also left out.

=== FILE: chat_kobold.dfy ===
/** Answering a question against a local KoboldCpp server: the cached query
    engine, the two branches of a request (show the retrieved chunks, or
    stream an answer), the prompt and payload, the formatting of chunks and
    citations, and the signals the streaming worker emits while it folds the
    server's events. The vector search, the HTTP stream and the JSON parser
    are collaborators passed in. */
module ChatKobold {
  import opened Outcomes
  import opened Strings
  import opened Seqs
  import opened DocumentProcessor

  /** What the chat emits to the window: a response fragment, an error, the
      citations, or the end of the answer. */
  datatype Signal = Response(text: string) | ErrorSignal(message: string) | Citation(text: string) | Finished

  /** `str(e)` of an exception: a `KeyError` shows its key quoted. */
  function ErrorText(e: Error): string {
    match e
    case KeyError(key) => "'" + key + "'"
    case ValueError(m) => m
    case IndexError(m) => m
    case TypeError(m) => m
    case Raised(m) => m
  }

  // ---------------------------------------------------------------------
  // The cached engine

  /** A `KoboldChat`: the database its cached query engine was opened on. */
  datatype ChatState = ChatState(engine: Option<string>)

  /** A new chat holds no engine. */
  const FreshChat := ChatState(None)

  /** The engine is rebuilt exactly when there is none or it was opened on
      another database. */
  predicate NeedsEngine(s: ChatState, selected: string) {
    s.engine.None? || s.engine.value != selected
  }

  /** The reinitialisation step of `ask_kobold`: `open` stands for the
      `QueryVectorDB` constructor and yields its exception, if any; on failure
      the previous engine stays in place. */
  function EnsureEngine(s: ChatState, selected: string, open: string -> Option<Error>): (r: Result<ChatState>)
    ensures r.Ok? ==> r.value.engine == Some(selected)
    ensures !NeedsEngine(s, selected) ==> r == Ok(s)
    ensures r.Err? <==> NeedsEngine(s, selected) && open(selected).Some?
  {
    if NeedsEngine(s, selected) then
      match open(selected)
      case Some(e) => Err(e)
      case None => Ok(ChatState(Some(selected)))
    else Ok(s)
  }

  /** Asking again about the same database reuses the engine, and a chat thread,
      which starts with a fresh chat, always builds one. */
  lemma EngineReused(s: ChatState, selected: string, open: string -> Option<Error>)
    ensures var r := EnsureEngine(s, selected, open);
            r.Ok? ==> !NeedsEngine(r.value, selected) && EnsureEngine(r.value, selected, open) == r
    ensures NeedsEngine(FreshChat, selected)
  {
  }

  // ---------------------------------------------------------------------
  // Prompt and payload

  const Prepend := "Only base your answer on the provided context/contexts. If you cannot, please state so."
  const ContextSeparator := "\n\n---\n\n"
  const QuerySeparator := "\n\n-----\n\n"

  /** The augmented query sent as the prompt. */
  function Prompt(contexts: seq<string>, query: string): string {
    Prepend + ContextSeparator + Join(ContextSeparator, contexts) + QuerySeparator + query
  }

  /** The prompt opens with the instruction, ends with the query after the
      query separator, and holds every retrieved context. */
  lemma PromptHoldsEverything(contexts: seq<string>, query: string)
    ensures var p := Prompt(contexts, query);
            && p[..|Prepend + ContextSeparator|] == Prepend + ContextSeparator
            && p[|p| - |QuerySeparator + query|..] == QuerySeparator + query
            && forall k :: 0 <= k < |contexts| ==> IsSubstring(contexts[k], p)
  {
    var head := Prepend + ContextSeparator;
    var body := Join(ContextSeparator, contexts);
    var tail := QuerySeparator + query;
    var p := Prompt(contexts, query);
    assert p == head + body + tail;
    assert p == head + (body + tail);
    forall k | 0 <= k < |contexts|
      ensures IsSubstring(contexts[k], p)
    {
      JoinHasParts(ContextSeparator, contexts, k);
      SubstringAppend(contexts[k], body, tail);
      SubstringAppend(contexts[k], head, body + tail);
    }
  }

  /** The request body of the streaming call. */
  datatype Payload = Payload(
    prompt: string,
    maxContextLength: nat,
    maxLength: nat,
    temperature: real,
    topP: real,
    repPen: real)

  function MakePayload(contexts: seq<string>, query: string): (p: Payload)
    ensures p.prompt == Prompt(contexts, query)
    ensures p.maxContextLength == 4096 && p.maxLength == 512
    ensures p.temperature == 0.1 && p.topP == 0.9 && p.repPen == 1.1
  {
    Payload(Prompt(contexts, query), 4096, 512, 0.1, 0.9, 1.1)
  }

  const ApiUrl := "http://localhost:5001/api/extra/generate/stream"

  // ---------------------------------------------------------------------
  // Chunks and citations

  /** One block of `format_chunks`, numbered `i`. */
  function ChunkBlock(i: nat, context: string, metadata: Metadata): string {
    var fileName := if "file_name" in metadata then metadata["file_name"] else "Unknown";
    "---------- Context " + NatToString(i) + " | From File: " + fileName + " ----------\n\n" + context + "\n\n"
  }

  /** `format_chunks` from block number `first` on: one block per pair of the
      two lists, stopping at the shorter one. */
  function FormatChunksFrom(first: nat, contexts: seq<string>, metas: seq<Metadata>): string
    decreases |contexts|
  {
    if |contexts| == 0 || |metas| == 0 then ""
    else ChunkBlock(first, contexts[0], metas[0]) + FormatChunksFrom(first + 1, contexts[1..], metas[1..])
  }

  /** `format_chunks`: the blocks numbered from 1, one per pair. */
  function FormatChunks(contexts: seq<string>, metas: seq<Metadata>): (text: string)
    ensures text == Flatten(Blocks(1, contexts, metas))
  {
    FormatChunksAreBlocks(1, contexts, metas);
    FormatChunksFrom(1, contexts, metas)
  }

  function Min(a: nat, b: nat): nat {
    if a < b then a else b
  }

  /** The blocks of the chunk listing, numbered from `first`, as a list. */
  function Blocks(first: nat, contexts: seq<string>, metas: seq<Metadata>): (bs: seq<string>)
    ensures |bs| == Min(|contexts|, |metas|)
  {
    seq(Min(|contexts|, |metas|), k requires 0 <= k < Min(|contexts|, |metas|) => ChunkBlock(first + k, contexts[k], metas[k]))
  }

  /** The listing is the concatenation of block `k + first` for every pair
      `k` the shorter list allows, and nothing beyond it. */
  lemma {:induction false} FormatChunksAreBlocks(first: nat, contexts: seq<string>, metas: seq<Metadata>)
    ensures FormatChunksFrom(first, contexts, metas) == Flatten(Blocks(first, contexts, metas))
    decreases |contexts|
  {
    if |contexts| > 0 && |metas| > 0 {
      FormatChunksAreBlocks(first + 1, contexts[1..], metas[1..]);
      var bs := Blocks(first, contexts, metas);
      assert bs[1..] == Blocks(first + 1, contexts[1..], metas[1..]);
    } else {
      assert Blocks(first, contexts, metas) == [];
    }
  }

  /** `format_citations`: the file names of the sources, one per line, or the
      `KeyError` of the first entry without a `file_path`. */
  function FormatCitations(metas: seq<Metadata>): (r: Result<string>)
    ensures r.Err? <==> exists k :: 0 <= k < |metas| && "file_path" !in metas[k]
    ensures r.Err? ==> r.error == KeyError("file_path")
  {
    if forall k :: 0 <= k < |metas| ==> "file_path" in metas[k] then
      Ok(Join("\n", CitedNames(metas)))
    else Err(KeyError("file_path"))
  }

  /** The file name of each source. */
  function CitedNames(metas: seq<Metadata>): (names: seq<string>)
    requires forall k :: 0 <= k < |metas| ==> "file_path" in metas[k]
    ensures |names| == |metas|
    ensures forall k :: 0 <= k < |metas| ==> names[k] == PathName(metas[k]["file_path"])
  {
    seq(|metas|, k requires 0 <= k < |metas| => PathName(metas[k]["file_path"]))
  }

  /** Splitting the citations on line breaks gives back one file name per
      source, in order, whenever no file name holds a line break. */
  lemma CitationsSplitBack(metas: seq<Metadata>)
    requires |metas| >= 1
    requires forall k :: 0 <= k < |metas| ==> "file_path" in metas[k] && '\n' !in PathName(metas[k]["file_path"])
    ensures FormatCitations(metas).Ok?
    ensures Split(FormatCitations(metas).value, '\n') == CitedNames(metas)
  {
    JoinSplit(CitedNames(metas), '\n');
  }

  // ---------------------------------------------------------------------
  // The streaming worker

  /** A server-sent event: its type and its data. */
  datatype Event = Event(kind: string, data: string)

  /** What `json.loads(data)` and the `'token'` test make of a message:
      not JSON, a token, JSON without a token, or an exception other than a
      decoding error (`data['token']` on a value that is not a mapping). */
  datatype Parsed = BadJson | Token(token: string) | NoToken | Raises(message: string)

  /** The response stream: the events received, and the exception that ended
      it early (a refused connection, an HTTP error status, a broken stream). */
  datatype Stream = Stream(events: seq<Event>, failure: Option<string>)

  /** The signals of the event loop over `events`, and whether an exception
      escaped it. */
  function FoldEvents(events: seq<Event>, parse: string -> Parsed): (r: (seq<Signal>, Option<string>))
    ensures forall k :: 0 <= k < |r.0| ==> r.0[k] != Finished
  {
    if |events| == 0 then ([], None)
    else
      var e := events[0];
      if e.kind != "message" then FoldEvents(events[1..], parse)
      else
        match parse(e.data)
        case BadJson =>
          var rest := FoldEvents(events[1..], parse);
          ([ErrorSignal("Failed to parse: " + e.data)] + rest.0, rest.1)
        case Token(t) =>
          var rest := FoldEvents(events[1..], parse);
          ([Response(t)] + rest.0, rest.1)
        case NoToken => FoldEvents(events[1..], parse)
        case Raises(m) => ([], Some(m))
  }

  /** The message of the first message event whose handler raises, if any. */
  function FirstRaise(events: seq<Event>, parse: string -> Parsed): Option<string> {
    if |events| == 0 then None
    else if events[0].kind == "message" && parse(events[0].data).Raises? then Some(parse(events[0].data).message)
    else FirstRaise(events[1..], parse)
  }

  /** The "Failed to parse" reports of the message events that are not JSON,
      in order, up to the first event whose handler raises. */
  function ParseFailures(events: seq<Event>, parse: string -> Parsed): seq<string> {
    if |events| == 0 then []
    else if events[0].kind == "message" && parse(events[0].data).Raises? then []
    else
      var here := if events[0].kind == "message" && parse(events[0].data).BadJson?
                  then ["Failed to parse: " + events[0].data] else [];
      here + ParseFailures(events[1..], parse)
  }

  /** The messages of the error signals, in order. */
  function Errors(signals: seq<Signal>): seq<string> {
    if |signals| == 0 then []
    else (if signals[0].ErrorSignal? then [signals[0].message] else []) + Errors(signals[1..])
  }

  lemma {:induction false} ErrorsAppend(a: seq<Signal>, b: seq<Signal>)
    ensures Errors(a + b) == Errors(a) + Errors(b)
  {
    if |a| > 0 {
      assert (a + b)[1..] == a[1..] + b;
      ErrorsAppend(a[1..], b);
    } else {
      assert a + b == b;
    }
  }

  /** The event loop stops at the first message whose handler raises, with
      that exception, and reports every undecodable message before it as
      "Failed to parse: " followed by its data. */
  lemma {:induction false} FoldReportsFailures(events: seq<Event>, parse: string -> Parsed)
    ensures FoldEvents(events, parse).1 == FirstRaise(events, parse)
    ensures Errors(FoldEvents(events, parse).0) == ParseFailures(events, parse)
  {
    if |events| > 0 {
      FoldReportsFailures(events[1..], parse);
      var rest := FoldEvents(events[1..], parse).0;
      var e := events[0];
      if e.kind == "message" {
        match parse(e.data)
        case BadJson => ErrorsAppend([ErrorSignal("Failed to parse: " + e.data)], rest);
        case Token(t) => ErrorsAppend([Response(t)], rest);
        case NoToken =>
        case Raises(m) =>
      }
    }
  }

  /** `KoboldAPIWorker.run`: the folded events, the error of an escaped
      exception, and `finished` in every case. The escaped exception is the
      first one a message handler raised, or else the transport's. */
  function WorkerRun(stream: Stream, parse: string -> Parsed): (signals: seq<Signal>)
    ensures |signals| > 0 && signals[|signals| - 1] == Finished
    ensures forall k :: 0 <= k < |signals| - 1 ==> signals[k] != Finished
    ensures FirstRaise(stream.events, parse).Some? ==>
              |signals| >= 2 && signals[|signals| - 2..] == [ErrorSignal(FirstRaise(stream.events, parse).value), Finished]
    ensures FirstRaise(stream.events, parse).None? && stream.failure.Some? ==>
              |signals| >= 2 && signals[|signals| - 2..] == [ErrorSignal(stream.failure.value), Finished]
  {
    FoldReportsFailures(stream.events, parse);
    var (emitted, raised) := FoldEvents(stream.events, parse);
    var escaped := if raised.Some? then raised else stream.failure;
    emitted + (if escaped.Some? then [ErrorSignal(escaped.value)] else []) + [Finished]
  }

  /** The worker's error signals are the parse failures in order, then the
      exception that escaped, if one did. */
  lemma WorkerReportsErrors(stream: Stream, parse: string -> Parsed)
    ensures Errors(WorkerRun(stream, parse))
         == ParseFailures(stream.events, parse)
            + (if FirstRaise(stream.events, parse).Some? then [FirstRaise(stream.events, parse).value]
               else if stream.failure.Some? then [stream.failure.value] else [])
  {
    FoldReportsFailures(stream.events, parse);
    var (emitted, raised) := FoldEvents(stream.events, parse);
    var escaped := if raised.Some? then raised else stream.failure;
    var extra := if escaped.Some? then [ErrorSignal(escaped.value)] else [];
    ErrorsAppend(emitted, extra);
    ErrorsAppend(emitted + extra, [Finished]);
    assert Errors([Finished]) == [];
    assert escaped.Some? ==> Errors(extra) == [escaped.value];
  }

  /** The tokens of the message events, in order. */
  function Tokens(events: seq<Event>, parse: string -> Parsed): seq<string> {
    if |events| == 0 then []
    else
      var rest := Tokens(events[1..], parse);
      if events[0].kind == "message" && parse(events[0].data).Token? then [parse(events[0].data).token] + rest
      else rest
  }

  /** The texts of the response signals, in order. */
  function Responses(signals: seq<Signal>): seq<string> {
    if |signals| == 0 then []
    else (if signals[0].Response? then [signals[0].text] else []) + Responses(signals[1..])
  }

  predicate NeverRaises(events: seq<Event>, parse: string -> Parsed) {
    forall k :: 0 <= k < |events| && events[k].kind == "message" ==> !parse(events[k].data).Raises?
  }

  lemma {:induction false} ResponsesAppend(a: seq<Signal>, b: seq<Signal>)
    ensures Responses(a + b) == Responses(a) + Responses(b)
  {
    if |a| > 0 {
      assert (a + b)[1..] == a[1..] + b;
      ResponsesAppend(a[1..], b);
    } else {
      assert a + b == b;
    }
  }

  /** When no message makes the handler raise, the fold runs over every event
      and forwards exactly the tokens, in the order they arrived. */
  lemma {:induction false} FoldForwardsTokens(events: seq<Event>, parse: string -> Parsed)
    requires NeverRaises(events, parse)
    ensures FoldEvents(events, parse).1.None?
    ensures Responses(FoldEvents(events, parse).0) == Tokens(events, parse)
  {
    if |events| > 0 {
      assert NeverRaises(events[1..], parse) by {
        assert forall k :: 0 <= k < |events[1..]| ==> events[1..][k] == events[k + 1];
      }
      FoldForwardsTokens(events[1..], parse);
      var rest := FoldEvents(events[1..], parse).0;
      var e := events[0];
      if e.kind == "message" {
        match parse(e.data)
        case BadJson => ResponsesAppend([ErrorSignal("Failed to parse: " + e.data)], rest);
        case Token(t) => ResponsesAppend([Response(t)], rest);
        case NoToken =>
      }
    }
  }

  /** The worker forwards the tokens in order, then reports the transport
      failure if there was one, then finishes. */
  lemma WorkerForwardsTokens(stream: Stream, parse: string -> Parsed)
    requires NeverRaises(stream.events, parse)
    ensures Responses(WorkerRun(stream, parse)) == Tokens(stream.events, parse)
    ensures var s := WorkerRun(stream, parse);
            stream.failure.Some? ==> |s| >= 2 && s[|s| - 2] == ErrorSignal(stream.failure.value)
  {
    FoldForwardsTokens(stream.events, parse);
    var emitted := FoldEvents(stream.events, parse).0;
    var extra := if stream.failure.Some? then [ErrorSignal(stream.failure.value)] else [];
    ResponsesAppend(emitted + extra, [Finished]);
    ResponsesAppend(emitted, extra);
  }

  // ---------------------------------------------------------------------
  // A request

  /** What `ask_kobold` does once it has searched: show the chunks and
      finish, or start the worker on the payload, keeping the metadata for the
      citations. */
  datatype Reply =
    | ChunksShown(signals: seq<Signal>)
    | WorkerStarted(url: string, payload: Payload, metadata: seq<Metadata>)

  /** `ask_kobold`: `search(database, query)` stands for the engine's
      `search`. */
  function AskKobold(s: ChatState, query: string, chunksOnly: bool, selected: string,
                     open: string -> Option<Error>,
                     search: (string, string) -> Result<(seq<string>, seq<Metadata>)>)
    : (r: (ChatState, Result<Reply>))
    ensures r.1.Ok? <==> EnsureEngine(s, selected, open).Ok? && search(selected, query).Ok?
    ensures EnsureEngine(s, selected, open).Err? ==> r == (s, Err(EnsureEngine(s, selected, open).error))
    ensures EnsureEngine(s, selected, open).Ok? && search(selected, query).Err? ==>
              r == (EnsureEngine(s, selected, open).value, Err(search(selected, query).error))
    ensures r.1.Ok? ==> r.0.engine == Some(selected)
    ensures r.1.Ok? && chunksOnly ==>
              && search(selected, query).Ok?
              && r.1.value == ChunksShown([Response(FormatChunks(search(selected, query).value.0,
                                                                  search(selected, query).value.1)), Finished])
    ensures r.1.Ok? && !chunksOnly ==>
              && search(selected, query).Ok?
              && r.1.value.WorkerStarted?
              && r.1.value.url == ApiUrl
              && r.1.value.payload == MakePayload(search(selected, query).value.0, query)
              && r.1.value.metadata == search(selected, query).value.1
  {
    match EnsureEngine(s, selected, open)
    case Err(e) => (s, Err(e))
    case Ok(s') =>
      match search(selected, query)
      case Err(e) => (s', Err(e))
      case Ok((contexts, metas)) =>
        if chunksOnly then (s', Ok(ChunksShown([Response(FormatChunks(contexts, metas)), Finished])))
        else (s', Ok(WorkerStarted(ApiUrl, MakePayload(contexts, query), metas)))
  }

  /** The chat's relay of the worker's signals: responses and errors pass
      through, and `finished` becomes the citations followed by `finished`.
      When the citations cannot be formatted the slot raises, and neither is
      emitted. */
  function Relay(worker: seq<Signal>, metas: seq<Metadata>): seq<Signal> {
    if |worker| == 0 then []
    else
      var here := if worker[0] != Finished then [worker[0]]
                  else match FormatCitations(metas)
                       case Ok(c) => [Citation(c), Finished]
                       case Err(_) => [];
      here + Relay(worker[1..], metas)
  }

  /** `KoboldChatThread.run` on a fresh chat: all the signals one question
      produces, given the stream the worker would receive. */
  function ChatThreadRun(query: string, chunksOnly: bool, selected: string,
                         open: string -> Option<Error>,
                         search: (string, string) -> Result<(seq<string>, seq<Metadata>)>,
                         stream: Stream, parse: string -> Parsed): (signals: seq<Signal>)
    ensures var reply := AskKobold(FreshChat, query, chunksOnly, selected, open, search).1;
            reply.Err? ==> signals == [ErrorSignal(ErrorText(reply.error))]
    ensures var reply := AskKobold(FreshChat, query, chunksOnly, selected, open, search).1;
            reply.Ok? && reply.value.WorkerStarted? ==>
              && Responses(signals) == Responses(WorkerRun(stream, parse))
              && Errors(signals) == Errors(WorkerRun(stream, parse))
  {
    match AskKobold(FreshChat, query, chunksOnly, selected, open, search).1
    case Err(e) => [ErrorSignal(ErrorText(e))]
    case Ok(ChunksShown(signals)) => signals
    case Ok(WorkerStarted(_, _, metas)) =>
      RelayPassesThrough(WorkerRun(stream, parse), metas);
      Relay(WorkerRun(stream, parse), metas)
  }

  function CountFinished(signals: seq<Signal>): nat {
    if |signals| == 0 then 0 else (if signals[0] == Finished then 1 else 0) + CountFinished(signals[1..])
  }

  lemma {:induction false} CountFinishedAppend(a: seq<Signal>, b: seq<Signal>)
    ensures CountFinished(a + b) == CountFinished(a) + CountFinished(b)
  {
    if |a| > 0 {
      assert (a + b)[1..] == a[1..] + b;
      CountFinishedAppend(a[1..], b);
    } else {
      assert a + b == b;
    }
  }

  lemma {:induction false} RelayFinished(worker: seq<Signal>, metas: seq<Metadata>)
    ensures CountFinished(Relay(worker, metas))
         == if FormatCitations(metas).Ok? then CountFinished(worker) else 0
  {
    if |worker| > 0 {
      RelayFinished(worker[1..], metas);
      var here := if worker[0] != Finished then [worker[0]]
                  else match FormatCitations(metas)
                       case Ok(c) => [Citation(c), Finished]
                       case Err(_) => [];
      CountFinishedAppend(here, Relay(worker[1..], metas));
    }
  }

  /** The relay passes every response and every error through, in order. */
  lemma {:induction false} RelayPassesThrough(worker: seq<Signal>, metas: seq<Metadata>)
    ensures Responses(Relay(worker, metas)) == Responses(worker)
    ensures Errors(Relay(worker, metas)) == Errors(worker)
  {
    if |worker| > 0 {
      RelayPassesThrough(worker[1..], metas);
      var here := if worker[0] != Finished then [worker[0]]
                  else match FormatCitations(metas)
                       case Ok(c) => [Citation(c), Finished]
                       case Err(_) => [];
      ResponsesAppend(here, Relay(worker[1..], metas));
      ErrorsAppend(here, Relay(worker[1..], metas));
      ResponsesAppend([worker[0]], worker[1..]);
      ErrorsAppend([worker[0]], worker[1..]);
      assert worker == [worker[0]] + worker[1..];
    }
  }

  lemma {:induction false} NoFinishedCount(signals: seq<Signal>)
    requires forall k :: 0 <= k < |signals| ==> signals[k] != Finished
    ensures CountFinished(signals) == 0
  {
    if |signals| > 0 {
      NoFinishedCount(signals[1..]);
    }
  }

  /** A question ends with exactly one `finished` when it gets as far as an
      answer whose citations can be formatted (or when only chunks are
      shown), and with none when the engine or the search fails or a source
      lacks its path. */
  lemma FinishedOnce(query: string, chunksOnly: bool, selected: string,
                     open: string -> Option<Error>,
                     search: (string, string) -> Result<(seq<string>, seq<Metadata>)>,
                     stream: Stream, parse: string -> Parsed)
    ensures var reply := AskKobold(FreshChat, query, chunksOnly, selected, open, search).1;
            var n := CountFinished(ChatThreadRun(query, chunksOnly, selected, open, search, stream, parse));
            && (reply.Err? ==> n == 0)
            && (reply.Ok? && reply.value.ChunksShown? ==> n == 1)
            && (reply.Ok? && reply.value.WorkerStarted? ==>
                  n == if FormatCitations(reply.value.metadata).Ok? then 1 else 0)
  {
    var reply := AskKobold(FreshChat, query, chunksOnly, selected, open, search).1;
    if reply.Ok? && reply.value.WorkerStarted? {
      var w := WorkerRun(stream, parse);
      RelayFinished(w, reply.value.metadata);
      assert w == w[..|w| - 1] + [Finished];
      NoFinishedCount(w[..|w| - 1]);
      CountFinishedAppend(w[..|w| - 1], [Finished]);
    }
  }
}

=== FILE: constants.dfy ===
/** The lookup tables of `src/constants.py`: the embedding models offered for
    download, the vision models, the Whisper transcription models, and the
    registry from file extension to document loader. Python dicts are kept as
    sequences of (key, value) pairs in insertion order. */
module Constants {
  import opened Outcomes
  import opened Strings
  import opened Seqs

  /** The loader classes the registry names. */
  datatype LoaderKind =
    | PyMuPDFLoader
    | Docx2txtLoader
    | TextLoader
    | EverNoteLoader
    | UnstructuredEPubLoader
    | UnstructuredEmailLoader
    | CSVLoader
    | UnstructuredExcelLoader
    | UnstructuredRTFLoader
    | UnstructuredODTLoader
    | UnstructuredMarkdownLoader
    | UnstructuredHTMLLoader

  datatype VectorModel = VectorModel(
    name: string,
    dimensions: nat,
    maxSequence: nat,
    sizeMb: nat,
    repoId: string,
    cacheDir: string,
    kind: string)

  datatype VisionModel = VisionModel(
    precision: string,
    size: string,
    repoId: string,
    cacheDir: string,
    requiresCuda: bool)

  /** The precisions the Whisper table uses. */
  datatype Precision = Float32 | BFloat16 | Float16

  function PrecisionName(p: Precision): (r: string)
    ensures ' ' !in r
  {
    match p
    case Float32 => "float32"
    case BFloat16 => "bfloat16"
    case Float16 => "float16"
  }

  datatype WhisperModel = WhisperModel(
    name: string,
    precision: Precision,
    repoId: string,
    tokensPerSecond: nat,
    optimalBatchSize: nat,
    avgVramUsage: string)

  /** `VECTOR_MODELS`: vendor to the models it publishes. */
  const VectorModels: seq<(string, seq<VectorModel>)> := [
    ("BAAI", BaaiModels),
    ("hkunlp", HkunlpModels),
    ("sentence-transformers", SentenceTransformersModels),
    ("thenlper", ThenlperModels)
  ]

  const BaaiModels: seq<VectorModel> := [
    VectorModel("bge-small-en-v1.5", 384, 512, 134, "BAAI/bge-small-en-v1.5", "BAAI_bge-small-en-v1.5", "vector"),
    VectorModel("bge-base-en-v1.5", 768, 512, 438, "BAAI/bge-base-en-v1.5", "BAAI-bge-base-en-v1.5", "vector"),
    VectorModel("bge-large-en-v1.5", 1024, 512, 1340, "BAAI/bge-large-en-v1.5", "BAAI_bge-large-en-v1.5", "vector")
  ]

  const HkunlpModels: seq<VectorModel> := [
    VectorModel("instructor-base", 768, 512, 439, "hkunlp/instructor-base", "hkunlp_instructor-base", "vector"),
    VectorModel("instructor-large", 1024, 512, 1340, "hkunlp/instructor-large", "hkunlp_instructor-large", "vector"),
    VectorModel("instructor-xl", 1024, 512, 4960, "hkunlp/instructor-xl", "hkunlp_instructor-xl", "vector")
  ]

  const SentenceTransformersModels: seq<VectorModel> := [
    VectorModel("all-MiniLM-L12-v2", 384, 256, 120, "sentence-transformers/all-MiniLM-L12-v2", "sentence-transformers_all-MiniLM-L12-v2", "vector"),
    VectorModel("all-mpnet-base-v2", 768, 384, 438, "sentence-transformers/all-mpnet-base-v2", "sentence-transformers_all-mpnet-base-v2", "vector")
  ]

  const ThenlperModels: seq<VectorModel> := [
    VectorModel("gte-small", 384, 512, 67, "thenlper/gte-small", "thenlper_gte-small", "vector"),
    VectorModel("gte-base", 768, 512, 219, "thenlper/gte-base", "thenlper_gte-base", "vector"),
    VectorModel("gte-large", 1024, 512, 670, "thenlper/gte-large", "thenlper_gte-large", "vector")
  ]

  /** `VISION_MODELS`. */
  const VisionModels: seq<(string, VisionModel)> := [
    ("Florence-2-base", VisionModel("autoselect", "232m", "microsoft/Florence-2-base", "vision", false)),
    ("Florence-2-large", VisionModel("autoselect", "770m", "microsoft/Florence-2-large", "vision", false)),
    ("Moondream2", VisionModel("float16", "2b", "vikhyatk/moondream2", "vision", true))
  ]

  /** A key of `WHISPER_MODELS` ends in " - " and its entry's precision. */
  predicate KeyEndsInPrecision(key: string, m: WhisperModel) {
    var p := PrecisionName(m.precision);
    |key| >= |p| + 3 && key[|key| - |p| - 3..] == " - " + p
  }

  type WhisperRow = row: (string, WhisperModel) | KeyEndsInPrecision(row.0, row.1)
    witness ("Whisper tiny.en - float16",
             WhisperModel("Whisper tiny.en", Float16, "ctranslate2-4you/whisper-tiny.en-ct2-float16", 295, 31, "0.55 GB"))

  /** A row of the Whisper table, admitted only when its key text agrees
      with the precision field. */
  function WhisperRowOf(key: string, m: WhisperModel): (row: WhisperRow)
    requires KeyEndsInPrecision(key, m)
    ensures row == (key, m)
  {
    (key, m)
  }

  /** `WHISPER_MODELS` as (key, entry) pairs, in insertion order; each key
      is spelled as its text before " - " and the rest. The entry under
      "Distil Whisper medium.en - float32" has the `name` of the large-v3
      model. */
  const WhisperModels: seq<WhisperRow> :=
    WhisperLargeV3 + WhisperMediumEn + WhisperSmallEn + WhisperBaseEn + WhisperTinyEn

  /** The large-v3 rows. */
  const WhisperLargeV3: seq<WhisperRow> := [
    WhisperRowOf("Distil Whisper large-v3" + " - float32",
      WhisperModel("Distil Whisper large-v3", Float32, "ctranslate2-4you/distil-whisper-large-v3-ct2-float32", 160, 4, "3.0 GB")),
    WhisperRowOf("Distil Whisper large-v3" + " - bfloat16",
      WhisperModel("Distil Whisper large-v3", BFloat16, "ctranslate2-4you/distil-whisper-large-v3-ct2-bfloat16", 160, 4, "3.0 GB")),
    WhisperRowOf("Distil Whisper large-v3" + " - float16",
      WhisperModel("Distil Whisper large-v3", Float16, "ctranslate2-4you/distil-whisper-large-v3-ct2-float16", 160, 4, "3.0 GB")),
    WhisperRowOf("Whisper large-v3" + " - float32",
      WhisperModel("Whisper large-v3", Float32, "ctranslate2-4you/whisper-large-v3-ct2-float32", 85, 2, "5.5 GB")),
    WhisperRowOf("Whisper large-v3" + " - bfloat16",
      WhisperModel("Whisper large-v3", BFloat16, "ctranslate2-4you/whisper-large-v3-ct2-bfloat16", 95, 3, "3.8 GB")),
    WhisperRowOf("Whisper large-v3" + " - float16",
      WhisperModel("Whisper large-v3", Float16, "ctranslate2-4you/whisper-large-v3-ct2-float16", 100, 3, "3.3 GB"))
  ]

  /** The medium.en rows. */
  const WhisperMediumEn: seq<WhisperRow> := [
    WhisperRowOf("Distil Whisper medium.en" + " - float32",
      WhisperModel("Distil Whisper large-v3", Float32, "ctranslate2-4you/distil-whisper-medium.en-ct2-float32", 160, 4, "3.0 GB")),
    WhisperRowOf("Distil Whisper medium.en" + " - bfloat16",
      WhisperModel("Distil Whisper medium.en", BFloat16, "ctranslate2-4you/distil-whisper-medium.en-ct2-bfloat16", 160, 4, "3.0 GB")),
    WhisperRowOf("Distil Whisper medium.en" + " - float16",
      WhisperModel("Distil Whisper medium.en", Float16, "ctranslate2-4you/distil-whisper-medium.en-ct2-float16", 160, 4, "3.0 GB")),
    WhisperRowOf("Whisper medium.en" + " - float32",
      WhisperModel("Whisper medium.en", Float32, "ctranslate2-4you/whisper-medium.en-ct2-float32", 130, 6, "2.5 GB")),
    WhisperRowOf("Whisper medium.en" + " - bfloat16",
      WhisperModel("Whisper medium.en", BFloat16, "ctranslate2-4you/whisper-medium.en-ct2-bfloat16", 140, 7, "2.0 GB")),
    WhisperRowOf("Whisper medium.en" + " - float16",
      WhisperModel("Whisper medium.en", Float16, "ctranslate2-4you/whisper-medium.en-ct2-float16", 145, 7, "1.8 GB"))
  ]

  /** The small.en rows. */
  const WhisperSmallEn: seq<WhisperRow> := [
    WhisperRowOf("Distil Whisper small.en" + " - float32",
      WhisperModel("Distil Whisper small.en", Float32, "ctranslate2-4you/distil-whisper-small.en-ct2-float32", 160, 4, "3.0 GB")),
    WhisperRowOf("Distil Whisper small.en" + " - bfloat16",
      WhisperModel("Distil Whisper small.en", BFloat16, "ctranslate2-4you/distil-whisper-small.en-ct2-bfloat16", 160, 4, "3.0 GB")),
    WhisperRowOf("Distil Whisper small.en" + " - float16",
      WhisperModel("Distil Whisper small.en", Float16, "ctranslate2-4you/distil-whisper-small.en-ct2-float16", 160, 4, "3.0 GB")),
    WhisperRowOf("Whisper small.en" + " - float32",
      WhisperModel("Whisper small.en", Float32, "ctranslate2-4you/whisper-small.en-ct2-float32", 180, 14, "1.5 GB")),
    WhisperRowOf("Whisper small.en" + " - bfloat16",
      WhisperModel("Whisper small.en", BFloat16, "ctranslate2-4you/whisper-small.en-ct2-bfloat16", 190, 15, "1.2 GB")),
    WhisperRowOf("Whisper small.en" + " - float16",
      WhisperModel("Whisper small.en", Float16, "ctranslate2-4you/whisper-small.en-ct2-float16", 195, 15, "1.1 GB"))
  ]

  /** The base.en rows. */
  const WhisperBaseEn: seq<WhisperRow> := [
    WhisperRowOf("Whisper base.en" + " - float32",
      WhisperModel("Whisper base.en", Float32, "ctranslate2-4you/whisper-base.en-ct2-float32", 230, 22, "1.0 GB")),
    WhisperRowOf("Whisper base.en" + " - bfloat16",
      WhisperModel("Whisper base.en", BFloat16, "ctranslate2-4you/whisper-base.en-ct2-bfloat16", 240, 23, "0.85 GB")),
    WhisperRowOf("Whisper base.en" + " - float16",
      WhisperModel("Whisper base.en", Float16, "ctranslate2-4you/whisper-base.en-ct2-float16", 245, 23, "0.8 GB"))
  ]

  /** The tiny.en rows. */
  const WhisperTinyEn: seq<WhisperRow> := [
    WhisperRowOf("Whisper tiny.en" + " - float32",
      WhisperModel("Whisper tiny.en", Float32, "ctranslate2-4you/whisper-tiny.en-ct2-float32", 280, 30, "0.7 GB")),
    WhisperRowOf("Whisper tiny.en" + " - bfloat16",
      WhisperModel("Whisper tiny.en", BFloat16, "ctranslate2-4you/whisper-tiny.en-ct2-bfloat16", 290, 31, "0.6 GB")),
    WhisperRowOf("Whisper tiny.en" + " - float16",
      WhisperModel("Whisper tiny.en", Float16, "ctranslate2-4you/whisper-tiny.en-ct2-float16", 295, 31, "0.55 GB"))
  ]



  /** `DOCUMENT_LOADERS`: lower-case extension, with its dot, to loader class. */
  const DocumentLoaders: seq<(string, LoaderKind)> := [
    (".pdf", PyMuPDFLoader),
    (".docx", Docx2txtLoader),
    (".txt", TextLoader),
    (".enex", EverNoteLoader),
    (".epub", UnstructuredEPubLoader),
    (".eml", UnstructuredEmailLoader),
    (".msg", UnstructuredEmailLoader),
    (".csv", CSVLoader),
    (".xls", UnstructuredExcelLoader),
    (".xlsx", UnstructuredExcelLoader),
    (".xlsm", UnstructuredExcelLoader),
    (".rtf", UnstructuredRTFLoader),
    (".odt", UnstructuredODTLoader),
    (".md", UnstructuredMarkdownLoader),
    (".html", UnstructuredHTMLLoader)
  ]

  // ---------------------------------------------------------------------
  // Properties of the tables

  /** The registry has fifteen distinct keys, each a lower-case dotted extension. */
  lemma DocumentLoadersShape()
    ensures |DocumentLoaders| == 15
    ensures DistinctKeys(DocumentLoaders)
    ensures forall k :: 0 <= k < |DocumentLoaders| ==>
              var ext := DocumentLoaders[k].0;
              |ext| >= 2 && ext[0] == '.' && IsLowerCase(ext)
  {
  }

  /** The two mail extensions share one loader, and so do the three Excel ones. */
  lemma SharedLoaders()
    ensures Lookup(DocumentLoaders, ".eml") == Lookup(DocumentLoaders, ".msg") == Some(UnstructuredEmailLoader)
    ensures Lookup(DocumentLoaders, ".xls") == Lookup(DocumentLoaders, ".xlsx")
         == Lookup(DocumentLoaders, ".xlsm") == Some(UnstructuredExcelLoader)
  {
    DocumentLoadersShape();
    LookupDistinct(DocumentLoaders, 5);
    LookupDistinct(DocumentLoaders, 6);
    LookupDistinct(DocumentLoaders, 8);
    LookupDistinct(DocumentLoaders, 9);
    LookupDistinct(DocumentLoaders, 10);
  }

  predicate VendorWellFormed(vendor: string, models: seq<VectorModel>) {
    forall k :: 0 <= k < |models| ==> models[k].repoId == vendor + "/" + models[k].name && models[k].kind == "vector"
  }

  /** Every embedding model's repository id is "<vendor>/<name>", and every
      entry is of type "vector". */
  lemma VectorModelsWellFormed()
    ensures forall v :: 0 <= v < |VectorModels| ==> VendorWellFormed(VectorModels[v].0, VectorModels[v].1)
  {
    BaaiModelsWellFormed();
    HkunlpModelsWellFormed();
    SentenceTransformersModelsWellFormed();
    ThenlperModelsWellFormed();
  }

  /** One model's repository id is its vendor, a '/', and its name. */
  lemma RepoIdOfVendor(vendor: string, m: VectorModel)
    requires |m.repoId| >= |vendor| + 1
    requires m.repoId[..|vendor| + 1] == vendor + "/" && m.repoId[|vendor| + 1..] == m.name
    ensures m.repoId == vendor + "/" + m.name
  {
    ConcatOfSlices(m.repoId, vendor + "/", m.name);
  }

  lemma BaaiModelsWellFormed()
    ensures VendorWellFormed("BAAI", BaaiModels)
  {
    forall k | 0 <= k < |BaaiModels|
      ensures BaaiModels[k].repoId == "BAAI" + "/" + BaaiModels[k].name
    {
      RepoIdOfVendor("BAAI", BaaiModels[k]);
    }
  }

  lemma HkunlpModelsWellFormed()
    ensures VendorWellFormed("hkunlp", HkunlpModels)
  {
    forall k | 0 <= k < |HkunlpModels|
      ensures HkunlpModels[k].repoId == "hkunlp" + "/" + HkunlpModels[k].name
    {
      RepoIdOfVendor("hkunlp", HkunlpModels[k]);
    }
  }

  lemma SentenceTransformersModelsWellFormed()
    ensures VendorWellFormed("sentence-transformers", SentenceTransformersModels)
  {
    forall k | 0 <= k < |SentenceTransformersModels|
      ensures SentenceTransformersModels[k].repoId == "sentence-transformers" + "/" + SentenceTransformersModels[k].name
    {
      RepoIdOfVendor("sentence-transformers", SentenceTransformersModels[k]);
    }
  }

  lemma ThenlperModelsWellFormed()
    ensures VendorWellFormed("thenlper", ThenlperModels)
  {
    forall k | 0 <= k < |ThenlperModels|
      ensures ThenlperModels[k].repoId == "thenlper" + "/" + ThenlperModels[k].name
    {
      RepoIdOfVendor("thenlper", ThenlperModels[k]);
    }
  }

  /** The vision table offers exactly the two Florence-2 sizes and Moondream2,
      and only Moondream2 needs CUDA. */
  lemma VisionModelsShape()
    ensures Keys(VisionModels) == ["Florence-2-base", "Florence-2-large", "Moondream2"]
    ensures forall k :: 0 <= k < |VisionModels| ==>
              (VisionModels[k].1.requiresCuda <==> VisionModels[k].0 == "Moondream2")
  {
  }

  /** For every key of `WHISPER_MODELS`, the text after the last " - " is that
      entry's precision. */
  lemma WhisperKeysEndInPrecision()
    ensures forall k :: 0 <= k < |WhisperModels| ==>
              AfterLast(WhisperModels[k].0, " - ") == PrecisionName(WhisperModels[k].1.precision)
  {
    forall k | 0 <= k < |WhisperModels|
      ensures AfterLast(WhisperModels[k].0, " - ") == PrecisionName(WhisperModels[k].1.precision)
    {
      AfterLastDashSuffix(WhisperModels[k].0, PrecisionName(WhisperModels[k].1.precision));
    }
  }
}

=== FILE: database_interactions.dfy ===
/** The policy around building and querying a vector database: the encoding
    batch size and embedder family chosen for a model name, the filter and
    post-filter of a search, the JSON audit of the loaded documents, and the
    order in which a build runs its steps. The embedders, the TileDB index and
    the file system are collaborators outside the model. */
module DatabaseInteractions {
  import opened Outcomes
  import opened Strings
  import opened Seqs
  import opened DocumentProcessor

  // ---------------------------------------------------------------------
  // Encoding batch size

  /** `batch_size_mapping`, in insertion order. */
  const BatchSizeTable: seq<(string, nat)> := [
    ("instructor-xl", 2),
    ("bge-large", 4),
    ("instructor-large", 4),
    ("gte-large", 4),
    ("instructor-base", 6),
    ("mpnet", 8),
    ("bge-base", 8),
    ("gte-base", 8),
    ("bge-small", 10),
    ("gte-small", 10),
    ("MiniLM", 30)
  ]

  const DefaultBatchSize: nat := 8
  const CpuBatchSize: nat := 2

  /** The value of the first entry whose key occurs in `name`, or `default`. */
  function FirstMatch(table: seq<(string, nat)>, name: string, default: nat): nat {
    if |table| == 0 then default
    else if Contains(name, table[0].0) then table[0].1
    else FirstMatch(table[1..], name, default)
  }

  /** `FirstMatch` picks the entry with the smallest index whose key is a
      substring of the name, and the default exactly when there is none. */
  lemma {:induction false} FirstMatchSpec(table: seq<(string, nat)>, name: string, default: nat)
    ensures var r := FirstMatch(table, name, default);
            || (exists k :: 0 <= k < |table| && IsSubstring(table[k].0, name)
                  && (forall j :: 0 <= j < k ==> !IsSubstring(table[j].0, name))
                  && r == table[k].1)
            || ((forall k :: 0 <= k < |table| ==> !IsSubstring(table[k].0, name)) && r == default)
  {
    if |table| > 0 {
      ContainsSpec(name, table[0].0);
      if !Contains(name, table[0].0) {
        FirstMatchSpec(table[1..], name, default);
        var r := FirstMatch(table, name, default);
        if exists k :: 0 <= k < |table[1..]| && IsSubstring(table[1..][k].0, name)
                     && (forall j :: 0 <= j < k ==> !IsSubstring(table[1..][j].0, name))
                     && r == table[1..][k].1 {
          var k :| 0 <= k < |table[1..]| && IsSubstring(table[1..][k].0, name)
                   && (forall j :: 0 <= j < k ==> !IsSubstring(table[1..][j].0, name))
                   && r == table[1..][k].1;
          assert forall j :: 0 < j < k + 1 ==> table[j] == table[1..][j - 1];
        } else {
          assert forall j :: 0 < j < |table| ==> table[j] == table[1..][j - 1];
        }
      }
    }
  }

  /** The build-time `batch_size` of `initialize_vector_model`. */
  function BatchSize(device: string, modelName: string): (b: nat)
    ensures Lower(device) == "cpu" ==> b == CpuBatchSize
    ensures b in {2, 4, 6, 8, 10, 30}
  {
    if Lower(device) == "cpu" then CpuBatchSize
    else
      BatchSizeTableValues(BatchSizeTable, modelName);
      FirstMatch(BatchSizeTable, modelName, DefaultBatchSize)
  }

  lemma {:induction false} BatchSizeTableValues(table: seq<(string, nat)>, name: string)
    requires forall k :: 0 <= k < |table| ==> table[k].1 in {2, 4, 6, 8, 10, 30}
    ensures FirstMatch(table, name, DefaultBatchSize) in {2, 4, 6, 8, 10, 30}
  {
    if |table| > 0 {
      BatchSizeTableValues(table[1..], name);
    }
  }

  /** Off the CPU, the batch size is the value of the first key of the table,
      in insertion order, that the model name contains, and 8 when it contains
      none; on the CPU (in any letter case) it is 2 whatever the name. */
  lemma BatchSizeIsFirstMatch(device: string, modelName: string)
    ensures var b := BatchSize(device, modelName);
            && (Lower(device) == "cpu" ==> b == 2)
            && (Lower(device) != "cpu" ==>
                  || (exists k :: 0 <= k < |BatchSizeTable| && IsSubstring(BatchSizeTable[k].0, modelName)
                        && (forall j :: 0 <= j < k ==> !IsSubstring(BatchSizeTable[j].0, modelName))
                        && b == BatchSizeTable[k].1)
                  || ((forall k :: 0 <= k < |BatchSizeTable| ==> !IsSubstring(BatchSizeTable[k].0, modelName))
                        && b == 8))
  {
    FirstMatchSpec(BatchSizeTable, modelName, DefaultBatchSize);
  }

  /** "instructor-xl" comes first in the table, so a name containing it gets 2 even if
      it also contains a later key. */
  lemma InstructorXlFirst(device: string, modelName: string)
    requires IsSubstring("instructor-xl", modelName)
    ensures BatchSize(device, modelName) == 2
  {
    ContainsSpec(modelName, "instructor-xl");
  }

  // ---------------------------------------------------------------------
  // Embedder family

  /** The three embedding wrappers. */
  datatype Family = Instruct | Bge | Generic

  /** "instructor" takes precedence over "bge"; anything else is generic. */
  function FamilyOf(modelName: string): (f: Family)
    ensures f == Instruct <==> IsSubstring("instructor", modelName)
    ensures f == Bge <==> !IsSubstring("instructor", modelName) && IsSubstring("bge", modelName)
    ensures f == Generic <==> !IsSubstring("instructor", modelName) && !IsSubstring("bge", modelName)
  {
    ContainsSpec(modelName, "instructor");
    ContainsSpec(modelName, "bge");
    if Contains(modelName, "instructor") then Instruct
    else if Contains(modelName, "bge") then Bge
    else Generic
  }

  /** The `encode_kwargs` dictionary. */
  datatype EncodeOptions = EncodeOptions(normalizeEmbeddings: bool, batchSize: nat, showProgressBar: bool)

  /** The constructor call of an embedding wrapper: which wrapper, and the
      arguments it receives (`encode` and `queryInstruction` are absent when
      the call does not pass them; `showProgress` is the wrapper's own
      `show_progress` flag, false when the call does not pass it). */
  datatype Embedder = Embedder(
    family: Family,
    modelName: string,
    device: string,
    trustRemoteCode: bool,
    queryInstruction: Option<string>,
    encode: Option<EncodeOptions>,
    showProgress: bool)

  const NotIterable := "argument of type 'NoneType' is not iterable"

  /** `CreateVectorDB.initialize_vector_model`: the embedder constructed and
      the `encode_kwargs` returned beside it. `modelName` is the configured
      name (absent when the key is missing), `bgeInstruction` the configured
      BGE query instruction. */
  function BuildEmbedder(modelName: Option<string>, device: string, bgeInstruction: Option<string>)
    : (r: Result<(Embedder, EncodeOptions)>)
    ensures modelName.None? <==> r.Err?
    ensures r.Err? ==> r.error == TypeError(NotIterable)
    ensures r.Ok? ==>
              var (e, kw) := r.value;
              && e.family == FamilyOf(modelName.value)
              && e.modelName == modelName.value && e.device == device && e.trustRemoteCode
              && kw.normalizeEmbeddings
              && kw.batchSize == BatchSize(device, modelName.value)
              && (kw.showProgressBar <==> e.family != Generic)
              && (e.showProgress <==> e.family == Generic)
              && (e.encode.Some? <==> e.family == Generic)
              && (e.encode.Some? ==> e.encode.value == kw)
              && (e.queryInstruction == if e.family == Bge then bgeInstruction else None)
  {
    match modelName
    case None => Err(TypeError(NotIterable))
    case Some(name) =>
      var family := FamilyOf(name);
      var kw := EncodeOptions(true, BatchSize(device, name), family != Generic);
      match family
      case Instruct => Ok((Embedder(Instruct, name, device, true, None, None, false), kw))
      case Bge => Ok((Embedder(Bge, name, device, true, bgeInstruction, None, false), kw))
      case Generic => Ok((Embedder(Generic, name, device, true, None, Some(kw), true), kw))
  }

  /** `QueryVectorDB.initialize_vector_model`: the model path recorded for the
      selected database, embedded one query at a time. */
  function QueryEmbedder(createdDatabases: seq<(string, seq<(string, string)>)>, selected: string,
                         device: string, bgeInstruction: Option<string>): (r: Result<Embedder>)
    ensures Lookup(createdDatabases, selected).None? ==> r == Err(KeyError(selected))
    ensures r.Ok? ==>
              && Lookup(createdDatabases, selected).Some?
              && Lookup(Lookup(createdDatabases, selected).value, "model") == Some(r.value.modelName)
              && r.value.family == FamilyOf(r.value.modelName)
              && r.value.encode == Some(EncodeOptions(true, 1, false))
              && !r.value.showProgress
              && (r.value.trustRemoteCode <==> r.value.family == Generic)
              && r.value.device == device
              && (r.value.family == Bge <==> r.value.queryInstruction.Some?)
              && (r.value.family == Bge ==> r.value.queryInstruction == bgeInstruction)
    ensures Lookup(createdDatabases, selected).Some? && Lookup(Lookup(createdDatabases, selected).value, "model").None? ==>
              r == Err(KeyError("model"))
    ensures Lookup(createdDatabases, selected).Some? && Lookup(Lookup(createdDatabases, selected).value, "model").Some?
            && FamilyOf(Lookup(Lookup(createdDatabases, selected).value, "model").value) == Bge && bgeInstruction.None? ==>
              r == Err(KeyError("query_instruction"))
    ensures r.Err? && Lookup(createdDatabases, selected).Some? ==>
              || Lookup(Lookup(createdDatabases, selected).value, "model").None?
              || (FamilyOf(Lookup(Lookup(createdDatabases, selected).value, "model").value) == Bge
                  && bgeInstruction.None?)
  {
    match Lookup(createdDatabases, selected)
    case None => Err(KeyError(selected))
    case Some(record) =>
      match Lookup(record, "model")
      case None => Err(KeyError("model"))
      case Some(path) =>
        var kw := EncodeOptions(true, 1, false);
        match FamilyOf(path)
        case Instruct => Ok(Embedder(Instruct, path, device, false, None, Some(kw), false))
        case Bge =>
          if bgeInstruction.None? then Err(KeyError("query_instruction"))
          else Ok(Embedder(Bge, path, device, false, bgeInstruction, Some(kw), false))
        case Generic => Ok(Embedder(Generic, path, device, true, None, Some(kw), false))
  }

  /** Building and querying the same model choose the same wrapper. */
  lemma SameFamilyBothSides(modelName: string, device: string, queryDevice: string,
                            createdDatabases: seq<(string, seq<(string, string)>)>, selected: string,
                            bgeInstruction: Option<string>)
    requires Lookup(createdDatabases, selected).Some?
    requires Lookup(Lookup(createdDatabases, selected).value, "model") == Some(modelName)
    requires bgeInstruction.Some?
    ensures BuildEmbedder(Some(modelName), device, bgeInstruction).Ok?
    ensures QueryEmbedder(createdDatabases, selected, queryDevice, bgeInstruction).Ok?
    ensures BuildEmbedder(Some(modelName), device, bgeInstruction).value.0.family
         == QueryEmbedder(createdDatabases, selected, queryDevice, bgeInstruction).value.family
  {
  }

  // ---------------------------------------------------------------------
  // Retrieval

  /** `initialize_retriever`'s metadata filter: none for an absent or empty
      `document_types`, otherwise an exact match on `document_type`. */
  function SearchFilter(documentTypes: Option<string>): (f: map<string, string>)
    ensures f.Keys <= {"document_type"}
    ensures f == map[] <==> documentTypes.GetOr("") == ""
    ensures f != map[] ==> f["document_type"] == documentTypes.value
  {
    match documentTypes
    case Some(v) =>
      if v == "" then map[]
      else
        assert "document_type" in map["document_type" := v];
        map["document_type" := v]
    case None => map[]
  }

  /** A retrieved chunk: its text and its metadata. */
  datatype Context = Context(text: string, metadata: Metadata)

  /** The post-filter of `search`: the lower-cased term occurs in the
      lower-cased text. */
  function Matches(term: string): Context -> bool {
    (c: Context) => Contains(Lower(c.text), Lower(term))
  }

  /** `search`: the texts and metadata, as two parallel lists, of the
      retrieved chunks that pass the post-filter, in retrieval order. */
  function Search(retrieved: seq<Context>, searchTerm: Option<string>): (r: (seq<string>, seq<Metadata>))
    ensures |r.0| == |r.1| <= |retrieved|
    ensures forall k :: 0 <= k < |r.0| ==>
              Context(r.0[k], r.1[k]) in retrieved && IsSubstring(Lower(searchTerm.GetOr("")), Lower(r.0[k]))
  {
    var kept := Filter(Matches(searchTerm.GetOr("")), retrieved);
    var r := (Map((c: Context) => c.text, kept), Map((c: Context) => c.metadata, kept));
    forall k | 0 <= k < |r.0|
      ensures Context(r.0[k], r.1[k]) in retrieved && IsSubstring(Lower(searchTerm.GetOr("")), Lower(r.0[k]))
    {
      assert Context(r.0[k], r.1[k]) == kept[k];
      ContainsSpec(Lower(kept[k].text), Lower(searchTerm.GetOr("")));
    }
    r
  }

  /** A single chunk is kept exactly when the term occurs in it. */
  lemma SearchOne(c: Context, searchTerm: Option<string>)
    ensures var r := Search([c], searchTerm);
            if IsSubstring(Lower(searchTerm.GetOr("")), Lower(c.text))
            then r == ([c.text], [c.metadata]) else r == ([], [])
  {
    var f := Matches(searchTerm.GetOr(""));
    ContainsSpec(Lower(c.text), Lower(searchTerm.GetOr("")));
    FilterSingle(f, c);
    assert Map((d: Context) => d.text, [c]) == [c.text];
    assert Map((d: Context) => d.metadata, [c]) == [c.metadata];
  }

  /** Searching a concatenation is concatenating the searches: the filter
      keeps the retrieval order. */
  lemma SearchAppend(a: seq<Context>, b: seq<Context>, searchTerm: Option<string>)
    ensures Search(a + b, searchTerm).0 == Search(a, searchTerm).0 + Search(b, searchTerm).0
    ensures Search(a + b, searchTerm).1 == Search(a, searchTerm).1 + Search(b, searchTerm).1
  {
    var f := Matches(searchTerm.GetOr(""));
    FilterAppend(f, a, b);
    MapAppend((c: Context) => c.text, Filter(f, a), Filter(f, b));
    MapAppend((c: Context) => c.metadata, Filter(f, a), Filter(f, b));
  }

  /** An absent or empty search term keeps every retrieved chunk. */
  lemma SearchEmptyTermKeepsAll(retrieved: seq<Context>, searchTerm: Option<string>)
    requires searchTerm.GetOr("") == ""
    ensures Search(retrieved, searchTerm).0 == Map((c: Context) => c.text, retrieved)
    ensures Search(retrieved, searchTerm).1 == Map((c: Context) => c.metadata, retrieved)
  {
    var f := Matches(searchTerm.GetOr(""));
    forall k | 0 <= k < |retrieved|
      ensures f(retrieved[k])
    {
      ContainsEmptyAndSelf(Lower(retrieved[k].text));
    }
    FilterAll(f, retrieved);
  }

  // ---------------------------------------------------------------------
  // JSON audit

  /** The document has a truthy `hash` entry. */
  predicate HasHash(d: Document) {
    "hash" in d.metadata && d.metadata["hash"] != ""
  }

  /** The JSON files written, as (file name, document written), and the
      exception that stopped the loop, if one did. */
  datatype Audit = Audit(written: seq<(string, Document)>, error: Option<Error>)

  const LstatNone := "lstat: path should be string, bytes or os.PathLike, not NoneType"

  /** `save_documents_to_json`: each document with a hash is written to
      `<hash>.json`, after its `file_path` is replaced by the link target when
      it names a symbolic link (`linkTarget` stands for `islink`/`realpath`);
      documents without one are skipped. A hashed document without a
      `file_path` stops the loop with the `TypeError` of `islink(None)`. */
  function SaveDocumentsToJson(docs: seq<Document>, linkTarget: string -> Option<string>): (a: Audit)
    ensures |a.written| <= |docs|
    ensures a.error.None? <==> forall k :: 0 <= k < |docs| && HasHash(docs[k]) ==> "file_path" in docs[k].metadata
    ensures a.error.Some? ==> a.error == Some(TypeError(LstatNone))
  {
    if |docs| == 0 then Audit([], None)
    else
      var d := docs[0];
      var rest := SaveDocumentsToJson(docs[1..], linkTarget);
      if !HasHash(d) then
        assert forall k :: 0 < k < |docs| ==> docs[k] == docs[1..][k - 1];
        rest
      else if "file_path" !in d.metadata then Audit([], Some(TypeError(LstatNone)))
      else
        assert forall k :: 0 < k < |docs| ==> docs[k] == docs[1..][k - 1];
        Audit([(d.metadata["hash"] + ".json", Resolved(d, linkTarget))] + rest.written, rest.error)
  }

  /** The document as written: its `file_path` replaced by the link target
      when it names a symbolic link. */
  function Resolved(d: Document, linkTarget: string -> Option<string>): (saved: Document)
    requires "file_path" in d.metadata
    ensures saved.content == d.content && saved.metadata.Keys == d.metadata.Keys
    ensures linkTarget(d.metadata["file_path"]).None? ==> saved == d
    ensures linkTarget(d.metadata["file_path"]).Some? ==>
              saved.metadata["file_path"] == linkTarget(d.metadata["file_path"]).value
  {
    match linkTarget(d.metadata["file_path"])
    case Some(target) => Document(d.content, d.metadata["file_path" := target])
    case None => d
  }

  /** `a` wrote one file per document of `hashed`, in order, named after
      its hash and holding its content and metadata keys, and stopped on no
      error. */
  predicate WritesEach(a: Audit, hashed: seq<Document>) {
    && a.error.None?
    && |a.written| == |hashed|
    && forall k :: 0 <= k < |hashed| ==>
         && HasHash(hashed[k])
         && a.written[k].0 == hashed[k].metadata["hash"] + ".json"
         && a.written[k].1.content == hashed[k].content
         && a.written[k].1.metadata.Keys == hashed[k].metadata.Keys
  }

  /** Hash-less documents are exactly the ones skipped: when every hashed
      document has a `file_path`, the loop runs to the end and writes one
      file per hashed document, in order. */
  lemma {:induction false} AuditWritesHashed(docs: seq<Document>, linkTarget: string -> Option<string>)
    requires forall k :: 0 <= k < |docs| && HasHash(docs[k]) ==> "file_path" in docs[k].metadata
    ensures WritesEach(SaveDocumentsToJson(docs, linkTarget), Filter(HasHash, docs))
  {
    if |docs| > 0 {
      var d, rest := docs[0], docs[1..];
      assert forall k :: 0 <= k < |rest| ==> rest[k] == docs[k + 1];
      AuditWritesHashed(rest, linkTarget);
      assert docs == [d] + rest;
      FilterAppend(HasHash, [d], rest);
      FilterSingle(HasHash, d);
      var a, ar := SaveDocumentsToJson(docs, linkTarget), SaveDocumentsToJson(rest, linkTarget);
      if HasHash(d) {
        AuditStep(docs, linkTarget);
        assert Filter(HasHash, docs) == [d] + Filter(HasHash, rest);
        WritesEachCons(a, ar, d, Filter(HasHash, rest));
      } else {
        assert a == ar;
        assert Filter(HasHash, docs) == Filter(HasHash, rest);
      }
    }
  }

  /** One hashed document with a `file_path`: its file comes first, ahead
      of the rest's. */
  lemma {:induction false} AuditStep(docs: seq<Document>, linkTarget: string -> Option<string>)
    requires |docs| > 0 && HasHash(docs[0]) && "file_path" in docs[0].metadata
    ensures var a, ar := SaveDocumentsToJson(docs, linkTarget), SaveDocumentsToJson(docs[1..], linkTarget);
            && a.written == [a.written[0]] + ar.written && a.error == ar.error
            && a.written[0].0 == docs[0].metadata["hash"] + ".json"
            && a.written[0].1.content == docs[0].content
            && a.written[0].1.metadata.Keys == docs[0].metadata.Keys
  {
    var a := SaveDocumentsToJson(docs, linkTarget);
    var d := docs[0];
    assert a.written[0] == (d.metadata["hash"] + ".json", Resolved(d, linkTarget));
  }

  lemma WritesEachCons(a: Audit, ar: Audit, d: Document, hr: seq<Document>)
    requires HasHash(d)
    requires WritesEach(ar, hr)
    requires |a.written| > 0 && a.written == [a.written[0]] + ar.written && a.error == ar.error
    requires a.written[0].0 == d.metadata["hash"] + ".json" && a.written[0].1.content == d.content
    requires a.written[0].1.metadata.Keys == d.metadata.Keys
    ensures WritesEach(a, [d] + hr)
  {
    var hashed := [d] + hr;
    forall k | 1 <= k < |hashed|
      ensures a.written[k] == ar.written[k - 1] && hashed[k] == hr[k - 1]
    {
    }
  }

  // ---------------------------------------------------------------------
  // Audio transcripts

  predicate IsJsonPath(path: string) {
    Lower(Suffix(path)) == ".json"
  }

  /** `load_audio_documents` over the directory listing `files`: the
      transcripts that parse, in listing order; `parse` stands for reading
      and parsing one file, and a failure only skips that file. */
  function LoadAudioDocuments(files: seq<string>, parse: string -> Result<Document>): (docs: seq<Document>)
    ensures |docs| <= |files|
  {
    Successes(Map(parse, Filter(IsJsonPath, files)))
  }

  /** Each transcript comes from a `.json` file of the listing that parsed. */
  lemma LoadAudioDocumentsSound(files: seq<string>, parse: string -> Result<Document>, k: nat)
    requires k < |LoadAudioDocuments(files, parse)|
    ensures exists p :: p in files && IsJsonPath(p) && parse(p) == Ok(LoadAudioDocuments(files, parse)[k])
  {
    var jsons := Filter(IsJsonPath, files);
    var rs := Map(parse, jsons);
    var d := Successes(rs)[k];
    assert Ok(d) in rs;
    var j :| 0 <= j < |rs| && rs[j] == Ok(d);
    assert jsons[j] in files && IsJsonPath(jsons[j]) && parse(jsons[j]) == Ok(d);
  }

  /** Every `.json` file of the listing that parses contributes its transcript. */
  lemma LoadAudioDocumentsComplete(files: seq<string>, parse: string -> Result<Document>, p: string)
    requires p in files && IsJsonPath(p) && parse(p).Ok?
    ensures parse(p).value in LoadAudioDocuments(files, parse)
  {
    var jsons := Filter(IsJsonPath, files);
    var rs := Map(parse, jsons);
    var i :| 0 <= i < |files| && files[i] == p;
    assert IsJsonPath(files[i]);
    assert p in jsons;
    var j :| 0 <= j < |jsons| && jsons[j] == p;
    assert rs[j] == parse(p);
    assert rs[j].Ok?;
  }

  // ---------------------------------------------------------------------
  // The build pipeline

  /** The steps of `CreateVectorDB.run` after loading. */
  datatype Step = SplitStep | SavePickle | SaveStructures | LoadModel | CreateDatabase
                | SaveJson | Teardown | ClearSource

  datatype RunOutcome = RunOutcome(
    steps: seq<Step>,
    chunks: seq<Document>,
    audit: Audit,
    error: Option<Error>)

  const BuildSteps: seq<Step> := [SplitStep, SavePickle, SaveStructures, LoadModel, CreateDatabase, SaveJson]
  const CleanupSteps: seq<Step> := [Teardown, ClearSource]

  /** The documents `run` gathers before splitting: the text documents, the
      image descriptions and the audio transcripts, in that order, or the
      exception of the first of the three passes that raised. */
  function Gathered(loaded: Result<seq<Document>>, images: Result<seq<Document>>, audio: Result<seq<Document>>)
    : (r: Result<seq<Document>>)
    ensures r.Ok? <==> loaded.Ok? && images.Ok? && audio.Ok?
    ensures r.Ok? ==> r.value == loaded.value + images.value + audio.value
    ensures loaded.Err? ==> r == Err(loaded.error)
    ensures loaded.Ok? && images.Err? ==> r == Err(images.error)
    ensures loaded.Ok? && images.Ok? && audio.Err? ==> r == Err(audio.error)
  {
    var texts :- loaded;
    var pictures :- images;
    var transcripts :- audio;
    Ok(texts + pictures + transcripts)
  }

  /** `CreateVectorDB.run`, given what its collaborators return: the text
      documents (or the exception of `load_documents`), the image descriptions
      (or the exception `choose_image_loader` raises outside its worker: its
      configuration read or the folder listing), the audio transcripts (or
      the exception of the folder listing), the splitter, the outcome of
      `initialize_vector_model` (the embedder `BuildEmbedder` constructs, or
      the exception raised while constructing or loading it) and the
      exception `create_database` raised, if any. The list handed to the JSON
      audit is the same list as `documents`, so it also holds the transcripts
      and sees the coercion of the split step. The first exception ends the
      build: `steps` are the steps started, in order. */
  function Run(loaded: Result<seq<Document>>, images: Result<seq<Document>>, audio: Result<seq<Document>>,
               split: seq<Document> -> Result<seq<Document>>, model: Result<(Embedder, EncodeOptions)>,
               created: Option<Error>, linkTarget: string -> Option<string>): (r: RunOutcome)
    ensures r.steps <= BuildSteps + CleanupSteps
    ensures Gathered(loaded, images, audio).Err? ==> r.error == Some(Gathered(loaded, images, audio).error) && r.steps == []
    ensures SplitStep in r.steps <==> Gathered(loaded, images, audio).Ok? && |Gathered(loaded, images, audio).value| > 0
    ensures SplitStep in r.steps ==> SplitDocuments(Gathered(loaded, images, audio).value, split).1.Ok? ==>
              r.chunks == SplitDocuments(Gathered(loaded, images, audio).value, split).1.value
    ensures SplitStep in r.steps ==> SplitDocuments(Gathered(loaded, images, audio).value, split).1.Err? ==>
              r.error == Some(SplitDocuments(Gathered(loaded, images, audio).value, split).1.error) && r.steps == [SplitStep]
    ensures LoadModel in r.steps <==>
              && SplitStep in r.steps && SplitDocuments(Gathered(loaded, images, audio).value, split).1.Ok?
              && |r.chunks| > 0
    ensures CreateDatabase in r.steps <==> LoadModel in r.steps && model.Ok?
    ensures SaveJson in r.steps <==> CreateDatabase in r.steps && created.None?
    ensures ClearSource in r.steps <==> SaveJson in r.steps && r.audit.error.None?
    ensures LoadModel in r.steps && model.Err? ==> r.error == Some(model.error) && CreateDatabase !in r.steps
    ensures CreateDatabase in r.steps && created.Some? ==> r.error == created && SaveJson !in r.steps
    ensures SaveJson in r.steps ==> r.error == r.audit.error
    ensures SaveJson !in r.steps ==> r.audit == Audit([], None)
    ensures r.error.None? <==>
              && Gathered(loaded, images, audio).Ok?
              && (SplitStep in r.steps ==> SplitDocuments(Gathered(loaded, images, audio).value, split).1.Ok?)
              && (LoadModel in r.steps ==> model.Ok?)
              && (CreateDatabase in r.steps ==> created.None?)
              && (SaveJson in r.steps ==> r.audit.error.None?)
  {
    match Gathered(loaded, images, audio)
    case Err(e) => RunOutcome([], [], Audit([], None), Some(e))
    case Ok(documents) =>
      if |documents| == 0 then RunOutcome([], [], Audit([], None), None)
      else
        var (coerced, outcome) := SplitDocuments(documents, split);
        match outcome
        case Err(e) => RunOutcome([SplitStep], [], Audit([], None), Some(e))
        case Ok(chunks) =>
          if |chunks| == 0 then RunOutcome([SplitStep], [], Audit([], None), None)
          else if model.Err? then
            RunOutcome([SplitStep, SavePickle, SaveStructures, LoadModel], chunks, Audit([], None), Some(model.error))
          else if created.Some? then
            RunOutcome([SplitStep, SavePickle, SaveStructures, LoadModel, CreateDatabase], chunks, Audit([], None), created)
          else
            var audit := SaveDocumentsToJson(coerced, linkTarget);
            var cleanup := if audit.error.None? then CleanupSteps else [];
            RunOutcome(BuildSteps + cleanup, chunks, audit, audit.error)
  }

  /** A build that gathers nothing, or whose split yields no chunk, ends
      normally without loading a model. */
  lemma RunWithoutChunksSucceeds(loaded: Result<seq<Document>>, images: Result<seq<Document>>,
                                 audio: Result<seq<Document>>, split: seq<Document> -> Result<seq<Document>>,
                                 model: Result<(Embedder, EncodeOptions)>, created: Option<Error>,
                                 linkTarget: string -> Option<string>)
    requires Gathered(loaded, images, audio).Ok?
    requires var documents := Gathered(loaded, images, audio).value;
             |documents| == 0 || SplitDocuments(documents, split).1 == Ok([])
    ensures var r := Run(loaded, images, audio, split, model, created, linkTarget);
            r.error.None? && r.steps <= [SplitStep] && LoadModel !in r.steps
  {
  }

  /** A configuration without a model name stops the build at the model step
      with the `TypeError` of `in None`, before any database is created or
      the source folder cleared. */
  lemma RunStopsWithoutModelName(loaded: Result<seq<Document>>, images: Result<seq<Document>>,
                                 audio: Result<seq<Document>>, split: seq<Document> -> Result<seq<Document>>,
                                 device: string, bgeInstruction: Option<string>, created: Option<Error>,
                                 linkTarget: string -> Option<string>)
    requires Gathered(loaded, images, audio).Ok? && |Gathered(loaded, images, audio).value| > 0
    requires var chunks := SplitDocuments(Gathered(loaded, images, audio).value, split).1;
             chunks.Ok? && |chunks.value| > 0
    ensures var r := Run(loaded, images, audio, split, BuildEmbedder(None, device, bgeInstruction), created, linkTarget);
            && LoadModel in r.steps && CreateDatabase !in r.steps && ClearSource !in r.steps
            && r.error == Some(TypeError(NotIterable))
  {
  }

  /** When the build runs to the end, every loaded document that has a hash,
      audio transcripts included, is written to the audit with its content
      as the split step coerced it. */
  lemma RunAuditsEveryDocument(loaded: Result<seq<Document>>, images: Result<seq<Document>>,
                               audio: Result<seq<Document>>, split: seq<Document> -> Result<seq<Document>>,
                               model: Result<(Embedder, EncodeOptions)>, created: Option<Error>,
                               linkTarget: string -> Option<string>)
    requires ClearSource in Run(loaded, images, audio, split, model, created, linkTarget).steps
    ensures Gathered(loaded, images, audio).Ok?
    ensures var documents := Gathered(loaded, images, audio).value;
            var r := Run(loaded, images, audio, split, model, created, linkTarget);
            forall k :: 0 <= k < |documents| && HasHash(documents[k]) ==>
              exists w :: w in r.audit.written && w.0 == documents[k].metadata["hash"] + ".json"
                          && w.1.content == Coerce(documents[k]).content
  {
    var documents := Gathered(loaded, images, audio).value;
    var coerced := SplitDocuments(documents, split).0;
    var r := Run(loaded, images, audio, split, model, created, linkTarget);
    assert r.audit == SaveDocumentsToJson(coerced, linkTarget);
    AuditWritesHashed(coerced, linkTarget);
    var hashed := Filter(HasHash, coerced);
    assert WritesEach(r.audit, hashed);
    forall k | 0 <= k < |documents| && HasHash(documents[k])
      ensures exists w :: w in r.audit.written && w.0 == documents[k].metadata["hash"] + ".json"
                          && w.1.content == Coerce(documents[k]).content
    {
      assert HasHash(coerced[k]) && coerced[k] == Coerce(documents[k]);
      assert coerced[k] in hashed;
      var j :| 0 <= j < |hashed| && hashed[j] == coerced[k];
      assert r.audit.written[j] in r.audit.written;
    }
  }
}

=== FILE: document_processor.dfy ===
/** Loading the documents of a source directory: choosing a loader by file
    extension, merging the extracted metadata, partitioning the files into
    batches for a pool of worker processes, and merging the batches back in
    the order they complete. The loaders, the metadata extractor and the text
    splitter are collaborators passed in as functions. */
module DocumentProcessor {
  import opened Outcomes
  import opened Strings
  import opened Seqs
  import opened Constants

  /** A loaded document's `page_content`: normally text, but some loaders
      produce another object, kept here as the text `str()` gives for it. */
  datatype Content = Text(text: string) | NonText(repr: string)

  type Metadata = map<string, string>

  datatype Document = Document(content: Content, metadata: Metadata)

  /** A keyword argument handed to a loader's constructor. */
  datatype OptionValue = Str(s: string) | Flag(b: bool)

  type LoaderOptions = map<string, OptionValue>

  /** `loader_class(str(path), **options).load()`: the documents a loader
      returns, or the exception it raises. */
  type LoaderCall = (LoaderKind, string, LoaderOptions) -> Result<seq<Document>>

  /** `extract_document_metadata(path)`. */
  type Extractor = string -> Result<Metadata>

  // ---------------------------------------------------------------------
  // One document

  const SingleFast: LoaderOptions := map["mode" := Str("single"), "strategy" := Str("fast")]
  const SingleOnly: LoaderOptions := map["mode" := Str("single")]
  const Utf8Detect: LoaderOptions := map["encoding" := Str("utf-8"), "autodetect_encoding" := Flag(true)]

  /** The extra constructor arguments for a (lower-cased) extension. */
  function LoaderOptionsFor(ext: string): (opts: LoaderOptions)
    ensures opts in {SingleFast, SingleOnly, Utf8Detect, map[]}
  {
    if ext in [".epub", ".rtf", ".odt", ".md", ".html"] then SingleFast
    else if ext in [".xlsx", ".xlsd"] then SingleOnly
    else if ext in [".csv", ".txt"] then Utf8Detect
    else map[]
  }

  /** Over the registered extensions: the five unstructured formats load as a
      single element with the fast strategy, `.xlsx` as a single element, CSV
      and plain text with detected UTF-8, and the other seven (among them
      `.xls` and `.xlsm`, which share the Excel loader with `.xlsx`) with no
      options. The `.xlsd` case is never reached, as it is not registered. */
  lemma LoaderOptionsOfRegistry()
    ensures forall k :: 0 <= k < |DocumentLoaders| ==>
              var ext := DocumentLoaders[k].0;
              && (LoaderOptionsFor(ext) == SingleFast <==> ext in [".epub", ".rtf", ".odt", ".md", ".html"])
              && (LoaderOptionsFor(ext) == SingleOnly <==> ext == ".xlsx")
              && (LoaderOptionsFor(ext) == Utf8Detect <==> ext in [".csv", ".txt"])
              && (LoaderOptionsFor(ext) == map[] <==>
                    ext in [".pdf", ".docx", ".enex", ".eml", ".msg", ".xls", ".xlsm"])
    ensures forall k :: 0 <= k < |DocumentLoaders| ==> DocumentLoaders[k].0 != ".xlsd"
  {
    assert SingleFast != SingleOnly && SingleFast != Utf8Detect && SingleOnly != Utf8Detect by {
      assert "strategy" in SingleFast && "strategy" !in SingleOnly;
      assert "mode" in SingleFast && "mode" !in Utf8Detect;
      assert "mode" in SingleOnly;
    }
    assert SingleFast != map[] && SingleOnly != map[] && Utf8Detect != map[] by {
      assert "mode" in SingleFast && "mode" in SingleOnly && "encoding" in Utf8Detect;
    }
  }

  /** The message of the error for an extension without a loader. */
  function UndefinedType(ext: string): string {
    "Document type for extension " + ext + " is undefined"
  }

  /** Running the chosen loader on `path` and merging the extracted
      metadata over the first document's: extracted keys win, the loader's
      other keys keep their values. A loader error, an empty result (the
      `IndexError` of `[0]`) or an extraction error is passed on. */
  function LoadWith(kind: LoaderKind, path: string, options: LoaderOptions,
                    load: LoaderCall, extract: Extractor): (r: Result<Document>)
    ensures r.Ok? ==>
              var loaded := load(kind, path, options);
              && loaded.Ok? && |loaded.value| > 0
              && extract(path).Ok?
              && r.value.content == loaded.value[0].content
              && r.value.metadata.Keys == loaded.value[0].metadata.Keys + extract(path).value.Keys
              && (forall key :: key in extract(path).value ==> r.value.metadata[key] == extract(path).value[key])
              && (forall key :: key in loaded.value[0].metadata && key !in extract(path).value ==>
                    r.value.metadata[key] == loaded.value[0].metadata[key])
    ensures r.Err? ==>
              var loaded := load(kind, path, options);
              || loaded == Err(r.error)
              || (loaded == Ok([]) && r.error.IndexError?)
              || extract(path) == Err(r.error)
    ensures load(kind, path, options).Err? ==> r == Err(load(kind, path, options).error)
    ensures load(kind, path, options) == Ok([]) ==> r == Err(IndexError("list index out of range"))
    ensures load(kind, path, options).Ok? && |load(kind, path, options).value| > 0 && extract(path).Err? ==>
              r == Err(extract(path).error)
  {
    var docs :- load(kind, path, options);
    if |docs| == 0 then Err(IndexError("list index out of range"))
    else
      var metadata :- extract(path);
      Ok(Document(docs[0].content, docs[0].metadata + metadata))
  }

  /** `load_single_document(path)`: the loader registered for the path's
      lower-cased suffix, run with that suffix's options; an unregistered
      suffix is a `ValueError` naming it. */
  function LoadSingleDocument(path: string, load: LoaderCall, extract: Extractor): (r: Result<Document>)
    ensures Lookup(DocumentLoaders, Lower(Suffix(path))).None? ==>
              r == Err(ValueError(UndefinedType(Lower(Suffix(path)))))
    ensures Lookup(DocumentLoaders, Lower(Suffix(path))).Some? ==>
              var ext := Lower(Suffix(path));
              r == LoadWith(Lookup(DocumentLoaders, ext).value, path, LoaderOptionsFor(ext), load, extract)
  {
    var ext := Lower(Suffix(path));
    match Lookup(DocumentLoaders, ext)
    case None => Err(ValueError(UndefinedType(ext)))
    case Some(kind) => LoadWith(kind, path, LoaderOptionsFor(ext), load, extract)
  }

  // ---------------------------------------------------------------------
  // Selecting the files

  /** The suffix test of `load_documents`, which lower-cases both the file's
      suffix and the registry's keys. */
  predicate IsDocPath(path: string) {
    exists k :: 0 <= k < |DocumentLoaders| && Lower(DocumentLoaders[k].0) == Lower(Suffix(path))
  }

  /** A path passes the suffix test exactly when the registry has a loader
      for its lower-cased suffix, whatever the case of the suffix itself. */
  lemma IsDocPathHasLoader(path: string)
    ensures IsDocPath(path) <==> Lookup(DocumentLoaders, Lower(Suffix(path))).Some?
  {
    DocumentLoadersShape();
    forall k | 0 <= k < |DocumentLoaders|
      ensures Lower(DocumentLoaders[k].0) == DocumentLoaders[k].0
    {
      LowerIsLowerCase(DocumentLoaders[k].0);
    }
  }

  /** `[f for f in all_files if <suffix test>]`. */
  function DocPaths(files: seq<string>): (docs: seq<string>)
    ensures forall k :: 0 <= k < |docs| ==> docs[k] in files && IsDocPath(docs[k])
    ensures forall k :: 0 <= k < |files| && IsDocPath(files[k]) ==> files[k] in docs
  {
    Filter(IsDocPath, files)
  }

  /** Every selected file has a loader, so none of them meets the
      undefined-extension error. */
  lemma DocPathsHaveLoaders(files: seq<string>)
    ensures forall p :: p in DocPaths(files) ==> Lookup(DocumentLoaders, Lower(Suffix(p))).Some?
  {
    forall p | p in DocPaths(files)
      ensures Lookup(DocumentLoaders, Lower(Suffix(p))).Some?
    {
      IsDocPathHasLoader(p);
    }
  }

  // ---------------------------------------------------------------------
  // Dividing the work

  /** `INGEST_THREADS = max(4, os.cpu_count() - 4)`. */
  function IngestThreads(cpuCount: nat): (t: nat)
    ensures t >= 4 && t >= cpuCount - 4
    ensures t == 4 || t == cpuCount - 4
  {
    if cpuCount - 4 > 4 then cpuCount - 4 else 4
  }

  /** `min(INGEST_THREADS, max(len(doc_paths), 1))`. */
  function Workers(cpuCount: nat, n: nat): (w: nat)
    ensures 1 <= w <= IngestThreads(cpuCount)
    ensures n >= 1 ==> w <= n
    ensures w == IngestThreads(cpuCount) || w == (if n == 0 then 1 else n)
  {
    var atLeastOne := if n == 0 then 1 else n;
    if IngestThreads(cpuCount) < atLeastOne then IngestThreads(cpuCount) else atLeastOne
  }

  /** `math.ceil(n / w)`, written in integers. */
  function CeilDiv(n: nat, w: nat): (c: nat)
    requires w >= 1
    ensures c * w >= n
    ensures c == 0 || (c - 1) * w < n
  {
    var c := (n + w - 1) / w;
    assert c * w + (n + w - 1) % w == n + w - 1;
    assert (c - 1) * w == c * w - w;
    c
  }

  /** `[s[i:i + size] for i in range(0, len(s), size)]`. */
  function Batches<T>(s: seq<T>, size: nat): (bs: seq<seq<T>>)
    requires size >= 1
    ensures Flatten(bs) == s
    ensures forall k :: 0 <= k < |bs| ==> 0 < |bs[k]| <= size
    ensures forall k :: 0 <= k < |bs| - 1 ==> |bs[k]| == size
    ensures |s| == 0 <==> |bs| == 0
    ensures |s| > 0 ==> (|bs| - 1) * size < |s| <= |bs| * size
    decreases |s|
  {
    if |s| == 0 then []
    else if |s| <= size then
      assert Flatten([s]) == s + Flatten([]);
      [s]
    else
      var rest := Batches(s[size..], size);
      assert ([s[..size]] + rest)[1..] == rest;
      assert s[..size] + s[size..] == s;
      assert (|rest| - 1) * size + size == |rest| * size;
      [s[..size]] + rest
  }

  /** The batches `load_documents` submits for the selected files. */
  function Plan(files: seq<string>, cpuCount: nat): (bs: seq<seq<string>>)
    ensures Flatten(bs) == DocPaths(files)
  {
    var docs := DocPaths(files);
    if |docs| == 0 then []
    else Batches(docs, CeilDiv(|docs|, Workers(cpuCount, |docs|)))
  }

  lemma MulLess(a: int, b: int, c: int)
    requires c > 0 && a * c < b * c
    ensures a < b
  {
  }

  /** No more batches are submitted than there are worker processes, every
      batch is non-empty, and together they hold exactly the selected files. */
  lemma PlanFitsWorkers(files: seq<string>, cpuCount: nat)
    ensures var docs := DocPaths(files);
            var bs := Plan(files, cpuCount);
            && |bs| <= Workers(cpuCount, |docs|)
            && (|bs| == 0 <==> |docs| == 0)
            && (forall k :: 0 <= k < |bs| ==> |bs[k]| > 0)
            && Flatten(bs) == docs
  {
    var docs := DocPaths(files);
    if |docs| > 0 {
      var w := Workers(cpuCount, |docs|);
      var cs := CeilDiv(|docs|, w);
      var bs := Batches(docs, cs);
      assert (|bs| - 1) * cs < |docs| <= cs * w;
      MulLess(|bs| - 1, w, cs);
    }
  }

  // ---------------------------------------------------------------------
  // Loading in parallel

  /** `load_document_batch`: every file of the batch in order; the first
      failure, in submission order, is the one re-raised. */
  function LoadBatch(paths: seq<string>, load: LoaderCall, extract: Extractor): (r: Result<seq<Document>>)
    ensures r.Ok? ==> |r.value| == |paths|
    ensures r.Err? ==> exists k :: 0 <= k < |paths| && Loading(load, extract)(paths[k]) == Err(r.error)
                                   && forall j :: 0 <= j < k ==> Loading(load, extract)(paths[j]).Ok?
  {
    Collect(Map(Loading(load, extract), paths))
  }

  /** `load_single_document` with its collaborators fixed. */
  function Loading(load: LoaderCall, extract: Extractor): string -> Result<Document> {
    (p: string) => LoadSingleDocument(p, load, extract)
  }

  /** `load_documents` over the directory listing `files`, with the batches
      completing in the order `order` (a permutation of the batch indices,
      chosen by the process pool): the documents in completion order, or the
      first failure met in that order. */
  function LoadDocuments(files: seq<string>, cpuCount: nat, order: seq<nat>,
                         load: LoaderCall, extract: Extractor): (r: Result<seq<Document>>)
    requires IsPermutation(order, |Plan(files, cpuCount)|)
    ensures DocPaths(files) == [] ==> r == Ok([])
  {
    RunPool(Loading(load, extract), Plan(files, cpuCount), order)
  }

  /** Loading one file after another, in listing order: the reference the
      parallel load is measured against. */
  function LoadSequentially(files: seq<string>, load: LoaderCall, extract: Extractor): Result<seq<Document>> {
    LoadBatch(DocPaths(files), load, extract)
  }

  /** The parallel load succeeds exactly when the sequential one does, then
      returns the same documents in some order, and otherwise fails with the
      error of one of the selected files. */
  lemma LoadDocumentsIsSequentialUpToOrder(files: seq<string>, cpuCount: nat, order: seq<nat>,
                                           load: LoaderCall, extract: Extractor)
    requires IsPermutation(order, |Plan(files, cpuCount)|)
    ensures var r := LoadDocuments(files, cpuCount, order, load, extract);
            var s := LoadSequentially(files, load, extract);
            && (r.Ok? <==> s.Ok?)
            && (r.Ok? ==> multiset(r.value) == multiset(s.value))
            && (r.Err? ==> exists p :: p in DocPaths(files) && LoadSingleDocument(p, load, extract) == Err(r.error))
  {
    var plan := Plan(files, cpuCount);
    MergeBatches(Loading(load, extract), plan, order);
  }

  /** A successful parallel load is the batches' documents concatenated in
      completion order, each batch holding the documents of its files in the
      order the batch lists them. */
  lemma LoadDocumentsKeepsBatchOrder(files: seq<string>, cpuCount: nat, order: seq<nat>,
                                     load: LoaderCall, extract: Extractor)
    requires IsPermutation(order, |Plan(files, cpuCount)|)
    requires LoadDocuments(files, cpuCount, order, load, extract).Ok?
    ensures var batches := RunBatches(Loading(load, extract), Plan(files, cpuCount));
            && (forall k :: 0 <= k < |order| ==> order[k] < |batches|)
            && AllOk(batches)
            && LoadDocuments(files, cpuCount, order, load, extract).value
               == Flatten(Reorder(Values(batches), order))
  {
    RunPoolKeepsBatchOrder(Loading(load, extract), Plan(files, cpuCount), order);
  }

  /** The result of each batch in the pool is `load_document_batch` of that
      batch: on success, the documents of its files in the order it lists
      them. */
  lemma BatchesAreBatchLoads(plan: seq<seq<string>>, load: LoaderCall, extract: Extractor)
    ensures var batches := RunBatches(Loading(load, extract), plan);
            forall i :: 0 <= i < |plan| ==>
              && batches[i] == LoadBatch(plan[i], load, extract)
              && (batches[i].Ok? ==> batches[i].value == Values(Map(Loading(load, extract), plan[i])))
  {
  }

  // ---------------------------------------------------------------------
  // Before splitting

  /** `str(page_content)` for a non-text content; text is left as it is. */
  function Coerce(d: Document): (r: Document)
    ensures r.content.Text? && r.metadata == d.metadata
    ensures d.content.Text? ==> r == d
    ensures d.content.NonText? ==> r.content.text == d.content.repr
  {
    match d.content
    case Text(_) => d
    case NonText(repr) => Document(Text(repr), d.metadata)
  }

  /** `split_documents`: the documents with their contents coerced to text in
      place (the caller sees the coerced list), and the splitter's chunks of
      them. `split` stands for reading the chunk settings, building the
      splitter and splitting; an exception from any of these is its `Err`. */
  function SplitDocuments(docs: seq<Document>, split: seq<Document> -> Result<seq<Document>>)
    : (r: (seq<Document>, Result<seq<Document>>))
    ensures |r.0| == |docs|
    ensures forall k :: 0 <= k < |docs| ==> r.0[k] == Coerce(docs[k])
    ensures forall k :: 0 <= k < |r.0| ==> r.0[k].content.Text?
    ensures r.1 == split(r.0)
  {
    var coerced := Map(Coerce, docs);
    (coerced, split(coerced))
  }

  /** Coercion is idempotent: splitting an already coerced list changes none
      of its documents. */
  lemma CoerceIdempotent(docs: seq<Document>, split: seq<Document> -> Result<seq<Document>>)
    ensures var once := SplitDocuments(docs, split).0;
            SplitDocuments(once, split).0 == once
  {
  }
}

=== FILE: download_kobold.dfy ===
/** The KoboldCpp downloader's parsing and choices: the GPU names read from
    `nvidia-smi` and `vulkaninfo` output into four fixed slots, the device
    labels shown from them, the binaries' compatibility table, the download
    links and the guard before a download starts. The command output is
    given as text (absent when the command failed). */
module DownloadKobold {
  import opened Outcomes
  import opened Strings
  import opened Seqs

  /** The number of device slots shown. */
  const Slots: nat := 4

  /** Four slots holding the first values in order, the rest empty. */
  function FillSlots<T>(values: seq<T>, empty: T): (slots: seq<T>)
    ensures |slots| == Slots
    ensures forall i :: 0 <= i < Slots ==> slots[i] == if i < |values| then values[i] else empty
  {
    seq(Slots, i requires 0 <= i < Slots => if i < |values| then values[i] else empty)
  }

  // ---------------------------------------------------------------------
  // nvidia-smi

  /** `get_nvidia_gpu_names` given the command's standard output: its
      stripped lines in the first slots; four empty slots when the command
      failed. */
  function NvidiaNames(output: Option<string>): (names: seq<string>)
    ensures |names| == Slots
    ensures output.None? ==> names == ["", "", "", ""]
    ensures output.Some? ==>
              var lines := SplitLines(output.value);
              forall i :: 0 <= i < Slots ==>
                names[i] == if i < |lines| then Strip(lines[i]) else ""
  {
    match output
    case None => ["", "", "", ""]
    case Some(text) => FillSlots(Map(Strip, SplitLines(text)), "")
  }

  /** Names printed one per line come back in their slots, up to four. */
  lemma NvidiaNamesRoundTrip(gpus: seq<string>)
    requires forall k :: 0 <= k < |gpus| ==> NoLineBreak(gpus[k]) && Strip(gpus[k]) == gpus[k]
    ensures forall i :: 0 <= i < Slots ==>
              NvidiaNames(Some(Terminated(gpus)))[i] == if i < |gpus| then gpus[i] else ""
  {
    SplitLinesTerminated(gpus);
  }

  // ---------------------------------------------------------------------
  // vulkaninfo

  const DiscreteGpu := "PHYSICAL_DEVICE_TYPE_DISCRETE_GPU"

  /** `line.split("=")[1].strip()`: the stripped text between the first and
      the second `=`; absent (an `IndexError`) when there is no `=`. */
  function FieldValue(line: string): (v: Option<string>)
    ensures v.None? <==> '=' !in line
  {
    var pieces := Split(line, '=');
    SplitHasSeparator(line, '=');
    if |pieces| < 2 then None else Some(Strip(pieces[1]))
  }

  /** The lines of `text` that contain `key`. */
  function LinesWith(text: string, key: string): seq<string> {
    Filter((line: string) => Contains(line, key), SplitLines(text))
  }

  /** The field values of `lines`, or absent if one of them has no `=`. */
  function FieldValues(lines: seq<string>): (r: Option<seq<string>>)
    ensures r.None? <==> exists k :: 0 <= k < |lines| && '=' !in lines[k]
    ensures r.Some? ==> |r.value| == |lines| && forall k :: 0 <= k < |lines| ==> Some(r.value[k]) == FieldValue(lines[k])
  {
    if |lines| == 0 then Some([])
    else
      var head, tail := FieldValue(lines[0]), FieldValues(lines[1..]);
      assert forall k :: 0 < k < |lines| ==> lines[k] == lines[1..][k - 1];
      if head.None? then None
      else if tail.None? then
        var k :| 0 <= k < |lines[1..]| && '=' !in lines[1..][k];
        assert '=' !in lines[k + 1];
        None
      else Some([head.value] + tail.value)
  }

  /** The slots filled from parsed names and types: the names in order, and
      a 1 for each discrete GPU type when the two counts agree. */
  function VulkanSlots(names: seq<string>, types: seq<string>): (r: (seq<string>, seq<nat>))
    ensures |r.0| == Slots && |r.1| == Slots
    ensures forall i :: 0 <= i < Slots ==> r.0[i] == if i < |names| then names[i] else ""
    ensures forall i :: 0 <= i < Slots ==>
              (r.1[i] == 1 <==> |types| == |names| && i < |types| && types[i] == DiscreteGpu)
    ensures forall i :: 0 <= i < Slots ==> r.1[i] in {0, 1}
  {
    var flags := Map((t: string) => if t == DiscreteGpu then 1 else 0, types);
    (FillSlots(names, ""), if |types| == |names| then FillSlots(flags, 0) else [0, 0, 0, 0])
  }

  /** `get_vulkan_info` given the command's standard output: the device names
      in the first slots, and a 1 in each slot whose device type is a discrete
      GPU, counted only when there are as many type lines as name lines. A
      name or type line without `=` raises before any slot is filled. */
  function VulkanInfo(output: Option<string>): (r: (seq<string>, seq<nat>))
    ensures |r.0| == Slots && |r.1| == Slots
    ensures forall i :: 0 <= i < Slots ==> r.1[i] in {0, 1}
    ensures output.None? ==> r == (["", "", "", ""], [0, 0, 0, 0])
  {
    var none := (["", "", "", ""], [0, 0, 0, 0]);
    match output
    case None => none
    case Some(text) =>
      match (FieldValues(LinesWith(text, "deviceName")), FieldValues(LinesWith(text, "deviceType")))
      case (Some(names), Some(types)) => VulkanSlots(names, types)
      case _ => none
  }

  /** A malformed name or type line leaves every slot empty. */
  lemma VulkanInfoMalformed(text: string)
    requires || (exists k :: 0 <= k < |LinesWith(text, "deviceName")| && '=' !in LinesWith(text, "deviceName")[k])
             || (exists k :: 0 <= k < |LinesWith(text, "deviceType")| && '=' !in LinesWith(text, "deviceType")[k])
    ensures VulkanInfo(Some(text)) == (["", "", "", ""], [0, 0, 0, 0])
  {
    assert FieldValues(LinesWith(text, "deviceName")).None? || FieldValues(LinesWith(text, "deviceType")).None?;
  }

  /** Otherwise names fill in order, and a flag is 1 exactly when the counts
      agree and that slot's type is a discrete GPU. */
  lemma VulkanInfoSlots(text: string)
    requires FieldValues(LinesWith(text, "deviceName")).Some? && FieldValues(LinesWith(text, "deviceType")).Some?
    ensures var r := VulkanInfo(Some(text));
            var names := FieldValues(LinesWith(text, "deviceName")).value;
            var types := FieldValues(LinesWith(text, "deviceType")).value;
            forall i :: 0 <= i < Slots ==>
              && r.0[i] == (if i < |names| then names[i] else "")
              && (r.1[i] == 1 <==> |types| == |names| && i < |types| && types[i] == DiscreteGpu)
  {
    var names := FieldValues(LinesWith(text, "deviceName")).value;
    var types := FieldValues(LinesWith(text, "deviceType")).value;
    assert VulkanInfo(Some(text)) == VulkanSlots(names, types);
  }

  // ---------------------------------------------------------------------
  // Device labels

  /** One line of a device label, numbered from 1. */
  function DeviceLine(i: nat, name: string, suffix: string): string {
    "  Device " + NatToString(i) + ": " + name + suffix + "\n"
  }

  /** The suffix of a Vulkan device line. */
  function VulkanSuffix(discrete: bool): string {
    " " + (if discrete then "(Discrete GPU)" else "")
  }

  /** The device lines for the slots from number `first` on, skipping empty
      slots; `suffixes` gives each slot's suffix. */
  function DeviceLines(first: nat, names: seq<string>, suffixes: seq<string>): string
    requires |suffixes| == |names|
    decreases |names|
  {
    if |names| == 0 then ""
    else
      SlotLine(first, names[0], suffixes[0]) + DeviceLines(first + 1, names[1..], suffixes[1..])
  }

  /** The CUDA label: its header, then one line per non-empty slot. */
  function CudaLabel(names: seq<string>): (text: string)
    ensures text == "CUDA Devices:\n" + Flatten(SlotLines(1, names, seq(|names|, _ => "")))
  {
    var suffixes := seq(|names|, _ => "");
    DeviceLinesPerSlot(1, names, suffixes);
    "CUDA Devices:\n" + DeviceLines(1, names, suffixes)
  }

  /** The Vulkan label: its header, then one line per non-empty slot, marked
      when that slot's device is discrete. */
  function VulkanLabel(names: seq<string>, discrete: seq<nat>): (text: string)
    requires |discrete| == |names|
    ensures text == "Vulkan Devices:\n"
                     + Flatten(SlotLines(1, names, seq(|names|, i requires 0 <= i < |names| => VulkanSuffix(discrete[i] != 0))))
  {
    var suffixes := seq(|names|, i requires 0 <= i < |names| => VulkanSuffix(discrete[i] != 0));
    DeviceLinesPerSlot(1, names, suffixes);
    "Vulkan Devices:\n" + DeviceLines(1, names, suffixes)
  }

  /** The line a slot contributes, if any. */
  function SlotLine(i: nat, name: string, suffix: string): string {
    if name != "" then DeviceLine(i, name, suffix) else ""
  }

  /** The lines of the slots from number `first` on, one entry per slot. */
  function SlotLines(first: nat, names: seq<string>, suffixes: seq<string>): (ls: seq<string>)
    requires |suffixes| == |names|
    ensures |ls| == |names|
  {
    seq(|names|, i requires 0 <= i < |names| => SlotLine(first + i, names[i], suffixes[i]))
  }

  /** The labels list exactly the non-empty slots, in slot order, each under
      its own 1-based slot number. */
  lemma {:induction false} DeviceLinesPerSlot(first: nat, names: seq<string>, suffixes: seq<string>)
    requires |suffixes| == |names|
    ensures DeviceLines(first, names, suffixes) == Flatten(SlotLines(first, names, suffixes))
    decreases |names|
  {
    if |names| > 0 {
      var ls, rest := SlotLines(first, names, suffixes), SlotLines(first + 1, names[1..], suffixes[1..]);
      DeviceLinesPerSlot(first + 1, names[1..], suffixes[1..]);
      SlotLinesCons(first, names, suffixes);
      assert Flatten(ls) == ls[0] + Flatten(rest);
      assert DeviceLines(first, names, suffixes)
          == SlotLine(first, names[0], suffixes[0]) + DeviceLines(first + 1, names[1..], suffixes[1..]);
    } else {
      assert SlotLines(first, names, suffixes) == [];
    }
  }

  lemma SlotLinesCons(first: nat, names: seq<string>, suffixes: seq<string>)
    requires |suffixes| == |names| > 0
    ensures SlotLines(first, names, suffixes)[1..] == SlotLines(first + 1, names[1..], suffixes[1..])
    ensures SlotLines(first, names, suffixes)[0] == SlotLine(first, names[0], suffixes[0])
  {
  }

  /** With no device found, a label is its header alone. */
  lemma {:induction false} EmptySlotsNoLines(first: nat, names: seq<string>, suffixes: seq<string>)
    requires |suffixes| == |names|
    requires forall k :: 0 <= k < |names| ==> names[k] == ""
    ensures DeviceLines(first, names, suffixes) == ""
    decreases |names|
  {
    if |names| > 0 {
      EmptySlotsNoLines(first + 1, names[1..], suffixes[1..]);
    }
  }

  // ---------------------------------------------------------------------
  // Binaries

  const ReleasePrefix := "https://github.com/LostRuins/koboldcpp/releases/latest/download/"

  /** `download_links`, in insertion order. */
  const DownloadLinks: seq<(string, string)> := [
    ("koboldcpp.exe", "https://github.com/LostRuins/koboldcpp/releases/latest/download/koboldcpp.exe"),
    ("koboldcpp_cu12.exe", "https://github.com/LostRuins/koboldcpp/releases/latest/download/koboldcpp_cu12.exe"),
    ("koboldcpp_oldcpu.exe", "https://github.com/LostRuins/koboldcpp/releases/latest/download/koboldcpp_oldcpu.exe"),
    ("koboldcpp_nocuda.exe", "https://github.com/LostRuins/koboldcpp/releases/latest/download/koboldcpp_nocuda.exe")
  ]

  /** Four binaries with distinct names, each downloaded from the latest
      release under its own name. */
  lemma DownloadLinksShape()
    ensures |DownloadLinks| == 4 && DistinctKeys(DownloadLinks)
    ensures forall k :: 0 <= k < |DownloadLinks| ==> DownloadLinks[k].1 == ReleasePrefix + DownloadLinks[k].0
  {
    forall k | 0 <= k < |DownloadLinks|
      ensures DownloadLinks[k].1 == ReleasePrefix + DownloadLinks[k].0
    {
      ConcatOfSlices(DownloadLinks[k].1, ReleasePrefix, DownloadLinks[k].0);
    }
  }

  /** A row of the compatibility table. */
  datatype Compatibility = Compatibility(binary: string, requiresAvx2: bool, cudaSupport: bool)

  function CompatibilityOf(binary: string): Compatibility {
    Compatibility(binary, binary != "koboldcpp_oldcpu.exe", binary != "koboldcpp_nocuda.exe")
  }

  /** `create_table_like_layout`: one row per binary, in link order. */
  function CompatibilityTable(): (rows: seq<Compatibility>)
    ensures |rows| == |DownloadLinks|
    ensures forall k :: 0 <= k < |rows| ==> rows[k].binary == DownloadLinks[k].0
  {
    Map((entry: (string, string)) => CompatibilityOf(entry.0), DownloadLinks)
  }

  /** Only the old-CPU build runs without AVX2, and only the no-CUDA build
      lacks CUDA; the other two builds need both. */
  lemma CompatibilityTableRows()
    ensures var t := CompatibilityTable();
            && (forall k :: 0 <= k < |t| ==> (!t[k].requiresAvx2 <==> t[k].binary == "koboldcpp_oldcpu.exe"))
            && (forall k :: 0 <= k < |t| ==> (!t[k].cudaSupport <==> t[k].binary == "koboldcpp_nocuda.exe"))
            && t[0].requiresAvx2 && t[0].cudaSupport && t[1].requiresAvx2 && t[1].cudaSupport
            && !t[2].requiresAvx2 && t[2].cudaSupport && t[3].requiresAvx2 && !t[3].cudaSupport
  {
  }

  /** What pressing the button does: start a download thread for the URL,
      saving under the binary's name, or show an error box. */
  datatype DownloadStart = DownloadThread(url: string, fileName: string) | ErrorBox(message: string)

  /** `start_download` for the selected binary. */
  function StartDownload(selected: string): (r: DownloadStart)
    ensures r.DownloadThread? <==> selected in Keys(DownloadLinks)
    ensures r.DownloadThread? ==> r.fileName == selected && r.url == ReleasePrefix + selected
    ensures r.ErrorBox? ==> r.message == selected + " not found in the download links."
  {
    DownloadLinksShape();
    match Lookup(DownloadLinks, selected)
    case Some(url) => DownloadThread(url, selected)
    case None => ErrorBox(selected + " not found in the download links.")
  }

  /** The binary selected when the window opens can be downloaded. */
  lemma DefaultSelectionDownloads()
    ensures StartDownload("koboldcpp_nocuda.exe") == DownloadThread(ReleasePrefix + "koboldcpp_nocuda.exe", "koboldcpp_nocuda.exe")
  {
    DownloadLinksShape();
    assert Keys(DownloadLinks)[3] == "koboldcpp_nocuda.exe";
  }
}

=== FILE: download_model.dfy ===
/** Downloading an embedding model from its hub repository: where it goes
    and which files are fetched. The hub's listing and snapshot calls are
    passed in; the worker thread that runs the fetch is left out. */
module DownloadModel {
  import opened Outcomes
  import opened Strings
  import opened Seqs

  /** The folder a repository is stored under: every '/' becomes '_'. */
  function FolderName(repoId: string): (folder: string)
    ensures |folder| == |repoId|
    ensures '/' !in folder
    ensures '/' !in repoId ==> folder == repoId
    ensures forall i :: 0 <= i < |repoId| ==>
              folder[i] == if repoId[i] == '/' then '_' else repoId[i]
  {
    ReplaceChar(repoId, '/', '_')
  }

  /** Renaming twice changes nothing more. */
  lemma FolderNameIdempotent(repoId: string)
    ensures FolderName(FolderName(repoId)) == FolderName(repoId)
  {
  }

  /** The renaming is not one-to-one: a repository whose name already holds
      a '_' where another has a '/' lands in the same folder. */
  lemma FolderNamesCollide()
    ensures FolderName("BAAI/bge-small-en-v1.5") == FolderName("BAAI_bge-small-en-v1.5")
  {
  }

  /** `local_dir`: `<app>/Models/vector/<folder>`. */
  function LocalDir(appDir: string, repoId: string): (dir: string)
    ensures |dir| == |appDir| + |"/Models/vector/"| + |repoId|
    ensures dir[..|appDir|] == appDir && dir[|dir| - |repoId|..] == FolderName(repoId)
    ensures dir[|appDir|..|dir| - |repoId|] == "/Models/vector/"
  {
    appDir + "/Models/vector/" + FolderName(repoId)
  }

  /** The local directory's last component is the folder, whatever directory
      the application lives in. */
  lemma LocalDirEndsInFolder(appDir: string, repoId: string)
    requires repoId != "" && repoId != "."
    ensures PathName(LocalDir(appDir, repoId)) == FolderName(repoId)
  {
    var folder := FolderName(repoId);
    assert folder != "." by {
      if |repoId| == 1 {
        assert repoId[0] != '.';
        assert repoId[0] != '/' ==> folder[0] == repoId[0];
      }
    }
    assert appDir + "/Models/vector/" + folder == (appDir + "/Models/vector") + "/" + folder;
    PathNameOfJoin(appDir + "/Models/vector", folder);
  }

  /** A listing entry outside every sub-directory of the repository. */
  predicate IsTopLevel(file: string) {
    '/' !in file
  }

  /** The repository's top-level files, in listing order. */
  function TopLevelFiles(files: seq<string>): (top: seq<string>)
    ensures forall k :: 0 <= k < |top| ==> '/' !in top[k] && top[k] in files
    ensures forall k :: 0 <= k < |files| && '/' !in files[k] ==> files[k] in top
  {
    Filter(IsTopLevel, files)
  }

  /** Listing order is kept: the top-level files of a listing split in two
      are those of the first part followed by those of the second. */
  lemma TopLevelFilesKeepOrder(a: seq<string>, b: seq<string>)
    ensures TopLevelFiles(a + b) == TopLevelFiles(a) + TopLevelFiles(b)
  {
    FilterAppend(IsTopLevel, a, b);
  }

  /** What `download_model_files` did: the patterns it asked the snapshot
      for, if it got that far, and its boolean result. */
  datatype Fetch = Fetch(snapshotPatterns: Option<seq<string>>, succeeded: bool)

  /** `download_model_files`. `listing` is the hub's file list or the error
      it raised; `snapshot` downloads the given patterns and reports the
      error it raised, if any. Every failure is caught and becomes `false`. */
  function DownloadModelFiles(listing: Result<seq<string>>,
                              snapshot: seq<string> -> Option<Error>): (f: Fetch)
    ensures listing.Err? ==> f == Fetch(None, false)
    ensures listing.Ok? && TopLevelFiles(listing.value) == [] ==> f == Fetch(None, false)
    ensures f.snapshotPatterns.Some? <==> listing.Ok? && TopLevelFiles(listing.value) != []
    ensures f.snapshotPatterns.Some? ==>
              f.snapshotPatterns.value == TopLevelFiles(listing.value)
              && (f.succeeded <==> snapshot(f.snapshotPatterns.value).None?)
  {
    match listing
    case Err(_) => Fetch(None, false)
    case Ok(files) =>
      var top := TopLevelFiles(files);
      if top == [] then Fetch(None, false)
      else Fetch(Some(top), snapshot(top).None?)
  }

  /** True means a snapshot of exactly the top-level files completed; in
      particular a repository whose files all sit in sub-directories is
      never reported as downloaded. */
  lemma DownloadSucceededMeansSnapshot(listing: Result<seq<string>>, snapshot: seq<string> -> Option<Error>)
    requires DownloadModelFiles(listing, snapshot).succeeded
    ensures listing.Ok?
    ensures exists k :: 0 <= k < |listing.value| && '/' !in listing.value[k]
    ensures snapshot(TopLevelFiles(listing.value)).None?
  {
    var top := TopLevelFiles(listing.value);
    assert top[0] in listing.value;
    var k :| 0 <= k < |listing.value| && listing.value[k] == top[0];
    assert '/' !in listing.value[k];
  }
}

=== FILE: gui_tabs_models.dfy ===
/** The models tab's "Downloaded" column: a model counts as downloaded when
    a directory named after it exists. The directory listings are passed in
    as sets of names. */
module ModelsTab {
  import opened Strings
  import opened Seqs
  import opened Constants
  import DownloadModel

  /** `get_model_directory_name`: every '/' becomes '_', as in the
      downloader's folder name; the model type is not consulted. */
  function DirName(modelName: string): (dir: string)
    ensures |dir| == |modelName|
    ensures '/' !in dir
    ensures '/' !in modelName ==> dir == modelName
    ensures forall i :: 0 <= i < |modelName| ==>
              dir[i] == if modelName[i] == '/' then '_' else modelName[i]
  {
    DownloadModel.FolderName(modelName)
  }

  /** The tab looks for the folder the downloader creates. */
  lemma DirNameIsFolderName(modelName: string)
    ensures DirName(modelName) == DownloadModel.FolderName(modelName)
  {
  }

  /** The text of the "Downloaded" cell. */
  function Status(modelName: string, existing: set<string>): (cell: string)
    ensures cell == "Yes" <==> DirName(modelName) in existing
    ensures cell == "No" <==> DirName(modelName) !in existing
  {
    if DirName(modelName) in existing then "Yes" else "No"
  }

  /** The rows of one vendor's group: the key "<vendor>/<name>" and its
      status. */
  function VendorRows(existing: set<string>, vendor: string, models: seq<VectorModel>): (rows: seq<(string, string)>)
    ensures |rows| == |models|
  {
    seq(|models|, k requires 0 <= k < |models| =>
          (vendor + "/" + models[k].name, Status(vendor + "/" + models[k].name, existing)))
  }

  function VendorRowsIn(existing: set<string>): ((string, seq<VectorModel>)) -> seq<(string, string)> {
    (group: (string, seq<VectorModel>)) => VendorRows(existing, group.0, group.1)
  }

  /** Every embedding model's row, vendor by vendor in table order. */
  function VectorRows(existing: set<string>): seq<(string, string)> {
    Flatten(Map(VendorRowsIn(existing), VectorModels))
  }

  /** Each embedding model of the table has its row, keyed "<vendor>/<name>"
      and saying "Yes" exactly when the directory for that key exists. */
  lemma VectorRowOfEachModel(existing: set<string>, v: nat, k: nat)
    requires v < |VectorModels| && k < |VectorModels[v].1|
    ensures var key := VectorModels[v].0 + "/" + VectorModels[v].1[k].name;
            (key, if DirName(key) in existing then "Yes" else "No") in VectorRows(existing)
  {
    var groups := Map(VendorRowsIn(existing), VectorModels);
    assert groups[v] == VendorRows(existing, VectorModels[v].0, VectorModels[v].1);
    FlattenMember(groups, v, k);
  }

  /** A model fetched by the downloader is shown as downloaded: the tab's
      key and the downloader's repository id name the same folder. */
  lemma DownloadedModelShowsYes(existing: set<string>, v: nat, k: nat)
    requires v < |VectorModels| && k < |VectorModels[v].1|
    requires DownloadModel.FolderName(VectorModels[v].1[k].repoId) in existing
    ensures (VectorModels[v].0 + "/" + VectorModels[v].1[k].name, "Yes") in VectorRows(existing)
  {
    VectorModelsWellFormed();
    assert VendorWellFormed(VectorModels[v].0, VectorModels[v].1);
    VectorRowOfEachModel(existing, v, k);
  }

  /** The rows of the vision group: the table key and its status. */
  function VisionRows(existing: set<string>): (rows: seq<(string, string)>)
    ensures |rows| == |VisionModels|
    ensures forall k :: 0 <= k < |rows| ==> rows[k].0 == VisionModels[k].0
  {
    seq(|VisionModels|, k requires 0 <= k < |VisionModels| =>
          (VisionModels[k].0, Status(VisionModels[k].0, existing)))
  }

  /** No vision key holds a '/', so a vision model is shown as downloaded
      exactly when a directory of its own key exists. */
  lemma VisionStatusIsOwnKey(existing: set<string>)
    ensures forall k :: 0 <= k < |VisionModels| ==>
              (VisionRows(existing)[k].1 == "Yes" <==> VisionModels[k].0 in existing)
  {
    forall k | 0 <= k < |VisionModels|
      ensures VisionRows(existing)[k].1 == "Yes" <==> VisionModels[k].0 in existing
    {
      VisionKeyPlain(k);
    }
  }

  lemma VisionKeyPlain(k: nat)
    requires k < |VisionModels|
    ensures '/' !in VisionModels[k].0
  {
    var key := VisionModels[k].0;
    assert key == "Florence-2-base" || key == "Florence-2-large" || key == "Moondream2";
  }
}

=== FILE: gui_tabs_settings.dfy ===
/** The settings tab: applying every settings group's edits at once and
    sizing the groups by which of them are expanded. Each group's own
    `update_config` and the check boxes are passed in as functions. */
module SettingsTab {
  import opened Seqs

  /** The group whose settings are saved elsewhere. */
  const SkippedTitle := "Kobold AI"

  /** The groups whose `update_config` is kept in `configs`. */
  const ConfigTitles: seq<string> := ["Kobold AI", "Database Query", "Database Creation"]

  predicate IsUpdated(title: string) {
    title != SkippedTitle
  }

  /** What the message box says. */
  datatype Notice = Notice(title: string, details: string)

  function NoticeFor(updated: bool): (n: Notice)
    ensures updated <==> n.title == "Settings Updated"
    ensures updated <==> n.details == "One or more settings have been updated."
    ensures !updated <==> n == Notice("No Updates", "No new settings were entered.")
  {
    if updated then Notice("Settings Updated", "One or more settings have been updated.")
    else Notice("No Updates", "No new settings were entered.")
  }

  /** Some group other than "Kobold AI" among `titles` reports a change. */
  predicate AnyUpdated(titles: seq<string>, update: string -> bool) {
    exists k :: 0 <= k < |titles| && titles[k] != SkippedTitle && update(titles[k])
  }

  lemma AnyUpdatedSnoc(titles: seq<string>, title: string, update: string -> bool)
    ensures AnyUpdated(titles + [title], update) <==>
              AnyUpdated(titles, update) || (title != SkippedTitle && update(title))
  {
    var ts := titles + [title];
    if AnyUpdated(titles, update) {
      var k :| 0 <= k < |titles| && titles[k] != SkippedTitle && update(titles[k]);
      assert ts[k] == titles[k];
    }
    if title != SkippedTitle && update(title) {
      assert ts[|titles|] == title;
    }
  }

  /** `update_all_configs`: every group except "Kobold AI" is asked to save
      its edits, in order, and each is asked even after an earlier one
      reported a change; `called` lists the groups asked. */
  method UpdateAllConfigs(titles: seq<string>, update: string -> bool)
    returns (called: seq<string>, updated: bool, notice: Notice)
    ensures called == Filter(IsUpdated, titles)
    ensures updated <==> exists k :: 0 <= k < |titles| && titles[k] != SkippedTitle && update(titles[k])
    ensures notice == NoticeFor(updated)
  {
    called, updated := [], false;
    var i := 0;
    while i < |titles|
      invariant 0 <= i <= |titles|
      invariant called == Filter(IsUpdated, titles[..i])
      invariant updated == AnyUpdated(titles[..i], update)
    {
      var title := titles[i];
      if title != SkippedTitle {
        var changed := update(title);
        called := called + [title];
        updated := changed || updated;
      }
      assert titles[..i + 1] == titles[..i] + [title];
      FilterAppend(IsUpdated, titles[..i], [title]);
      FilterSingle(IsUpdated, title);
      AnyUpdatedSnoc(titles[..i], title, update);
      i := i + 1;
    }
    assert titles[..i] == titles;
    notice := NoticeFor(updated);
  }

  /** On the tab's own groups the "Kobold AI" group is never asked, and the
      other two are asked once each, in order. */
  lemma UpdateAllConfigsOnTab()
    ensures Filter(IsUpdated, ConfigTitles) == ["Database Query", "Database Creation"]
  {
    var t := ConfigTitles;
    assert t == [t[0]] + [t[1]] + [t[2]];
    FilterAppend(IsUpdated, [t[0]] + [t[1]], [t[2]]);
    FilterAppend(IsUpdated, [t[0]], [t[1]]);
    FilterSingle(IsUpdated, t[0]);
    FilterSingle(IsUpdated, t[1]);
    FilterSingle(IsUpdated, t[2]);
  }

  /** `adjust_stretch`: a checked group keeps its configured factor and an
      unchecked one gets none. */
  function AdjustStretch(groups: seq<(string, nat)>, checked: string -> bool): (factors: seq<(string, nat)>)
    ensures |factors| == |groups|
    ensures forall k :: 0 <= k < |groups| ==>
              factors[k].0 == groups[k].0
              && (checked(groups[k].0) ==> factors[k].1 == groups[k].1)
              && (!checked(groups[k].0) ==> factors[k].1 == 0)
  {
    seq(|groups|, k requires 0 <= k < |groups| => (groups[k].0, if checked(groups[k].0) then groups[k].1 else 0))
  }

  /** Sizing is idempotent: sizing the computed factors again with the same
      check boxes changes nothing. */
  lemma AdjustStretchStable(groups: seq<(string, nat)>, checked: string -> bool)
    ensures AdjustStretch(AdjustStretch(groups, checked), checked) == AdjustStretch(groups, checked)
  {
  }

  /** With every group expanded, as the tab starts, each group has its
      configured factor. */
  lemma AllCheckedKeepsFactors(groups: seq<(string, nat)>)
    ensures AdjustStretch(groups, (title: string) => true) == groups
  {
  }
}

=== FILE: gui_tabs_tools_transcribe.dfy ===
/** The transcription tool tab: the Whisper model chooser, the speed slider,
    the chosen audio file, and the parameters a transcription starts with.
    The file dialog's answer is passed in; the transcriber itself and its
    thread are left out. */
module TranscribeTab {
  import opened Outcomes
  import opened Strings
  import opened Seqs

  const Sizes: seq<string> := ["large-v2", "medium.en", "small.en"]
  const Precisions: seq<string> := ["float32", "float16"]
  const Separator := " - "
  const RepoPrefix := "ctranslate2-4you/whisper-"

  /** The display text of a size and precision. */
  function DisplayName(size: string, precision: string): string {
    size + Separator + precision
  }

  /** The repository a size and precision are fetched from. */
  function RepoId(size: string, precision: string): string {
    RepoPrefix + size + "-ct2-" + precision
  }

  /** `model_name_mapping`, sizes outermost, in insertion order. */
  const ModelNameMapping: seq<(string, string)> := [Entry(0), Entry(1), Entry(2), Entry(3), Entry(4), Entry(5)]

  /** The entry for the `k`-th (size, precision) pair. */
  function Entry(k: nat): (string, string)
    requires k < |Sizes| * |Precisions|
  {
    (DisplayName(Sizes[k / 2], Precisions[k % 2]), RepoId(Sizes[k / 2], Precisions[k % 2]))
  }

  /** The compute type: the text after the last " - ", or all of it when
      there is none. */
  function ComputeType(text: string): (r: string)
    ensures |r| <= |text| && r == text[|text| - |r|..]
    ensures !IsSubstring(Separator, text) ==> r == text
    ensures IsSubstring(Separator, text) ==>
              && OccursAt(text, Separator, |text| - |r| - |Separator|)
              && forall j :: |text| - |r| - |Separator| < j ==> !OccursAt(text, Separator, j)
  {
    AfterLast(text, Separator)
  }

  /** The model identifier: the mapped repository, or the text itself. */
  function ModelIdentifier(text: string): (id: string)
    ensures text !in Keys(ModelNameMapping) ==> id == text
    ensures text in Keys(ModelNameMapping) ==> (text, id) in ModelNameMapping
  {
    match Lookup(ModelNameMapping, text)
    case Some(id) => id
    case None => text
  }

  /** A display text splits back into its size and precision. */
  lemma {:induction false} DisplayNameParts(size: string, precision: string)
    requires ' ' !in precision
    ensures ComputeType(DisplayName(size, precision)) == precision
    ensures var d := DisplayName(size, precision); d[..|d| - |Separator| - |precision|] == size
  {
    AfterLastDash(size, precision);
    var d := DisplayName(size, precision);
    assert d[..|d| - |Separator| - |precision|] == size;
  }

  lemma PrecisionsPlain(p: nat)
    requires p < |Precisions|
    ensures ' ' !in Precisions[p]
  {
    assert Precisions[p] == "float32" || Precisions[p] == "float16";
  }

  /** Every entry: its key's compute type is the precision named in its
      repository, and the key's head is the size. */
  lemma {:induction false} MappingEntry(k: nat)
    requires k < |ModelNameMapping|
    ensures ComputeType(ModelNameMapping[k].0) == Precisions[k % 2]
    ensures ModelNameMapping[k].1 == RepoId(Sizes[k / 2], ComputeType(ModelNameMapping[k].0))
    ensures var d := ModelNameMapping[k].0; d[..|d| - |Separator| - |Precisions[k % 2]|] == Sizes[k / 2]
  {
    assert ModelNameMapping[k] == Entry(k);
    EntryParts(k);
  }

  /** `MappingEntry` for the entry function itself. */
  lemma {:induction false} EntryParts(k: nat)
    requires k < |Sizes| * |Precisions|
    ensures ComputeType(Entry(k).0) == Precisions[k % 2]
    ensures Entry(k).1 == RepoId(Sizes[k / 2], ComputeType(Entry(k).0))
    ensures var d := Entry(k).0; d[..|d| - |Separator| - |Precisions[k % 2]|] == Sizes[k / 2]
  {
    PrecisionsPlain(k % 2);
    DisplayNameParts(Sizes[k / 2], Precisions[k % 2]);
  }

  /** The mapping has six entries, one per size and precision, with no key
      twice. */
  lemma MappingShape()
    ensures |ModelNameMapping| == |Sizes| * |Precisions| == 6
    ensures DistinctKeys(ModelNameMapping)
  {
    forall i, j | 0 <= i < j < |ModelNameMapping|
      ensures ModelNameMapping[i].0 != ModelNameMapping[j].0
    {
      EntryKeysDiffer(i, j);
    }
  }

  /** Two pairs differ in their precision, which the compute type recovers,
      or else in their size, which the key's head recovers. */
  lemma EntryKeysDiffer(i: nat, j: nat)
    requires i < j < |Sizes| * |Precisions|
    ensures Entry(i).0 != Entry(j).0
  {
    var a, b := Entry(i).0, Entry(j).0;
    PrecisionsPlain(i % 2);
    PrecisionsPlain(j % 2);
    DisplayNameParts(Sizes[i / 2], Precisions[i % 2]);
    DisplayNameParts(Sizes[j / 2], Precisions[j % 2]);
    if i % 2 != j % 2 {
      assert Precisions[i % 2] != Precisions[j % 2];
      assert ComputeType(a) != ComputeType(b);
    } else {
      assert Sizes[i / 2] != Sizes[j / 2];
      assert a[..|a| - |Separator| - |Precisions[i % 2]|] != b[..|b| - |Separator| - |Precisions[j % 2]|];
    }
  }

  /** Choosing an entry of the model box yields its repository and its
      precision as the compute type. */
  lemma ChosenEntryParameters(k: nat)
    requires k < |ModelNameMapping|
    ensures ModelIdentifier(ModelNameMapping[k].0) == RepoId(Sizes[k / 2], Precisions[k % 2])
    ensures ComputeType(ModelNameMapping[k].0) == Precisions[k % 2]
  {
    MappingShape();
    LookupDistinct(ModelNameMapping, k);
    MappingEntry(k);
  }

  // ---------------------------------------------------------------------
  // The tab's state

  const SliderMin := 1
  const SliderMax := 150
  const SliderDefault := 8
  const NoFileText := "No file currently selected"

  datatype Tab = Tab(
    choice: nat,                   // index of the model box's current entry
    sliderValue: int,
    sliderText: string,
    selectedFile: Option<string>,
    pathText: string)

  /** The label next to the slider shows its value, inside the range. */
  predicate LabelTracksSlider(t: Tab) {
    SliderMin <= t.sliderValue <= SliderMax && t.sliderText == NatToString(t.sliderValue)
  }

  /** The tab as `create_layout` leaves it. */
  function InitialTab(): (t: Tab)
    ensures LabelTracksSlider(t) && t.sliderValue == SliderDefault
    ensures t.selectedFile.None?
  {
    Tab(0, SliderDefault, "8", None, NoFileText)
  }

  /** Moving the slider: the value is kept inside the range and
      `update_slider_label` shows it. */
  function MoveSlider(t: Tab, value: int): (t': Tab)
    ensures LabelTracksSlider(t')
    ensures SliderMin <= value <= SliderMax ==> t'.sliderValue == value
    ensures t'.choice == t.choice && t'.selectedFile == t.selectedFile && t'.pathText == t.pathText
  {
    var v := if value < SliderMin then SliderMin else if value > SliderMax then SliderMax else value;
    t.(sliderValue := v, sliderText := NatToString(v))
  }

  /** Picking an entry of the model box. */
  function ChooseModel(t: Tab, k: nat): (t': Tab)
    requires k < |ModelNameMapping|
    ensures t'.choice == k
    ensures LabelTracksSlider(t) ==> LabelTracksSlider(t')
    ensures && t'.sliderValue == t.sliderValue && t'.sliderText == t.sliderText
            && t'.selectedFile == t.selectedFile && t'.pathText == t.pathText
  {
    t.(choice := k)
  }

  /** `"..." + parent name + "/" + file name`. */
  function ShortPath(file: string): (p: string)
    ensures |p| == 4 + |ParentName(file)| + |PathName(file)|
    ensures p[..3] == "..."
  {
    "..." + ParentName(file) + "/" + PathName(file)
  }

  /** The displayed path shows the parent directory's name after the
      ellipsis and ends in "/" and the file's own name. */
  lemma ShortPathParts(file: string)
    ensures var p := ShortPath(file);
            && p[3..3 + |ParentName(file)|] == ParentName(file)
            && p[|p| - |PathName(file)| - 1..] == "/" + PathName(file)
  {
    FourPieces("...", ParentName(file), "/", PathName(file));
  }

  lemma FourPieces(a: string, b: string, c: string, d: string)
    ensures var p := a + b + c + d; p[|a|..|a| + |b|] == b && p[|a| + |b|..] == c + d
  {
    var p := a + b + c + d;
    assert p == a + b + (c + d);
  }

  /** For a file in some directory, the displayed path ends in its name. */
  lemma ShortPathEndsInName(dir: string, name: string)
    requires '/' !in name && name != "" && name != "."
    ensures var p := ShortPath(dir + "/" + name); |p| > |name| && p[|p| - |name| - 1..] == "/" + name
  {
    PathNameOfJoin(dir, name);
    ShortPathParts(dir + "/" + name);
  }

  /** `select_audio_file`: a cancelled dialog (empty answer) changes
      nothing; otherwise the file is remembered and shown shortened. */
  function SelectAudioFile(t: Tab, answer: string): (t': Tab)
    ensures answer == "" ==> t' == t
    ensures answer != "" ==> t'.selectedFile == Some(answer) && t'.pathText == ShortPath(answer)
    ensures t'.choice == t.choice && t'.sliderValue == t.sliderValue && t'.sliderText == t.sliderText
  {
    if answer == "" then t else t.(selectedFile := Some(answer), pathText := ShortPath(answer))
  }

  /** The parameters of a transcription. */
  datatype Job = Job(modelIdentifier: string, batchSize: nat, computeType: string, file: string)

  /** The text of the model box's current entry. */
  function CurrentText(t: Tab): string {
    if t.choice < |ModelNameMapping| then ModelNameMapping[t.choice].0 else ""
  }

  /** `start_transcription`: nothing starts without a (non-empty) file;
      otherwise the job takes the identifier and compute type from the model
      box and the batch size from the slider's label, whose `int()` may
      raise. */
  function StartTranscription(t: Tab): (r: Result<Option<Job>>)
    ensures t.selectedFile.None? || t.selectedFile == Some("") ==> r == Ok(None)
    ensures r.Ok? && r.value.Some? ==>
              && t.selectedFile == Some(r.value.value.file)
              && r.value.value.modelIdentifier == ModelIdentifier(CurrentText(t))
              && r.value.value.computeType == ComputeType(CurrentText(t))
              && ParseNat(t.sliderText) == Ok(r.value.value.batchSize)
    ensures r.Err? <==> t.selectedFile.Some? && t.selectedFile != Some("") && ParseNat(t.sliderText).Err?
  {
    match t.selectedFile
    case None => Ok(None)
    case Some(file) =>
      if file == "" then Ok(None)
      else
        match ParseNat(t.sliderText)
        case Err(e) => Err(e)
        case Ok(batch) =>
          var text := CurrentText(t);
          Ok(Some(Job(ModelIdentifier(text), batch, ComputeType(text), file)))
  }

  /** Whatever the user did, a selected file starts a job whose batch size is
      the slider's value and whose model parameters are the chosen entry's. */
  lemma StartTranscriptionUsesChoices(t: Tab)
    requires LabelTracksSlider(t) && t.choice < |ModelNameMapping|
    requires t.selectedFile.Some? && t.selectedFile != Some("")
    ensures StartTranscription(t) ==
              Ok(Some(Job(RepoId(Sizes[t.choice / 2], Precisions[t.choice % 2]), t.sliderValue,
                          Precisions[t.choice % 2], t.selectedFile.value)))
  {
    StartTranscriptionJob(t);
    ChosenEntryParameters(t.choice);
  }

  lemma StartTranscriptionJob(t: Tab)
    requires LabelTracksSlider(t)
    requires t.selectedFile.Some? && t.selectedFile != Some("")
    ensures StartTranscription(t) ==
              Ok(Some(Job(ModelIdentifier(CurrentText(t)), t.sliderValue, ComputeType(CurrentText(t)), t.selectedFile.value)))
  {
    ParseNatToString(t.sliderValue);
  }
}

=== FILE: outcomes.dfy ===
/** Failure-carrying values that stand for the Python exceptions the program
    raises or catches. Every operation that can raise returns a `Result`. */
module Outcomes {

  /** A value that may be absent (Python's `None` or a missing dict key). */
  datatype Option<+T> = None | Some(value: T) {
    function GetOr(default: T): T {
      match this
      case Some(v) => v
      case None => default
    }
  }

  /** The exceptions the modelled code raises, each with its message. */
  datatype Error =
    | ValueError(message: string)
    | IndexError(message: string)
    | KeyError(key: string)
    | TypeError(message: string)
    | Raised(message: string)   // any exception a foreign collaborator raises

  datatype Result<+R> = Ok(value: R) | Err(error: Error) {
    predicate IsFailure() {
      Err?
    }

    function PropagateFailure<U>(): Result<U>
      requires Err?
    {
      Err(error)
    }

    function Extract(): R
      requires Ok?
    {
      value
    }
  }
}

=== FILE: process_images.dfy ===
/** Image ingestion: which files count as images, which vision loader the
    configured model selects, and how each image's failure is isolated so
    that one bad image, a failing model or a crashed worker process never
    stops a database build. The vision models and the image decoding are
    collaborators passed in. */
module ProcessImages {
  import opened Outcomes
  import opened Strings
  import opened Seqs
  import opened DocumentProcessor

  /** `ALLOWED_EXTENSIONS`. */
  const AllowedExtensions: seq<string> := [".png", ".jpg", ".jpeg", ".bmp", ".gif", ".tif", ".tiff"]

  /** `os.path.splitext(file)[1].lower() in ALLOWED_EXTENSIONS`. */
  predicate IsImageFile(name: string) {
    Lower(SplitExt(name)) in AllowedExtensions
  }

  /** `check_for_images` over a directory listing. */
  predicate CheckForImages(listing: seq<string>) {
    exists k :: 0 <= k < |listing| && IsImageFile(listing[k])
  }

  /** The image files of `process_images`, in listing order. */
  function ImageFiles(listing: seq<string>): (files: seq<string>)
    ensures |files| <= |listing|
    ensures forall k :: 0 <= k < |files| ==> files[k] in listing && IsImageFile(files[k])
    ensures forall k :: 0 <= k < |listing| && IsImageFile(listing[k]) ==> listing[k] in files
  {
    Filter(IsImageFile, listing)
  }

  /** Both functions use the same test: there are images to process exactly
      when the check finds one. */
  lemma CheckMatchesImageFiles(listing: seq<string>)
    ensures CheckForImages(listing) <==> |ImageFiles(listing)| > 0
  {
    var files := ImageFiles(listing);
    if CheckForImages(listing) {
      var k :| 0 <= k < |listing| && IsImageFile(listing[k]);
      assert listing[k] in files;
    }
    if |files| > 0 {
      assert files[0] in listing && IsImageFile(files[0]);
      var k :| 0 <= k < |listing| && listing[k] == files[0];
      assert IsImageFile(listing[k]);
    }
  }

  /** An image file's extension is one of the allowed ones in some letter
      case, so a file without a dot never counts. */
  lemma ImageFilesHaveDots(name: string)
    requires IsImageFile(name)
    ensures '.' in name
  {
  }

  /** The two vision loaders. */
  datatype ImageLoader = Moondream | Florence2

  /** The dispatch of `choose_image_loader` on the configured model. */
  function LoaderFor(chosen: string): (l: Option<ImageLoader>)
    ensures l == Some(Moondream) <==> chosen == "Moondream2"
    ensures l == Some(Florence2) <==> chosen in {"Florence-2-large", "Florence-2-base"}
  {
    if chosen == "Moondream2" then Some(Moondream)
    else if chosen in ["Florence-2-large", "Florence-2-base"] then Some(Florence2)
    else None
  }

  /** The per-image step of `process_images` for one loader. */
  function Describing(loader: ImageLoader, describe: (ImageLoader, string) -> Result<Document>): string -> Result<Document> {
    (f: string) => describe(loader, f)
  }

  /** `process_images`: the image files in listing order, each turned into a
      document by `describe` (open, describe and extract metadata) or skipped
      when that raises; the whole call raises only if the model cannot be
      initialised (`init`). */
  function ProcessImageFiles(loader: ImageLoader, listing: seq<string>,
                             init: ImageLoader -> Option<Error>,
                             describe: (ImageLoader, string) -> Result<Document>): (r: Result<seq<Document>>)
    ensures r.Err? <==> init(loader).Some?
    ensures r.Err? ==> r.error == init(loader).value
    ensures r.Ok? ==> |r.value| <= |ImageFiles(listing)|
  {
    match init(loader)
    case Some(e) => Err(e)
    case None => Ok(Successes(Map(Describing(loader, describe), ImageFiles(listing))))
  }

  /** Every document comes from an image file of the listing. */
  lemma ProcessImageFilesSound(loader: ImageLoader, listing: seq<string>,
                               init: ImageLoader -> Option<Error>,
                               describe: (ImageLoader, string) -> Result<Document>, k: nat)
    requires init(loader).None?
    requires k < |ProcessImageFiles(loader, listing, init, describe).value|
    ensures exists f :: f in listing && IsImageFile(f)
                        && describe(loader, f) == Ok(ProcessImageFiles(loader, listing, init, describe).value[k])
  {
    var files := ImageFiles(listing);
    var rs := Map(Describing(loader, describe), files);
    var docs := Successes(rs);
    assert Ok(docs[k]) in rs;
    var j :| 0 <= j < |rs| && rs[j] == Ok(docs[k]);
    assert files[j] in listing && IsImageFile(files[j]);
    assert describe(loader, files[j]) == Ok(docs[k]);
  }

  /** Every image file of the listing that describes cleanly yields its
      document; the other files are skipped without stopping the rest. */
  lemma ProcessImageFilesComplete(loader: ImageLoader, listing: seq<string>,
                                  init: ImageLoader -> Option<Error>,
                                  describe: (ImageLoader, string) -> Result<Document>, f: string)
    requires init(loader).None?
    requires f in listing && IsImageFile(f) && describe(loader, f).Ok?
    ensures describe(loader, f).value in ProcessImageFiles(loader, listing, init, describe).value
  {
    var files := ImageFiles(listing);
    var rs := Map(Describing(loader, describe), files);
    var i :| 0 <= i < |listing| && listing[i] == f;
    assert f in files;
    var j :| 0 <= j < |files| && files[j] == f;
    assert rs[j] == describe(loader, f);
  }

  /** A listing of one file yields its description when it is an image that
      describes cleanly, and nothing otherwise. */
  lemma ProcessImageFilesOne(loader: ImageLoader, f: string,
                             init: ImageLoader -> Option<Error>,
                             describe: (ImageLoader, string) -> Result<Document>)
    requires init(loader).None?
    ensures ProcessImageFiles(loader, [f], init, describe).value
         == if IsImageFile(f) && describe(loader, f).Ok? then [describe(loader, f).value] else []
  {
    FilterSingle(IsImageFile, f);
    if IsImageFile(f) {
      assert Map(Describing(loader, describe), [f]) == [describe(loader, f)];
    }
  }

  /** The pass keeps listing order, whichever images fail: the documents of
      a listing `a + b` are those of `a` followed by those of `b`. */
  lemma ProcessImageFilesAppend(loader: ImageLoader, a: seq<string>, b: seq<string>,
                                init: ImageLoader -> Option<Error>,
                                describe: (ImageLoader, string) -> Result<Document>)
    requires init(loader).None?
    ensures ProcessImageFiles(loader, a + b, init, describe).value
         == ProcessImageFiles(loader, a, init, describe).value + ProcessImageFiles(loader, b, init, describe).value
  {
    var g := Describing(loader, describe);
    FilterAppend(IsImageFile, a, b);
    MapAppend(g, ImageFiles(a), ImageFiles(b));
    SuccessesAppend(Map(g, ImageFiles(a)), Map(g, ImageFiles(b)));
  }

  /** When no image fails, the documents are the descriptions of the image
      files in listing order. */
  lemma ProcessImageFilesAllDescribed(loader: ImageLoader, listing: seq<string>,
                                      init: ImageLoader -> Option<Error>,
                                      describe: (ImageLoader, string) -> Result<Document>)
    requires init(loader).None?
    requires forall f :: f in ImageFiles(listing) ==> describe(loader, f).Ok?
    ensures var docs := ProcessImageFiles(loader, listing, init, describe).value;
            |docs| == |ImageFiles(listing)|
            && forall k :: 0 <= k < |docs| ==> Ok(docs[k]) == describe(loader, ImageFiles(listing)[k])
  {
    var rs := Map(Describing(loader, describe), ImageFiles(listing));
    assert AllOk(rs) by {
      forall k | 0 <= k < |rs| ensures rs[k].Ok? {
        assert ImageFiles(listing)[k] in ImageFiles(listing);
      }
    }
    SuccessesAllOk(rs);
  }

  /** `run_loader_in_process`, together with the `None` test after it: an
      exception of the loader becomes no documents. */
  function RunLoaderInProcess(r: Result<seq<Document>>): (docs: seq<Document>)
    ensures r.Err? ==> docs == []
    ensures r.Ok? ==> docs == r.value
  {
    match r
    case Ok(docs) => docs
    case Err(_) => []
  }

  /** `choose_image_loader`: the documents the image pass contributes to a
      build. `workerFailed` says that the worker process itself failed (the
      future raised). */
  function ChooseImageLoader(chosen: string, listing: seq<string>, workerFailed: bool,
                             init: ImageLoader -> Option<Error>,
                             describe: (ImageLoader, string) -> Result<Document>): (docs: seq<Document>)
    ensures LoaderFor(chosen).None? || !CheckForImages(listing) || workerFailed ==> docs == []
    ensures |docs| <= |ImageFiles(listing)|
    ensures LoaderFor(chosen).Some? && CheckForImages(listing) && !workerFailed ==>
              && (init(LoaderFor(chosen).value).Some? ==> docs == [])
              && (init(LoaderFor(chosen).value).None? ==>
                    docs == ProcessImageFiles(LoaderFor(chosen).value, listing, init, describe).value)
  {
    match LoaderFor(chosen)
    case None => []
    case Some(loader) =>
      if !CheckForImages(listing) then []
      else if workerFailed then []
      else RunLoaderInProcess(ProcessImageFiles(loader, listing, init, describe))
  }

  /** Without a known model, or without an image, the vision model is never
      consulted: the result does not depend on it. */
  lemma NoModelOrNoImagesNeverLoads(chosen: string, listing: seq<string>, workerFailed: bool,
                                    init: ImageLoader -> Option<Error>, init': ImageLoader -> Option<Error>,
                                    describe: (ImageLoader, string) -> Result<Document>,
                                    describe': (ImageLoader, string) -> Result<Document>)
    requires LoaderFor(chosen).None? || ImageFiles(listing) == []
    ensures ChooseImageLoader(chosen, listing, workerFailed, init, describe)
         == ChooseImageLoader(chosen, listing, workerFailed, init', describe') == []
  {
    CheckMatchesImageFiles(listing);
  }

  /** Every document of the image pass is the description of an image file
      of the listing by the configured loader. */
  lemma ChooseImageLoaderSound(chosen: string, listing: seq<string>, workerFailed: bool,
                               init: ImageLoader -> Option<Error>,
                               describe: (ImageLoader, string) -> Result<Document>, k: nat)
    requires k < |ChooseImageLoader(chosen, listing, workerFailed, init, describe)|
    ensures LoaderFor(chosen).Some?
    ensures exists f :: f in listing && IsImageFile(f)
              && describe(LoaderFor(chosen).value, f) == Ok(ChooseImageLoader(chosen, listing, workerFailed, init, describe)[k])
  {
    var loader := LoaderFor(chosen).value;
    ProcessImageFilesSound(loader, listing, init, describe, k);
  }

  /** With a known model that initialises and a worker that completes, every
      image file of the listing that describes cleanly contributes its
      document. */
  lemma ChooseImageLoaderComplete(chosen: string, listing: seq<string>,
                                  init: ImageLoader -> Option<Error>,
                                  describe: (ImageLoader, string) -> Result<Document>, f: string)
    requires LoaderFor(chosen).Some? && init(LoaderFor(chosen).value).None?
    requires f in listing && IsImageFile(f) && describe(LoaderFor(chosen).value, f).Ok?
    ensures describe(LoaderFor(chosen).value, f).value in ChooseImageLoader(chosen, listing, false, init, describe)
  {
    var loader := LoaderFor(chosen).value;
    var i :| 0 <= i < |listing| && listing[i] == f;
    assert CheckForImages(listing);
    ProcessImageFilesComplete(loader, listing, init, describe, f);
  }
}

=== FILE: seqs.dfy ===
/** Sequence helpers for Python list comprehensions and for the merge of
    worker results: filtering, flattening, and reordering by a permutation. */
module Seqs {
  import opened Outcomes

  /** `[x for x in s if f(x)]`. */
  function Filter<T>(f: T -> bool, s: seq<T>): (r: seq<T>)
    ensures |r| <= |s|
    ensures forall k :: 0 <= k < |r| ==> f(r[k]) && r[k] in s
    ensures forall k :: 0 <= k < |s| && f(s[k]) ==> s[k] in r
  {
    if |s| == 0 then [] else (if f(s[0]) then [s[0]] else []) + Filter(f, s[1..])
  }

  /** Filtering distributes over concatenation; with the one-element case this
      characterises `Filter` as the order-preserving selection. */
  lemma {:induction false} FilterAppend<T>(f: T -> bool, a: seq<T>, b: seq<T>)
    ensures Filter(f, a + b) == Filter(f, a) + Filter(f, b)
  {
    if |a| == 0 {
      assert a + b == b;
    } else {
      assert (a + b)[1..] == a[1..] + b;
      FilterAppend(f, a[1..], b);
    }
  }

  lemma FilterSingle<T>(f: T -> bool, x: T)
    ensures Filter(f, [x]) == if f(x) then [x] else []
  {
  }

  /** A filter that keeps everything is the identity. */
  lemma {:induction false} FilterAll<T>(f: T -> bool, s: seq<T>)
    requires forall k :: 0 <= k < |s| ==> f(s[k])
    ensures Filter(f, s) == s
  {
    if |s| > 0 {
      FilterAll(f, s[1..]);
    }
  }

  /** The concatenation of a sequence of sequences. */
  function Flatten<T>(ss: seq<seq<T>>): seq<T> {
    if |ss| == 0 then [] else ss[0] + Flatten(ss[1..])
  }

  lemma {:induction false} FlattenAppend<T>(a: seq<seq<T>>, b: seq<seq<T>>)
    ensures Flatten(a + b) == Flatten(a) + Flatten(b)
  {
    if |a| == 0 {
      assert a + b == b;
    } else {
      assert (a + b)[1..] == a[1..] + b;
      FlattenAppend(a[1..], b);
    }
  }

  /** Flattening sequences of equal content (in any order) gives equal content. */
  lemma {:induction false} FlattenMultiset<T>(a: seq<seq<T>>, b: seq<seq<T>>)
    requires multiset(a) == multiset(b)
    ensures multiset(Flatten(a)) == multiset(Flatten(b))
    decreases |a|
  {
    if |a| == 0 {
      assert |b| == |multiset(b)| == 0;
    } else {
      var x := a[0];
      assert x in multiset(b);
      var j :| 0 <= j < |b| && b[j] == x;
      var rest := b[..j] + b[j + 1..];
      assert b == b[..j] + [x] + b[j + 1..];
      assert a == [x] + a[1..];
      assert multiset(a) == multiset([x]) + multiset(a[1..]);
      assert multiset(b) == multiset(b[..j]) + multiset([x]) + multiset(b[j + 1..]);
      assert multiset(rest) == multiset(b[..j]) + multiset(b[j + 1..]);
      assert multiset(a[1..]) == multiset(a) - multiset([x]);
      assert multiset(rest) == multiset(b) - multiset([x]);
      assert multiset(a[1..]) == multiset(rest);
      FlattenMultiset(a[1..], rest);
      FlattenAppend(b[..j] + [x], b[j + 1..]);
      FlattenAppend(b[..j], [x]);
      FlattenAppend(b[..j], b[j + 1..]);
      assert Flatten([x]) == x + Flatten([]);
    }
  }

  /** The indices `0, 1, ..., n - 1`. */
  function Range(n: nat): (r: seq<nat>)
    ensures |r| == n
    ensures forall k :: 0 <= k < n ==> r[k] == k
  {
    if n == 0 then [] else Range(n - 1) + [n - 1]
  }

  /** `order` lists each of `0..n-1` exactly once: the order in which `n`
      submitted futures complete. */
  predicate IsPermutation(order: seq<nat>, n: nat) {
    multiset(order) == multiset(Range(n))
  }

  lemma PermutationBounds(order: seq<nat>, n: nat)
    requires IsPermutation(order, n)
    ensures |order| == n
    ensures forall k :: 0 <= k < |order| ==> order[k] < n
  {
    assert |multiset(order)| == |multiset(Range(n))|;
    forall k | 0 <= k < |order|
      ensures order[k] < n
    {
      assert order[k] in multiset(Range(n));
    }
  }

  /** `s` taken in the order `order`. */
  function Reorder<T>(s: seq<T>, order: seq<nat>): (r: seq<T>)
    requires forall k :: 0 <= k < |order| ==> order[k] < |s|
    ensures |r| == |order|
    ensures forall k :: 0 <= k < |order| ==> r[k] == s[order[k]]
  {
    if |order| == 0 then [] else [s[order[0]]] + Reorder(s, order[1..])
  }

  /** Removing the last index `n` from a permutation of `0..n` leaves a
      permutation of `0..n-1`. */
  lemma RemoveLast(order: seq<nat>, n: nat, p: nat)
    requires IsPermutation(order, n + 1)
    requires p < |order| && order[p] == n
    ensures IsPermutation(order[..p] + order[p + 1..], n)
  {
    var order' := order[..p] + order[p + 1..];
    assert order == order[..p] + [n] + order[p + 1..];
    assert Range(n + 1) == Range(n) + [n];
    assert multiset(order') == multiset(order[..p]) + multiset(order[p + 1..]);
    assert multiset(order') == multiset(order) - multiset([n]);
    assert multiset(Range(n)) == multiset(Range(n + 1)) - multiset([n]);
  }

  /** Reordering by a permutation that puts the last index at position `p`. */
  lemma ReorderSplit<T>(s: seq<T>, order: seq<nat>, p: nat, order': seq<nat>)
    requires |s| > 0 && p < |order| && order[p] == |s| - 1
    requires order' == order[..p] + order[p + 1..]
    requires forall k :: 0 <= k < |order'| ==> order'[k] < |s| - 1
    ensures forall k :: 0 <= k < |order| ==> order[k] < |s|
    ensures var r' := Reorder(s[..|s| - 1], order');
            Reorder(s, order) == r'[..p] + [s[|s| - 1]] + r'[p..]
  {
    var n := |s| - 1;
    forall k | 0 <= k < |order|
      ensures order[k] < |s|
    {
      if k < p {
        assert order[k] == order'[k];
      } else if p < k {
        assert order[k] == order'[k - 1];
      }
    }
    var r' := Reorder(s[..n], order');
    var rhs := r'[..p] + [s[n]] + r'[p..];
    var lhs := Reorder(s, order);
    assert |lhs| == |rhs|;
    forall k | 0 <= k < |order|
      ensures lhs[k] == rhs[k]
    {
      if k < p {
        assert order[k] == order'[k];
        assert rhs[k] == r'[k];
      } else if p < k {
        assert order[k] == order'[k - 1];
        assert rhs[k] == r'[k - 1];
      }
    }
  }

  /** Taking every element once, in any order, keeps the content. */
  lemma {:induction false} ReorderMultiset<T>(s: seq<T>, order: seq<nat>)
    requires IsPermutation(order, |s|)
    ensures forall k :: 0 <= k < |order| ==> order[k] < |s|
    ensures multiset(Reorder(s, order)) == multiset(s)
    decreases |s|
  {
    PermutationBounds(order, |s|);
    if |s| > 0 {
      var n := |s| - 1;
      assert Range(|s|) == Range(n) + [n];
      assert n in multiset(Range(|s|));
      var p :| 0 <= p < |order| && order[p] == n;
      var order' := order[..p] + order[p + 1..];
      RemoveLast(order, n, p);
      PermutationBounds(order', n);
      ReorderSplit(s, order, p, order');
      ReorderMultiset(s[..n], order');
      InsertMultiset(Reorder(s[..n], order'), p, s);
    }
  }

  lemma InsertMultiset<T>(r: seq<T>, p: nat, s: seq<T>)
    requires |s| > 0 && p <= |r|
    requires multiset(r) == multiset(s[..|s| - 1])
    ensures multiset(r[..p] + [s[|s| - 1]] + r[p..]) == multiset(s)
  {
    assert r == r[..p] + r[p..];
    assert s == s[..|s| - 1] + [s[|s| - 1]];
  }

  /** The results of completed batches, merged in completion order, hold the
      same elements as the batches taken in submission order. */
  lemma MergeIsPermutation<T>(batches: seq<seq<T>>, order: seq<nat>)
    requires IsPermutation(order, |batches|)
    ensures forall k :: 0 <= k < |order| ==> order[k] < |batches|
    ensures multiset(Flatten(Reorder(batches, order))) == multiset(Flatten(batches))
  {
    ReorderMultiset(batches, order);
    FlattenMultiset(Reorder(batches, order), batches);
  }

  /** `[g(x) for x in s]`. */
  function Map<T, U>(g: T -> U, s: seq<T>): (r: seq<U>)
    ensures |r| == |s|
    ensures forall k :: 0 <= k < |s| ==> r[k] == g(s[k])
  {
    if |s| == 0 then [] else [g(s[0])] + Map(g, s[1..])
  }

  /** `d.get(key)` on a dict given as its items in insertion order; the first
      entry with the key wins (a dict has one). */
  function Lookup<K(==), V>(table: seq<(K, V)>, key: K): (r: Option<V>)
    ensures r.None? <==> forall k :: 0 <= k < |table| ==> table[k].0 != key
    ensures r.Some? ==> exists k :: 0 <= k < |table| && table[k] == (key, r.value)
                                    && forall j :: 0 <= j < k ==> table[j].0 != key
  {
    if |table| == 0 then None
    else if table[0].0 == key then Some(table[0].1)
    else
      var r := Lookup(table[1..], key);
      if r.Some? then
        ghost var k :| 0 <= k < |table[1..]| && table[1..][k] == (key, r.value)
                       && forall j :: 0 <= j < k ==> table[1..][j].0 != key;
        assert table[k + 1] == (key, r.value);
        r
      else r
  }

  /** The keys of a dict, in insertion order. */
  function Keys<K, V>(table: seq<(K, V)>): (ks: seq<K>)
    ensures |ks| == |table|
    ensures forall k :: 0 <= k < |table| ==> ks[k] == table[k].0
  {
    Map((p: (K, V)) => p.0, table)
  }

  /** A dict's keys are distinct. */
  predicate DistinctKeys<K(==), V>(table: seq<(K, V)>) {
    forall i, j :: 0 <= i < j < |table| ==> table[i].0 != table[j].0
  }

  /** In a dict with distinct keys, looking up any stored key finds its value. */
  lemma LookupDistinct<K, V>(table: seq<(K, V)>, i: nat)
    requires DistinctKeys(table) && i < |table|
    ensures Lookup(table, table[i].0) == Some(table[i].1)
  {
    var r := Lookup(table, table[i].0);
    var k :| 0 <= k < |table| && table[k] == (table[i].0, r.value)
             && forall j :: 0 <= j < k ==> table[j].0 != table[i].0;
    assert k == i;
  }

  // ---------------------------------------------------------------------
  // Collecting results: `[f.result() for f in futures]`

  predicate AllOk<T>(rs: seq<Result<T>>) {
    forall k :: 0 <= k < |rs| ==> rs[k].Ok?
  }

  /** The values of results that all succeeded. */
  function Values<T>(rs: seq<Result<T>>): (vs: seq<T>)
    requires AllOk(rs)
    ensures |vs| == |rs|
    ensures forall k :: 0 <= k < |rs| ==> vs[k] == rs[k].value
  {
    if |rs| == 0 then [] else [rs[0].value] + Values(rs[1..])
  }

  /** Reading results one after another: the first failure propagates,
      otherwise every value is returned in order. */
  function Collect<T>(rs: seq<Result<T>>): (r: Result<seq<T>>)
    ensures r.Ok? <==> AllOk(rs)
    ensures r.Ok? ==> r.value == Values(rs)
    ensures r.Err? ==> exists k :: 0 <= k < |rs| && rs[k] == Err(r.error)
                                   && forall j :: 0 <= j < k ==> rs[j].Ok?
  {
    if |rs| == 0 then Ok([])
    else if rs[0].Err? then Err(rs[0].error)
    else
      var rest := Collect(rs[1..]);
      if rest.Ok? then Ok([rs[0].value] + rest.value)
      else
        ghost var k :| 0 <= k < |rs[1..]| && rs[1..][k] == Err(rest.error)
                       && forall j :: 0 <= j < k ==> rs[1..][j].Ok?;
        assert rs[k + 1] == Err(rest.error);
        Err(rest.error)
  }

  /** Mapping over a flattened sequence is flattening the mapped pieces. */
  lemma {:induction false} MapFlatten<T, U>(g: T -> U, ss: seq<seq<T>>)
    ensures Map(g, Flatten(ss)) == Flatten(Map((s: seq<T>) => Map(g, s), ss))
  {
    if |ss| > 0 {
      MapFlatten(g, ss[1..]);
      MapAppend(g, ss[0], Flatten(ss[1..]));
      assert Map((s: seq<T>) => Map(g, s), ss)[1..] == Map((s: seq<T>) => Map(g, s), ss[1..]);
    }
  }

  lemma MapAppend<T, U>(g: T -> U, a: seq<T>, b: seq<T>)
    ensures Map(g, a + b) == Map(g, a) + Map(g, b)
  {
  }

  /** An element of one piece is an element of the flattening. */
  lemma {:induction false} FlattenMember<T>(ss: seq<seq<T>>, i: nat, j: nat)
    requires i < |ss| && j < |ss[i]|
    ensures ss[i][j] in Flatten(ss)
  {
    if i > 0 {
      FlattenMember(ss[1..], i - 1, j);
    }
  }

  lemma AppendResults<T>(a: seq<Result<T>>, b: seq<Result<T>>)
    ensures AllOk(a + b) <==> AllOk(a) && AllOk(b)
    ensures AllOk(a + b) ==> Values(a + b) == Values(a) + Values(b)
  {
    assert forall k :: 0 <= k < |a| ==> (a + b)[k] == a[k];
    assert forall k :: 0 <= k < |b| ==> (a + b)[|a| + k] == b[k];
  }

  /** A flattened sequence of results succeeds exactly when every piece does. */
  lemma {:induction false} AllOkFlatten<T>(rss: seq<seq<Result<T>>>)
    ensures AllOk(Flatten(rss)) <==> forall i :: 0 <= i < |rss| ==> AllOk(rss[i])
  {
    if |rss| > 0 {
      AllOkFlatten(rss[1..]);
      AppendResults(rss[0], Flatten(rss[1..]));
      assert forall i :: 1 <= i < |rss| ==> rss[i] == rss[1..][i - 1];
    }
  }

  /** ... and then its values are the flattened values of the pieces. */
  lemma {:induction false} ValuesFlatten<T>(rss: seq<seq<Result<T>>>, vss: seq<seq<T>>)
    requires forall i :: 0 <= i < |rss| ==> AllOk(rss[i])
    requires |vss| == |rss| && forall i :: 0 <= i < |rss| ==> vss[i] == Values(rss[i])
    ensures AllOk(Flatten(rss)) && Values(Flatten(rss)) == Flatten(vss)
  {
    AllOkFlatten(rss);
    if |rss| > 0 {
      ValuesFlatten(rss[1..], vss[1..]);
      AppendResults(rss[0], Flatten(rss[1..]));
    }
  }

  /** Every index below `n` occurs in a permutation of `0..n-1`. */
  lemma PermutationCovers(order: seq<nat>, n: nat, j: nat)
    requires IsPermutation(order, n) && j < n
    ensures exists k :: 0 <= k < |order| && order[k] == j
  {
    assert Range(n)[j] == j;
    assert j in multiset(Range(n));
    assert j in multiset(order);
  }

  /** Taking results in a permuted order changes neither whether they all
      succeed nor, up to the same permutation, their values. */
  lemma ReorderResults<T>(rs: seq<Result<T>>, order: seq<nat>)
    requires IsPermutation(order, |rs|)
    ensures forall k :: 0 <= k < |order| ==> order[k] < |rs|
    ensures AllOk(Reorder(rs, order)) <==> AllOk(rs)
    ensures AllOk(rs) ==> Values(Reorder(rs, order)) == Reorder(Values(rs), order)
  {
    PermutationBounds(order, |rs|);
    forall j | 0 <= j < |rs| && AllOk(Reorder(rs, order))
      ensures rs[j].Ok?
    {
      PermutationCovers(order, |rs|, j);
    }
  }

  /** Running `f` over each batch and collecting the batch's results. */
  function RunBatches<T, R>(f: T -> Result<R>, plan: seq<seq<T>>): (rs: seq<Result<seq<R>>>)
    ensures |rs| == |plan|
    ensures forall i :: 0 <= i < |plan| ==> rs[i] == Collect(Map(f, plan[i]))
  {
    Map((b: seq<T>) => Collect(Map(f, b)), plan)
  }

  /** Running `f` over batches of a sequence, collecting each batch, and
      merging the batches in a permuted completion order agrees with running
      `f` over the whole sequence in order: the same success, the same values
      up to order, and on failure the failure of some element. */
  lemma MergeBatches<T, R>(f: T -> Result<R>, plan: seq<seq<T>>, order: seq<nat>)
    requires IsPermutation(order, |plan|)
    ensures forall k :: 0 <= k < |order| ==> order[k] < |plan|
    ensures var completed := Reorder(RunBatches(f, plan), order);
            var whole := Map(f, Flatten(plan));
            && (AllOk(completed) <==> AllOk(whole))
            && (AllOk(completed) ==> multiset(Flatten(Values(completed))) == multiset(Values(whole)))
            && (Collect(completed).Err? ==>
                  exists x :: x in Flatten(plan) && f(x) == Err(Collect(completed).error))
  {
    var batchResults := RunBatches(f, plan);
    ReorderResults(batchResults, order);
    BatchesAllOk(f, plan);
    if AllOk(batchResults) {
      BatchesValues(f, plan);
      MergeIsPermutation(Values(batchResults), order);
    }
    var completed := Reorder(batchResults, order);
    if Collect(completed).Err? {
      var e := Collect(completed).error;
      var k :| 0 <= k < |completed| && completed[k] == Err(e);
      BatchesErr(f, plan, order[k], e);
    }
  }

  /** A process pool running `f` over the batches of `plan`: the batches
      complete in the order `order`, each batch's results are collected in
      submission order, and the first failure met in completion order is
      re-raised; otherwise the batches' values are concatenated in completion
      order. */
  function RunPool<T, R>(f: T -> Result<R>, plan: seq<seq<T>>, order: seq<nat>): (r: Result<seq<R>>)
    requires IsPermutation(order, |plan|)
  {
    PermutationBounds(order, |plan|);
    match Collect(Reorder(RunBatches(f, plan), order))
    case Ok(contents) => Ok(Flatten(contents))
    case Err(e) => Err(e)
  }

  /** A successful pool run is every batch's values, each batch in its own
      order, concatenated in completion order. */
  lemma RunPoolKeepsBatchOrder<T, R>(f: T -> Result<R>, plan: seq<seq<T>>, order: seq<nat>)
    requires IsPermutation(order, |plan|)
    requires RunPool(f, plan, order).Ok?
    ensures forall k :: 0 <= k < |order| ==> order[k] < |plan|
    ensures AllOk(RunBatches(f, plan))
    ensures RunPool(f, plan, order).value == Flatten(Reorder(Values(RunBatches(f, plan)), order))
  {
    PermutationBounds(order, |plan|);
    ReorderResults(RunBatches(f, plan), order);
  }

  lemma BatchesAllOk<T, R>(f: T -> Result<R>, plan: seq<seq<T>>)
    ensures AllOk(RunBatches(f, plan)) <==> AllOk(Map(f, Flatten(plan)))
  {
    var rss := Map((b: seq<T>) => Map(f, b), plan);
    MapFlatten(f, plan);
    AllOkFlatten(rss);
  }

  lemma BatchesValues<T, R>(f: T -> Result<R>, plan: seq<seq<T>>)
    requires AllOk(RunBatches(f, plan))
    ensures AllOk(Map(f, Flatten(plan)))
    ensures Flatten(Values(RunBatches(f, plan))) == Values(Map(f, Flatten(plan)))
  {
    var rss := Map((b: seq<T>) => Map(f, b), plan);
    MapFlatten(f, plan);
    ValuesFlatten(rss, Values(RunBatches(f, plan)));
  }

  lemma BatchesErr<T, R>(f: T -> Result<R>, plan: seq<seq<T>>, j: nat, e: Error)
    requires j < |plan| && RunBatches(f, plan)[j] == Err(e)
    ensures exists x :: x in Flatten(plan) && f(x) == Err(e)
  {
    var rs := Map(f, plan[j]);
    var m :| 0 <= m < |rs| && rs[m] == Err(e);
    FlattenMember(plan, j, m);
  }

  /** The values of the results that succeeded, in order: a loop that catches
      each item's exception and moves on. */
  function Successes<T>(rs: seq<Result<T>>): (vs: seq<T>)
    ensures |vs| <= |rs|
    ensures forall k :: 0 <= k < |vs| ==> Ok(vs[k]) in rs
    ensures forall k :: 0 <= k < |rs| && rs[k].Ok? ==> rs[k].value in vs
  {
    if |rs| == 0 then []
    else (if rs[0].Ok? then [rs[0].value] else []) + Successes(rs[1..])
  }

  /** Skipping failures loses nothing when nothing fails, and keeps order
      across concatenation. */
  lemma {:induction false} SuccessesAllOk<T>(rs: seq<Result<T>>)
    requires AllOk(rs)
    ensures Successes(rs) == Values(rs)
  {
    if |rs| > 0 {
      SuccessesAllOk(rs[1..]);
    }
  }

  lemma {:induction false} SuccessesAppend<T>(a: seq<Result<T>>, b: seq<Result<T>>)
    ensures Successes(a + b) == Successes(a) + Successes(b)
  {
    if |a| == 0 {
      assert a + b == b;
    } else {
      assert (a + b)[1..] == a[1..] + b;
      SuccessesAppend(a[1..], b);
    }
  }
}

=== FILE: strings.dfy ===
/** The Python string and path primitives the program leans on, each with a
    characterisation that does not depend on how it is computed:
    `str.lower`, `in` on strings, `str.replace` of one character,
    `str.split(c)`, `str.strip`, `str.splitlines`, `str.rsplit(sep, 1)[-1]`,
    `str(n)` / `int(s)`, `Path.name`, `Path.suffix` and `os.path.splitext`. */
module Strings {
  import opened Outcomes

  // ---------------------------------------------------------------------
  // Case folding

  predicate IsUpper(c: char) {
    'A' <= c <= 'Z'
  }

  function LowerChar(c: char): char {
    if IsUpper(c) then (c as int + 32) as char else c
  }

  /** `s.lower()`, on the ASCII letters. */
  function Lower(s: string): (r: string)
    ensures |r| == |s|
    ensures forall i :: 0 <= i < |s| ==> r[i] == LowerChar(s[i])
  {
    if |s| == 0 then [] else [LowerChar(s[0])] + Lower(s[1..])
  }

  predicate IsLowerCase(s: string) {
    forall i :: 0 <= i < |s| ==> !IsUpper(s[i])
  }

  /** Lower-casing leaves no upper-case letter, and lower-cased text is fixed by it. */
  lemma LowerIsLowerCase(s: string)
    ensures IsLowerCase(Lower(s))
    ensures IsLowerCase(s) <==> Lower(s) == s
  {
    if IsLowerCase(s) {
      assert Lower(s) == s;
    }
    if Lower(s) == s {
      forall i | 0 <= i < |s| ensures !IsUpper(s[i]) {
        assert LowerChar(s[i]) == s[i];
      }
    }
  }

  lemma LowerIdempotent(s: string)
    ensures Lower(Lower(s)) == Lower(s)
  {
    LowerIsLowerCase(s);
    LowerIsLowerCase(Lower(s));
  }

  // ---------------------------------------------------------------------
  // Substring search

  /** `t` occurs in `s` starting at index `i`. */
  predicate OccursAt(s: string, t: string, i: int) {
    0 <= i && i + |t| <= |s| && s[i..i + |t|] == t
  }

  ghost predicate IsSubstring(t: string, s: string) {
    exists i :: OccursAt(s, t, i)
  }

  /** Python's `t in s` for strings. */
  function Contains(s: string, t: string): bool
    decreases |s|
  {
    if |t| > |s| then false
    else if s[..|t|] == t then true
    else Contains(s[1..], t)
  }

  /** `Contains` is exactly "some window of `s` equals `t`". */
  lemma {:induction false} ContainsSpec(s: string, t: string)
    ensures Contains(s, t) <==> IsSubstring(t, s)
    decreases |s|
  {
    if |t| > |s| {
    } else if s[..|t|] == t {
      assert OccursAt(s, t, 0);
    } else {
      ContainsSpec(s[1..], t);
      forall i | OccursAt(s[1..], t, i)
        ensures OccursAt(s, t, i + 1)
      {
        assert s[1..][i..i + |t|] == s[i + 1..i + 1 + |t|];
      }
      forall i | OccursAt(s, t, i)
        ensures i > 0 && OccursAt(s[1..], t, i - 1)
      {
        assert s[0..|t|] == s[..|t|];
        if i > 0 {
          assert s[1..][i - 1..i - 1 + |t|] == s[i..i + |t|];
        }
      }
    }
  }

  /** The empty string occurs in every string, and a string occurs in itself. */
  lemma ContainsEmptyAndSelf(s: string)
    ensures Contains(s, "")
    ensures Contains(s, s)
  {
  }

  // ---------------------------------------------------------------------
  // Character replacement

  /** `s.replace(from, to)` for one-character arguments. */
  function ReplaceChar(s: string, from: char, to: char): (r: string)
    ensures |r| == |s|
    ensures forall i :: 0 <= i < |s| ==> r[i] == (if s[i] == from then to else s[i])
  {
    if |s| == 0 then [] else [if s[0] == from then to else s[0]] + ReplaceChar(s[1..], from, to)
  }

  // ---------------------------------------------------------------------
  // Joining and splitting on one character

  /** `sep.join(parts)`. */
  function Join(sep: string, parts: seq<string>): string {
    if |parts| == 0 then ""
    else if |parts| == 1 then parts[0]
    else parts[0] + sep + Join(sep, parts[1..])
  }

  lemma JoinCons(sep: string, x: string, y: string, rest: seq<string>)
    ensures Join(sep, [x + y] + rest) == x + Join(sep, [y] + rest)
  {
    if |rest| == 0 {
    } else {
      assert ([x + y] + rest)[1..] == rest;
      assert ([y] + rest)[1..] == rest;
    }
  }

  /** `s.split(c)`: the maximal pieces of `s` between occurrences of `c`. */
  function Split(s: string, c: char): (parts: seq<string>)
    ensures |parts| >= 1
    ensures forall k :: 0 <= k < |parts| ==> c !in parts[k]
  {
    if |s| == 0 then [""]
    else
      var rest := Split(s[1..], c);
      if s[0] == c then [""] + rest else [[s[0]] + rest[0]] + rest[1..]
  }

  /** Splitting and re-joining on the same character gives back the text; with
      the ensures of `Split` this pins the pieces down uniquely. */
  lemma {:induction false} SplitJoin(s: string, c: char)
    ensures Join([c], Split(s, c)) == s
  {
    if |s| == 0 {
    } else {
      var rest := Split(s[1..], c);
      SplitJoin(s[1..], c);
      if s[0] == c {
        assert ([""] + rest)[1..] == rest;
        assert Join([c], [""] + rest) == "" + [c] + Join([c], rest);
      } else {
        assert rest == [rest[0]] + rest[1..];
        JoinCons([c], [s[0]], rest[0], rest[1..]);
      }
    }
  }

  /** A text with no `c` splits into itself alone. */
  lemma SplitWithout(s: string, c: char)
    requires c !in s
    ensures Split(s, c) == [s]
  {
    if |s| > 0 {
      assert c !in s[1..];
      SplitWithout(s[1..], c);
      assert [s[0]] + s[1..] == s;
    }
  }

  /** Splitting `a + [c] + b` where `a` has no `c` puts `a` first and the
      split of `b` after it: the piece after the first `c` is the second. */
  lemma {:induction false} SplitAtFirst(a: string, c: char, b: string)
    requires c !in a
    ensures Split(a + [c] + b, c) == [a] + Split(b, c)
  {
    if |a| == 0 {
      assert (a + [c] + b)[1..] == b;
    } else {
      assert (a + [c] + b)[1..] == a[1..] + [c] + b;
      SplitAtFirst(a[1..], c, b);
      assert [a[0]] + a[1..] == a;
    }
  }

  /** Joining pieces free of `c` on `c` and splitting again gives the pieces
      back: the inverse of `SplitJoin`. */
  lemma {:induction false} JoinSplit(parts: seq<string>, c: char)
    requires |parts| >= 1
    requires forall k :: 0 <= k < |parts| ==> c !in parts[k]
    ensures Split(Join([c], parts), c) == parts
  {
    if |parts| == 1 {
      SplitWithout(parts[0], c);
    } else {
      JoinSplit(parts[1..], c);
      SplitAtFirst(parts[0], c, Join([c], parts[1..]));
    }
  }

  /** A text is the concatenation of its prefix and the rest: stated for
      literal tables, where comparing the slices is cheaper than comparing
      the whole concatenation. */
  lemma ConcatOfSlices(s: string, p: string, t: string)
    requires |s| >= |p| && s[..|p|] == p && s[|p|..] == t
    ensures s == p + t
  {
    assert s == s[..|p|] + s[|p|..];
  }

  /** A text with `c` splits into at least two pieces, one without into one. */
  lemma SplitHasSeparator(s: string, c: char)
    ensures c in s <==> |Split(s, c)| >= 2
  {
    SplitJoin(s, c);
    var ps := Split(s, c);
    if |ps| >= 2 {
      assert Join([c], ps) == ps[0] + [c] + Join([c], ps[1..]);
      assert s[|ps[0]|] == c;
    } else {
      assert s == ps[0];
    }
  }

  /** A text occurs in any text that has it as a prefix or suffix part. */
  lemma SubstringAppend(t: string, a: string, b: string)
    ensures IsSubstring(t, a) ==> IsSubstring(t, a + b)
    ensures IsSubstring(t, b) ==> IsSubstring(t, a + b)
  {
    if IsSubstring(t, a) {
      var i :| OccursAt(a, t, i);
      assert (a + b)[i..i + |t|] == a[i..i + |t|];
      assert OccursAt(a + b, t, i);
    }
    if IsSubstring(t, b) {
      var i :| OccursAt(b, t, i);
      assert (a + b)[|a| + i..|a| + i + |t|] == b[i..i + |t|];
      assert OccursAt(a + b, t, |a| + i);
    }
  }

  /** Every piece occurs in the joined text. */
  lemma {:induction false} JoinHasParts(sep: string, parts: seq<string>, k: nat)
    requires k < |parts|
    ensures IsSubstring(parts[k], Join(sep, parts))
  {
    if |parts| == 1 {
      assert OccursAt(parts[0], parts[0], 0);
    } else if k == 0 {
      assert OccursAt(parts[0], parts[0], 0);
      SubstringAppend(parts[0], parts[0], sep + Join(sep, parts[1..]));
      assert parts[0] + sep + Join(sep, parts[1..]) == parts[0] + (sep + Join(sep, parts[1..]));
    } else {
      JoinHasParts(sep, parts[1..], k - 1);
      SubstringAppend(parts[k], parts[0] + sep, Join(sep, parts[1..]));
    }
  }

  // ---------------------------------------------------------------------
  // Whitespace

  /** `c.isspace()` in Python: the characters of the Unicode White_Space set
      and the information separators U+001C..U+001F. */
  predicate IsSpace(c: char) {
    var n := c as int;
    || n == 0x20 || 0x09 <= n <= 0x0D || 0x1C <= n <= 0x1F
    || n == 0x85 || n == 0xA0 || n == 0x1680 || 0x2000 <= n <= 0x200A
    || n == 0x2028 || n == 0x2029 || n == 0x202F || n == 0x205F || n == 0x3000
  }

  predicate AllSpace(s: string) {
    forall i :: 0 <= i < |s| ==> IsSpace(s[i])
  }

  /** The end of the run of white space that starts at `i`. */
  function SpaceRunEnd(s: string, i: nat): (k: nat)
    requires i <= |s|
    ensures i <= k <= |s|
    ensures forall j :: i <= j < k ==> IsSpace(s[j])
    ensures k < |s| ==> !IsSpace(s[k])
    decreases |s| - i
  {
    if i < |s| && IsSpace(s[i]) then SpaceRunEnd(s, i + 1) else i
  }

  /** The start of the run of white space that ends at `j`. */
  function SpaceRunStart(s: string, j: nat): (k: nat)
    requires j <= |s|
    ensures k <= j
    ensures forall i :: k <= i < j ==> IsSpace(s[i])
    ensures k > 0 ==> !IsSpace(s[k - 1])
  {
    if j > 0 && IsSpace(s[j - 1]) then SpaceRunStart(s, j - 1) else j
  }

  /** `s.lstrip()`: the suffix left once the leading white space is removed. */
  function StripLeft(s: string): (r: string)
    ensures |r| <= |s| && r == s[|s| - |r|..]
    ensures AllSpace(s[..|s| - |r|])
    ensures |r| > 0 ==> !IsSpace(r[0])
  {
    s[SpaceRunEnd(s, 0)..]
  }

  /** `s.rstrip()`: the prefix left once the trailing white space is removed. */
  function StripRight(s: string): (r: string)
    ensures |r| <= |s| && r == s[..|r|]
    ensures AllSpace(s[|r|..])
    ensures |r| > 0 ==> !IsSpace(r[|r| - 1])
  {
    s[..SpaceRunStart(s, |s|)]
  }

  /** `s.strip()`: the middle of `s` with white space removed from both ends. */
  function Strip(s: string): (r: string)
    ensures |r| <= |s|
    ensures |r| > 0 ==> !IsSpace(r[0]) && !IsSpace(r[|r| - 1])
  {
    var l := StripLeft(s);
    var r := StripRight(l);
    assert |r| > 0 ==> r[0] == l[0];
    r
  }

  /** What `strip` removes is white space at both ends: the result is the
      slice of `s` between a white-space prefix and a white-space suffix. */
  lemma StripSlice(s: string)
    ensures var r := Strip(s); var i := |s| - |StripLeft(s)|;
            && 0 <= i <= |s| - |r| && r == s[i..i + |r|]
            && AllSpace(s[..i]) && AllSpace(s[i + |r|..])
  {
    var l := StripLeft(s);
    var r := StripRight(l);
    assert Strip(s) == r;
    SliceBetweenSpace(s, l, r);
  }

  /** A prefix `r` of a suffix `l` of `s`, each cut off by white space, is a
      slice of `s` with white space on both sides. */
  lemma SliceBetweenSpace(s: string, l: string, r: string)
    requires |l| <= |s| && l == s[|s| - |l|..] && AllSpace(s[..|s| - |l|])
    requires |r| <= |l| && r == l[..|r|] && AllSpace(l[|r|..])
    ensures var i := |s| - |l|;
            && r == s[i..i + |r|] && AllSpace(s[..i]) && AllSpace(s[i + |r|..])
  {
    SliceOfSuffix(s, l, r);
  }

  lemma SliceOfSuffix(s: string, l: string, r: string)
    requires |l| <= |s| && l == s[|s| - |l|..]
    requires |r| <= |l| && r == l[..|r|]
    ensures r == s[|s| - |l|..|s| - |l| + |r|]
    ensures s[|s| - |l| + |r|..] == l[|r|..]
  {
  }

  /** A text without surrounding white space is its own strip. */
  lemma StripNoSpace(s: string)
    requires |s| > 0 ==> !IsSpace(s[0]) && !IsSpace(s[|s| - 1])
    ensures Strip(s) == s
  {
  }

  // ---------------------------------------------------------------------
  // Lines

  /** The line boundaries of `str.splitlines`. */
  predicate IsLineBreak(c: char) {
    var n := c as int;
    || 0x0A <= n <= 0x0D || 0x1C <= n <= 0x1E || n == 0x85 || n == 0x2028 || n == 0x2029
  }

  predicate NoLineBreak(s: string) {
    forall i :: 0 <= i < |s| ==> !IsLineBreak(s[i])
  }

  /** Index of the first line boundary of `s`, or `|s|` if it has none. */
  function FirstBreak(s: string): (k: nat)
    ensures k <= |s|
    ensures NoLineBreak(s[..k])
    ensures k < |s| ==> IsLineBreak(s[k])
  {
    if |s| == 0 || IsLineBreak(s[0]) then 0
    else
      var k := FirstBreak(s[1..]);
      assert s[..1 + k] == [s[0]] + s[1..][..k];
      1 + k
  }

  /** `s.splitlines()`: lines without their terminators, `\r\n` counting as
      one terminator, and no empty line after a final terminator. */
  function SplitLines(s: string): (lines: seq<string>)
    ensures forall k :: 0 <= k < |lines| ==> NoLineBreak(lines[k])
    ensures |lines| <= |s|
    decreases |s|
  {
    if |s| == 0 then []
    else
      var k := FirstBreak(s);
      if k == |s| then [s]
      else
        var w := if s[k] == '\r' && k + 1 < |s| && s[k + 1] == '\n' then 2 else 1;
        [s[..k]] + SplitLines(s[k + w..])
  }

  /** The text the program receives from a tool that prints one line per item. */
  function Terminated(lines: seq<string>): string {
    if |lines| == 0 then "" else lines[0] + "\n" + Terminated(lines[1..])
  }

  /** `splitlines` undoes writing each line followed by a newline. */
  lemma {:induction false} SplitLinesTerminated(lines: seq<string>)
    requires forall k :: 0 <= k < |lines| ==> NoLineBreak(lines[k])
    ensures SplitLines(Terminated(lines)) == lines
  {
    if |lines| > 0 {
      var s := Terminated(lines);
      var l := lines[0];
      assert s == l + "\n" + Terminated(lines[1..]);
      FirstBreakAt(l, '\n', Terminated(lines[1..]));
      assert s[..|l|] == l;
      assert s[|l| + 1..] == Terminated(lines[1..]);
      SplitLinesTerminated(lines[1..]);
    }
  }

  lemma FirstBreakAt(l: string, b: char, rest: string)
    requires NoLineBreak(l) && IsLineBreak(b)
    ensures FirstBreak(l + [b] + rest) == |l|
  {
    var s := l + [b] + rest;
    assert forall i :: 0 <= i < |l| ==> s[i] == l[i];
    assert s[|l|] == b;
    var k := FirstBreak(s);
    assert forall i :: 0 <= i < k ==> !IsLineBreak(s[..k][i]);
  }

  /** A text with no line boundary is one line (or none, when empty). */
  lemma SplitLinesSingle(s: string)
    requires NoLineBreak(s)
    ensures SplitLines(s) == if |s| == 0 then [] else [s]
  {
    if |s| > 0 {
      assert FirstBreak(s) == |s|;
    }
  }

  // ---------------------------------------------------------------------
  // Decimal numbers

  predicate IsDigit(c: char) {
    '0' <= c <= '9'
  }

  function DigitChar(d: nat): char
    requires d < 10
  {
    ('0' as int + d) as char
  }

  function DigitValue(c: char): nat
    requires IsDigit(c)
  {
    c as int - '0' as int
  }

  /** `str(n)` for a non-negative integer. */
  function NatToString(n: nat): (s: string)
    ensures |s| > 0
    ensures forall i :: 0 <= i < |s| ==> IsDigit(s[i])
  {
    if n < 10 then [DigitChar(n)] else NatToString(n / 10) + [DigitChar(n % 10)]
  }

  /** The value of a string of decimal digits, most significant first. */
  function DigitsValue(s: string): nat
    requires forall i :: 0 <= i < |s| ==> IsDigit(s[i])
  {
    if |s| == 0 then 0 else DigitsValue(s[..|s| - 1]) * 10 + DigitValue(s[|s| - 1])
  }

  /** `int(s)` on an unsigned decimal literal; anything else raises ValueError. */
  function ParseNat(s: string): Result<nat> {
    if |s| > 0 && forall i :: 0 <= i < |s| ==> IsDigit(s[i]) then Ok(DigitsValue(s))
    else Err(ValueError("invalid literal for int() with base 10: '" + s + "'"))
  }

  /** `int(str(n)) == n`. */
  lemma {:induction false} ParseNatToString(n: nat)
    ensures ParseNat(NatToString(n)) == Ok(n)
  {
    var s := NatToString(n);
    if n < 10 {
      assert s == [DigitChar(n)];
      assert s[..0] == [];
      assert DigitValue(DigitChar(n)) == n;
      assert DigitsValue(s) == n;
    } else {
      var h := NatToString(n / 10);
      ParseNatToString(n / 10);
      assert s == h + [DigitChar(n % 10)];
      assert s[..|s| - 1] == h;
      assert DigitsValue(h) == n / 10;
      assert DigitValue(DigitChar(n % 10)) == n % 10;
      assert DigitsValue(s) == (n / 10) * 10 + n % 10;
    }
  }

  // ---------------------------------------------------------------------
  // Finding the last occurrence

  /** The largest `i <= from` at which `t` occurs in `s`, if any. */
  function LastIndexFrom(s: string, t: string, from: int): (r: Option<nat>)
    requires from < |s|
    ensures r.Some? ==> r.value <= from && OccursAt(s, t, r.value)
    ensures forall j :: (r.Some? ==> r.value < j) && j <= from ==> !OccursAt(s, t, j)
    decreases from + 1
  {
    if from < 0 then None
    else if OccursAt(s, t, from) then Some(from)
    else LastIndexFrom(s, t, from - 1)
  }

  /** `s.rfind(t)`: the start of the rightmost occurrence of `t` in `s`. */
  function LastIndexOf(s: string, t: string): (r: Option<nat>)
    ensures r.Some? ==> OccursAt(s, t, r.value)
    ensures forall j :: r.Some? && r.value < j ==> !OccursAt(s, t, j)
    ensures r.None? ==> !IsSubstring(t, s)
  {
    if |t| == 0 then
      assert s[|s|..|s|] == t;
      Some(|s|)
    else if |s| == 0 then None
    else LastIndexFrom(s, t, |s| - 1)
  }

  /** `s.rsplit(sep, 1)[-1]`: the text after the last `sep`, or all of `s`. */
  function AfterLast(s: string, sep: string): (r: string)
    requires |sep| > 0
    ensures |r| <= |s| && r == s[|s| - |r|..]
    ensures !IsSubstring(sep, s) ==> r == s
    ensures IsSubstring(sep, s) ==>
              && OccursAt(s, sep, |s| - |r| - |sep|)
              && forall j :: |s| - |r| - |sep| < j ==> !OccursAt(s, sep, j)
  {
    match LastIndexOf(s, sep)
    case None => s
    case Some(i) => s[i + |sep|..]
  }

  /** When `sep` occurs in `sep + tail` only at its start, the text after the
      last `sep` of `head + sep + tail` is `tail`. */
  lemma AfterLastOf(head: string, sep: string, tail: string)
    requires |sep| > 0
    requires forall j :: 0 < j ==> !OccursAt(sep + tail, sep, j)
    ensures AfterLast(head + sep + tail, sep) == tail
  {
    var s := head + sep + tail;
    assert OccursAt(s, sep, |head|);
    var r := AfterLast(s, sep);
    var i := |s| - |r| - |sep|;
    if i > |head| {
      assert s[i..i + |sep|] == (sep + tail)[i - |head|..i - |head| + |sep|];
      assert OccursAt(sep + tail, sep, i - |head|);
    }
  }

  /** The same, for a text known only to end in " - " and `tail`. */
  lemma AfterLastDashSuffix(s: string, tail: string)
    requires ' ' !in tail
    requires |s| >= |tail| + 3 && s[|s| - |tail| - 3..] == " - " + tail
    ensures AfterLast(s, " - ") == tail
  {
    var head := s[..|s| - |tail| - 3];
    assert s == head + " - " + tail;
    AfterLastDash(head, tail);
  }

  /** The " - " separator of the model names: when `tail` has no space, the text
      after the last " - " of `head + " - " + tail` is `tail`. */
  lemma AfterLastDash(head: string, tail: string)
    requires ' ' !in tail
    ensures AfterLast(head + " - " + tail, " - ") == tail
  {
    var st := " - " + tail;
    forall j | 0 < j
      ensures !OccursAt(st, " - ", j)
    {
      if j + 3 <= |st| {
        if j >= 3 {
          assert st[j..j + 3][0] == tail[j - 3];
        } else if j == 2 {
          assert st[j..j + 3][2] == tail[1];
        } else {
          assert st[j..j + 3][0] == '-';
        }
      }
    }
    AfterLastOf(head, " - ", tail);
  }

  // ---------------------------------------------------------------------
  // POSIX paths

  /** The components of a POSIX path as `pathlib` keeps them: separators
      collapsed and `.` components dropped. */
  function PathParts(p: string): (parts: seq<string>)
    ensures forall k :: 0 <= k < |parts| ==> parts[k] != "" && parts[k] != "." && '/' !in parts[k]
  {
    NonTrivial(Split(p, '/'))
  }

  function NonTrivial(pieces: seq<string>): (parts: seq<string>)
    requires forall k :: 0 <= k < |pieces| ==> '/' !in pieces[k]
    ensures forall k :: 0 <= k < |parts| ==> parts[k] != "" && parts[k] != "." && '/' !in parts[k]
  {
    if |pieces| == 0 then []
    else (if pieces[0] == "" || pieces[0] == "." then [] else [pieces[0]]) + NonTrivial(pieces[1..])
  }

  /** `Path(p).name`: the last component, or "" for a root or empty path. */
  function PathName(p: string): (r: string)
    ensures '/' !in r
  {
    var parts := PathParts(p);
    if |parts| == 0 then "" else parts[|parts| - 1]
  }

  /** `Path(p).parent.name`: the last-but-one component, or "". */
  function ParentName(p: string): (r: string)
    ensures '/' !in r
  {
    var parts := PathParts(p);
    if |parts| < 2 then "" else parts[|parts| - 2]
  }

  /** The name of `dir/name` is `name` whenever `name` is a proper component. */
  lemma PathNameOfJoin(dir: string, name: string)
    requires '/' !in name && name != "" && name != "."
    ensures PathName(dir + "/" + name) == name
  {
    var p := dir + "/" + name;
    assert p == (dir + "/" + name);
    SplitDecompose(dir, name);
    var pieces := Split(p, '/');
    assert pieces[|pieces| - 1] == name;
    NonTrivialLast(pieces);
  }

  lemma NonTrivialLast(pieces: seq<string>)
    requires forall k :: 0 <= k < |pieces| ==> '/' !in pieces[k]
    requires |pieces| > 0 && pieces[|pieces| - 1] != "" && pieces[|pieces| - 1] != "."
    ensures |NonTrivial(pieces)| > 0 && NonTrivial(pieces)[|NonTrivial(pieces)| - 1] == pieces[|pieces| - 1]
  {
    if |pieces| > 1 {
      NonTrivialLast(pieces[1..]);
    }
  }

  /** The last piece of `dir + "/" + name` split on `/` is `name`. */
  lemma {:induction false} SplitDecompose(dir: string, name: string)
    requires '/' !in name
    ensures var ps := Split(dir + "/" + name, '/'); |ps| >= 2 && ps[|ps| - 1] == name
    decreases |dir|
  {
    if |dir| == 0 {
      assert dir + "/" + name == "/" + name;
      assert ("/" + name)[1..] == name;
      SplitWithout(name, '/');
    } else {
      var s := dir + "/" + name;
      assert s[1..] == dir[1..] + "/" + name;
      SplitDecompose(dir[1..], name);
    }
  }

  /** `Path(p).suffix` (Python 3.11): from the last dot of the name, when that
      dot is neither the first nor the last character of the name. */
  function Suffix(p: string): (r: string)
    ensures r == "" || (r[0] == '.' && |r| >= 2)
    ensures '/' !in r
  {
    var name := PathName(p);
    match LastIndexOf(name, ".")
    case Some(i) =>
      if 0 < i < |name| - 1 then
        assert name[i..i + 1] == ".";
        name[i..]
      else ""
    case None => ""
  }

  /** `os.path.splitext(name)[1]` for a bare file name: from the last dot,
      unless every character before it is a dot. */
  function SplitExt(name: string): (r: string)
    ensures r == "" || (|r| <= |name| && r[0] == '.' && r == name[|name| - |r|..])
    ensures '.' !in name ==> r == ""
  {
    match LastIndexOf(name, ".")
    case Some(i) =>
      if exists j :: 0 <= j < i && name[j] != '.' then
        assert name[i..i + 1][0] == name[i];
        name[i..]
      else ""
    case None =>
      if '.' in name then
        var j :| 0 <= j < |name| && name[j] == '.';
        assert OccursAt(name, ".", j) by {
          assert name[j..j + 1] == [name[j]];
        }
        ""
      else ""
  }
}
